=== FILE: README.md ===
# CPU-pinned synchronization contexts: a Dafny model

This project models the task-dispatch core of a family of .NET
`SynchronizationContext`s whose worker threads are pinned to logical
processors:

- **The shared context group** (`SharedSynchronizationContext`). A group
  holds an ordered bag of contexts (`SharedSynchronizationContextImpl`).
  Each context has its own FIFO queue, its own pinned runners
  (`ThreadRunner`), a `_hardLock` word and a manual-reset job event.
- **The loan protocol.** A runner that has been starved for more than
  300 ms can be lent to the first context of the bag that has queued work.
  The loan is a `Registration`: it retargets the runner's `TasksSource` and
  remembers the queue the runner read before. A loan ends in one of two
  ways:
  - the runner starves again and disposes its own registration;
  - its home context recalls every loan on the next `Post` that finds
    `_hardLock` clear.

  A runner that finds nothing to borrow arms `_hardLock` and blocks on its
  home job event.
- **The two simpler pools.**
  - `MultiThreadSynchronizationContext` pins one thread to each processor of
    a consecutive range.
  - `SwitchCoresSynchronizationContext` gives thread `k` the processor pair
    `(2k, 2k+1)` and swaps it between the two every 5000 ms.

  Both share one queue, the same `_hardLock`/`AutoResetEvent` handshake in
  `Post`, and the same 300 ms starvation rule.

Every public operation is one atomic, pure transition on an immutable state.

**State of the group**
- The group's state (`SharedState.Group`) keeps contexts, runners,
  registrations and queues in maps keyed by identity. It also holds the bag
  and the group's cancellation flag.
- Queues have identities because `RemoveExternalRunner` points a runner at
  a brand-new queue.
- Time enters as explicit stopwatch readings (`idleMs`, `invertMs`),
  advanced by `Elapse`.
- Blocking enters as a per-runner wait state (`Running`, `Parking`,
  `Waiting`) or a per-thread `blocked` flag.

**Invariants**
- The loan invariant `Invariants.Valid` is preserved by every operation. It
  covers:
  - referential integrity;
  - a runner holds at most one live loan;
  - a runner reads its loan target's queue while on loan and its home queue otherwise;
  - every live loan is listed in its home's exported list;
  - a context in the bag never has more exported registrations than runners.
- `ThreadRunners.NoLostWakeup` says that every runner about to block or
  blocked will be woken by the next `Post` to its home.

Modules follow the source files:

| Module | What it models |
|---|---|
| `Base` | list helpers |
| `Affinity` | 32-bit arithmetic and `1 << p` masks |
| `TaskQueue` | queues |
| `SharedState` | state and small context operations |
| `Invariants` | the loan invariant |
| `Registrations` | `Registration.cs` |
| `Broker` | `TryExportIdleThread` |
| `ContextImpl` | `SharedSynchronizationContextImpl.cs` |
| `ThreadRunners` | `ThreadRunner.cs` |
| `SharedGroup` | `SharedSynchronizationContext.cs` |
| `Pools` | the loop shared by both pools |
| `MultiThread` | `MultiThreadSynchronizationContext.cs` |
| `SwitchCores` | `SwitchCoresSynchronizationContext.cs` |

## Notes on the code

- **Lending cap.** The guard `_exportedRunners.Count < _runners.Count`
  (src/SharedContext/SharedSynchronizationContextImpl.cs:61) lets every
  runner of a context be on loan at once. The proved bound is
  `exported <= runners`.
- **Broker scan.** The scan at src/SharedContext/SharedSynchronizationContext.cs:37
  does not skip the requester's home context, so a runner can be "lent" to
  its own home (`Broker.ExportMayTargetHome`).
- **No upper clamp in the pools.** The shared context clamps a thread
  count above the processor count. The two pools replace only a negative
  count (`MultiThread.NoUpperClamp`).

## Model

| member | source | states |
|---|---|---|
| Affinity.RangeLength | src/SharedContext/SharedSynchronizationContextImpl.cs:44 | the number of processors a `for (p = start; p < start + count; p++)` loop visits never reaches past `int.MaxValue` |
| Affinity.RangeLengthIsLoopCount | src/SharedContext/SharedSynchronizationContextImpl.cs:44 | that number is exactly the distance from `start` to the loop bound `start + count` computed with 32-bit wrap-around, and zero when the wrapped bound falls below `start` |
| Affinity.Mask | src/SharedContext/ThreadRunner.cs:53 | the affinity mask `1 << p` is a 32-bit `int` whose unsigned bit pattern is `2^(p mod 32)` |
| Affinity.MaskShape | src/SharedContext/ThreadRunner.cs:53 | processors 0..30 get a positive power of two, processor 31 gets the sign bit, and processors 32 apart share a mask |
| TaskQueue.Enqueue | src/SharedContext/SharedSynchronizationContextImpl.cs:101 | a posted task goes to the tail and every queued task keeps its place |
| TaskQueue.TryDequeue | src/SharedContext/ThreadRunner.cs:61 | a dequeue fails exactly on an empty queue and otherwise hands out the head and keeps the rest in order |
| TaskQueue.Fifo | src/SharedContext/ThreadRunner.cs:61-66 | tasks are handed out in the order they were queued: earlier contents first, then the posted tasks in posting order |
| SharedState.NewRunner | src/SharedContext/ThreadRunner.cs:24-39 | a new runner reads its home queue, holds no registration (not `Exported`), runs with a fresh stopwatch, is pinned with `1 << processor`, and its linked source reports cancellation exactly when the group's token does |
| SharedState.CancelSource | src/SharedContext/ThreadRunner.cs:102 | cancelling a runner's own source makes its token report cancellation whatever the group does, and changes nothing else about the runner |
| SharedState.DisposeSource | src/SharedContext/ThreadRunner.cs:103 | disposing a runner's linked source keeps the answer its token gives now, and a token that has not reported cancellation never reports it afterwards, whatever the group does |
| SharedState.RegisterExternalRunner | src/SharedContext/SharedSynchronizationContextImpl.cs:80-87 | the target records the foreign runner at the end of its imported list, the runner reads the target's queue, and nothing else changes |
| SharedState.RemoveExternalRunner | src/SharedContext/SharedSynchronizationContextImpl.cs:89-97 | one occurrence of the runner leaves the imported list and the runner is pointed at a new empty queue whose identity no other object holds |
| SharedState.ContextDisposing | src/SharedContext/SharedSynchronizationContext.cs:46-52 | the context's first occurrence leaves the bag, the other contexts keep their order, and nothing else in the group changes |
| Invariants.AtMostOneLoan | src/SharedContext/ThreadRunner.cs:73-86 | in a valid state two live registrations of the same runner are the same registration; the fact is the `LiveLoansHeld` conjunct of `Valid` read back, and its force comes from the lemmas that every operation preserves `Valid` |
| Registrations.Create | src/SharedContext/Registration.cs:15-22 | the new live registration remembers the runner's queue from before the loan; the runner then reads the target's queue and is listed in the target's imported runners |
| Registrations.Dispose | src/SharedContext/Registration.cs:24-30 | the registration always ends disposed; a second call changes nothing; the first call removes the runner from the target's imported list and restores the remembered queue |
| Registrations.DisposeIdempotent | src/SharedContext/Registration.cs:26 | disposing twice has the same effect as disposing once |
| Registrations.DisposeRestoresNative | src/SharedContext/Registration.cs:28-29 | after the first disposal the runner reads the queue remembered at creation, not the fresh queue `RemoveExternalRunner` installed |
| Registrations.DisposeFrame | src/SharedContext/Registration.cs:24-30 | disposal changes only its own runner's queue pointer and its own target's imported list; every other runner, context and registration, and every existing queue's contents, are unchanged |
| Registrations.CreateDisposeRoundTrip | src/SharedContext/Registration.cs:15-30 | creating a loan and disposing it restores the runner exactly and the target's imported runners as a multiset, with no existing queue changed |
| Registrations.DisposePreservesValid | src/SharedContext/Registration.cs:24-30 | disposing any registration keeps the loan invariant |
| Broker.FirstWithWork | src/SharedContext/SharedSynchronizationContext.cs:37 | finds the first position in bag order whose context has queued work, and reports none exactly when no later context has work |
| Broker.TryExportIdleThread | src/SharedContext/SharedSynchronizationContext.cs:33-44 | returns no registration exactly when no context in the bag has work, and then leaves the group alone; otherwise the loan targets a context with work that no earlier context in the bag has |
| Broker.ExportMayTargetHome | src/SharedContext/SharedSynchronizationContext.cs:37 | when the requester's own home is the first context with work, the runner is lent to its own home |
| ContextImpl.EffectiveThreadCount | src/SharedContext/SharedSynchronizationContextImpl.cs:30-33 | the thread count lies in `[0, ProcessorCount]`; an in-range count is kept and a negative or too large one becomes `ProcessorCount` |
| ContextImpl.EffectiveThreadCountIdempotent | src/SharedContext/SharedSynchronizationContextImpl.cs:30-33 | clamping a clamped count changes nothing |
| ContextImpl.RunnerCount | src/SharedContext/SharedSynchronizationContextImpl.cs:30-48 | a context gets at most `ProcessorCount` runners: the clamped count when `startingCpu + count` fits in an `int`, none when it overflows |
| ContextImpl.NewContextShape | src/SharedContext/SharedSynchronizationContextImpl.cs:35-48 | a new context has an empty new queue, nothing imported or exported, `_hardLock` clear and the event reset; its `k`-th runner (in increasing identity order) is pinned to `startingCpu + k` and reads that queue |
| ContextImpl.NewContextFresh | src/SharedContext/SharedSynchronizationContextImpl.cs:35-48 | the context, its queue and its runners are new objects, the only runners added are its own, and every existing runner is unchanged |
| ContextImpl.TryNotifyIdle | src/SharedContext/SharedSynchronizationContextImpl.cs:55-78 | it lends exactly when fewer registrations are exported than runners are owned and some context in the bag has work. On success the new registration is appended to the exported list and `_hardLock` and the event are unchanged. On failure there is no registration, the event is reset, `_hardLock` is set and nothing else changes |
| ContextImpl.TryNotifyIdleLends | src/SharedContext/SharedSynchronizationContextImpl.cs:61-67 | a successful request is the broker's registration for the chosen target, recorded in the home's exported list |
| ContextImpl.TryNotifyIdleFailureValid | src/SharedContext/SharedSynchronizationContextImpl.cs:71-77 | a failed request keeps the loan invariant |
| ContextImpl.Post | src/SharedContext/SharedSynchronizationContextImpl.cs:99-123 | after a `Post` the context's `_hardLock` is clear, whichever branch ran |
| ContextImpl.PostEnqueues | src/SharedContext/SharedSynchronizationContextImpl.cs:101 | the posted task is appended to the tail of the context's own queue |
| ContextImpl.PostWakes | src/SharedContext/SharedSynchronizationContextImpl.cs:103-107 | with `_hardLock` set, `Post` clears it, sets the event and recalls nothing |
| ContextImpl.PostRecalls | src/SharedContext/SharedSynchronizationContextImpl.cs:108-121 | with `_hardLock` clear, every exported registration is disposed, the exported list ends empty, and the event is set exactly when something was lent out (or it was already set) |
| ContextImpl.PostNothingLent | src/SharedContext/SharedSynchronizationContextImpl.cs:110-121 | with `_hardLock` clear and nothing lent out, `Post` only enqueues |
| ContextImpl.PostPreservesValid | src/SharedContext/SharedSynchronizationContextImpl.cs:99-123 | `Post` keeps the loan invariant |
| ContextImpl.RecallOne | src/SharedContext/SharedSynchronizationContextImpl.cs:116-118 | recalling one loan disposes its registration, removes one occurrence from the exported list and sets the event, keeping the context's other fields |
| ContextImpl.RecallAllEffect | src/SharedContext/SharedSynchronizationContextImpl.cs:114-119 | recalling a list of loans removes exactly those registrations from the exported multiset, disposes each, sets the event iff the list is non-empty (or it was set), and leaves `_hardLock` and the queue alone |
| ContextImpl.Dispose | src/SharedContext/SharedSynchronizationContextImpl.cs:125-138 | the context leaves the bag as `ContextDisposing` removes it, its runner list and queue are cleared, registrations and other contexts are unchanged, runners change only in their sources, and every runner of the context reports cancellation for good |
| ContextImpl.DisposeAsWritten | src/SharedContext/SharedSynchronizationContextImpl.cs:125-138 | the same bookkeeping, but each runner of the context keeps its current answer to cancellation and, if it has not reported cancellation, never reports it afterwards |
| ContextImpl.DisposeAgreesOnceCancelled | src/SharedContext/SharedSynchronizationContext.cs:56-62 | once the group's token has fired, and unless a runner of the context is already detached, disposing the context as written is exactly the corrected disposal |
| ContextImpl.DisposeAsWrittenPreservesValid | src/SharedContext/SharedSynchronizationContextImpl.cs:125-138 | the disposal as written keeps the loan invariant too |
| ContextImpl.DisposePreservesValid | src/SharedContext/SharedSynchronizationContextImpl.cs:125-138 | disposing a context keeps the loan invariant |
| ThreadRunners.SelfRecall | src/SharedContext/ThreadRunner.cs:73-78 | a starved runner on loan ends up without a registration, so it is no longer `Exported`; only its queue pointer and registration change, so the starvation stopwatch keeps running |
| ThreadRunners.Borrow | src/SharedContext/ThreadRunner.cs:83-86 | after a successful request the runner holds the new registration; only its queue pointer and registration change, so the starvation stopwatch keeps running |
| ThreadRunners.Starved | src/SharedContext/ThreadRunner.cs:83-93 | a starved runner at home either borrows, holding the next registration with only its queue pointer changed (the stopwatch is not restarted), or parks, and then its home has `_hardLock` set and the event reset |
| ThreadRunners.Step | src/SharedContext/ThreadRunner.cs:59-97 | the loop ends exactly when a running runner's token reports cancellation; a running, uncancelled runner runs a task exactly when its current queue is non-empty, and the task is the head of the runner's current queue, only that head is removed, the stopwatch restarts and no loan changes; a pass with nothing queued before starvation changes nothing; a waiting runner wakes exactly when its home event is set, with the stopwatch restarted, and otherwise nothing changes; a parking runner blocks exactly when it was parking; a recall happens exactly for a starved, idle runner that is `Exported` and leaves it not `Exported`; a borrow or a park happens only for a starved, idle runner that is not `Exported`, and a borrow gets the next registration; parking leaves `_hardLock` set and the home event reset; a recall or a borrow does not restart the stopwatch and leaves the runner running, so a runner whose borrowed queue empties gives the loan back and asks again at once; a borrowing runner holds the registration it reports |
| ThreadRunners.Resume | src/SharedContext/ThreadRunner.cs:91-92 | a blocked runner returns from `WaitOne()` exactly when its home event is set, with its stopwatch restarted and no loan or context changed |
| ThreadRunners.Pass | src/SharedContext/ThreadRunner.cs:61-96 | a running runner dequeues exactly when its queue is non-empty, spins without change while not starved, gives a loan back exactly when starved and `Exported`, and otherwise borrows or parks with `_hardLock` set and the event reset; a recall or a borrow leaves the stopwatch and wait state alone, and a borrowing runner holds the registration it reports |
| ThreadRunners.Elapse | src/SharedContext/ThreadRunner.cs:68 | time passing only advances the runner's starvation stopwatch and touches no loan bookkeeping |
| ThreadRunners.StepValid | src/SharedContext/ThreadRunner.cs:59-97 | every iteration of the runner loop keeps the loan invariant |
| ThreadRunners.QuietStep | src/SharedContext/ThreadRunner.cs:59-97 | an iteration that is not a starved, runnable, idle one (it runs a task, spins, blocks, wakes or halts) leaves all loan bookkeeping unchanged |
| ThreadRunners.BorrowValid | src/SharedContext/ThreadRunner.cs:83-86 | a runner holding no registration can be lent while its home has lent fewer runners than it owns, and the loan invariant holds afterwards |
| ThreadRunners.RecallReturnsHome | src/SharedContext/ThreadRunner.cs:73-78 | a runner that gives its loan back is off loan and reads its home queue |
| ThreadRunners.StaleSelfRecall | src/SharedContext/ThreadRunner.cs:75 | when the home has already recalled the loan, the runner's own `Dispose` is a no-op and it only forgets the registration |
| ThreadRunners.SelfRecallKeepsExported | src/SharedContext/ThreadRunner.cs:75-76 | giving a loan back leaves every context's exported list as it was, so the disposed entry still counts against the home's lending cap |
| ThreadRunners.BorrowTakesWork | src/SharedContext/ThreadRunner.cs:83-86 | a borrowing runner is lent to a context in the bag that has work; it reads that context's queue under a live loan, and the loan is listed in its home's exported list |
| ThreadRunners.StepKeepsNoLostWakeup | src/SharedContext/ThreadRunner.cs:87-93 | with the corrected parking, no iteration creates a blocked runner that no `Post` to its home will wake |
| ThreadRunners.PostKeepsNoLostWakeup | src/SharedContext/SharedSynchronizationContextImpl.cs:103-121 | `Post` never strands a blocked runner |
| ThreadRunners.PostWakesWaiters | src/SharedContext/ThreadRunner.cs:87-93 | under the corrected parking, a runner blocked on its home event wakes on its next iteration after any `Post` to its home |
| ThreadRunners.Park | src/SharedContext/ThreadRunner.cs:87-93 | blocking without the second `Reset()` preserves the no-lost-wakeup property |
| ThreadRunners.ParkAsWritten | src/SharedContext/ThreadRunner.cs:90-91 | as written, the runner resets its home event before waiting, whatever a concurrent `Post` set, and changes no loan bookkeeping |
| ThreadRunners.LostWakeup | src/SharedContext/ThreadRunner.cs:90 | as written, a `Post` between a failed `TryNotifyIdle` and `Reset()` is erased; a later `Post` sets nothing while nothing is lent out, and the runner stays blocked with work queued at home |
| ThreadRunners.WakeupErased | src/SharedContext/ThreadRunner.cs:90 | the `Reset()` after the first `Post` leaves the runner waiting with `_hardLock` clear and the event reset |
| ThreadRunners.StaysBlocked | src/SharedContext/ThreadRunner.cs:91 | with `_hardLock` clear, the event reset and nothing lent out, a `Post` leaves a waiting runner blocked although its home queue has work |
| SharedGroup.New | src/SharedContext/SharedSynchronizationContext.cs:13-17 | a new group has an empty bag, no objects and no cancellation, and satisfies both invariants |
| SharedGroup.GetSynchronizationContext | src/SharedContext/SharedSynchronizationContext.cs:19-31 | exactly one new context, with its runners, is appended at the end of the bag |
| SharedGroup.GetSynchronizationContextOpens | src/SharedContext/SharedSynchronizationContext.cs:19-31 | opening a context adds only new objects: every existing runner is unchanged, and every new runner belongs to the new context, reads its queue, holds no loan and runs |
| SharedGroup.GetSynchronizationContextValid | src/SharedContext/SharedSynchronizationContext.cs:19-31 | opening a context keeps the loan invariant |
| SharedGroup.GetSynchronizationContextKeepsWakeups | src/SharedContext/SharedSynchronizationContext.cs:19-31 | opening a context strands no blocked runner |
| SharedGroup.DisposeAllBag | src/SharedContext/SharedSynchronizationContext.cs:59-62 | disposing a snapshot of contexts removes one bag occurrence per disposed context |
| SharedGroup.DisposeStep | src/SharedContext/SharedSynchronizationContextImpl.cs:125-138 | disposing one context removes one bag occurrence and keeps every context's queue identity, `_hardLock` and event, the runners up to their cancellation sources (a cancelled token stays cancelled) and the cancellation flag |
| SharedGroup.DisposedContextOutlivesGroup | src/SharedContext/ThreadRunner.cs:103 | a context disposed on its own as written leaves its running runner running, so the `Join` would not return, and the group's later cancellation does not halt it either |
| SharedGroup.ContextDisposeHaltsRunners | src/SharedContext/SharedSynchronizationContextImpl.cs:130-134 | with each runner's source cancelled, every running runner of a context disposed on its own leaves its loop on its next pass |
| SharedGroup.Dispose | src/SharedContext/SharedSynchronizationContext.cs:54-64 | after the group is disposed, cancellation has fired and the bag is empty |
| SharedGroup.DisposeValid | src/SharedContext/SharedSynchronizationContext.cs:54-64 | disposing the group keeps the loan invariant |
| SharedGroup.DisposeHaltsRunners | src/SharedContext/SharedSynchronizationContext.cs:56 | after the group is disposed, every running runner whose source was not detached by an earlier disposal of its context leaves its loop on its next iteration |
| SharedGroup.DisposeLeavesWaitersBlocked | src/SharedContext/SharedSynchronizationContext.cs:54-64 | a runner blocked on a reset event stays blocked after the group is disposed, because cancellation does not signal the event |
| SharedGroup.DisposeWaking | src/SharedContext/ThreadRunner.cs:100-104 | the corrected group disposal ends cancelled with an empty bag, changes no loan, and leaves the job event of every context that was in the bag set |
| SharedGroup.DisposeWakesWaiters | src/SharedContext/ThreadRunner.cs:100-104 | after the corrected disposal a runner blocked on its home event wakes on its next iteration and halts on the one after, so its `Join` returns |
| SharedGroup.WakeThenHalt | src/SharedContext/ThreadRunner.cs:59-92 | a runner whose token reports cancellation and that waits on a set event wakes, then leaves its loop |
| SharedGroup.DisposeKeepsWakeups | src/SharedContext/SharedSynchronizationContext.cs:54-64 | disposing the group keeps the no-lost-wakeup property |
| Pools.NewThread | src/MultiThreadSynchronizationContext.cs:53-59 | a pool thread starts pinned with mask `1 << ProcessorId`, running, with both stopwatches at zero |
| Pools.Post | src/MultiThreadSynchronizationContext.cs:87-94 | the task goes to the tail; the event is set iff `_hardLock` was 1 (or it was already set); `_hardLock` is 0 afterwards; threads and cancellation are unchanged |
| Pools.Send | src/MultiThreadSynchronizationContext.cs:82-85 | `Send` is refused with a non-empty message and leaves the pool unchanged |
| Pools.Step | src/MultiThreadSynchronizationContext.cs:61-79 | one pass: halts iff a running thread sees cancellation; wakes iff blocked and the event is set, consuming it and restarting starvation, and stays blocked, changing nothing, iff the event is clear; runs the queue head, restarting starvation, iff running, not cancelled and the queue is non-empty; spins, changing nothing, iff running, not cancelled, the queue is empty and the stopwatch has not passed 300 ms; parks iff running, not cancelled, the queue is empty and the stopwatch passed 300 ms, which sets `_hardLock`; only parking touches `_hardLock`; no pass moves a thread to another processor |
| Pools.Unlock | src/MultiThreadSynchronizationContext.cs:96-106 | disposal first cancels every thread, clears `_hardLock` and sets the event, keeping threads and queue |
| Pools.Dispose | src/MultiThreadSynchronizationContext.cs:96-117 | a disposed pool is cancelled with `_hardLock` 0 and an empty thread list and queue |
| Pools.PostValid | src/MultiThreadSynchronizationContext.cs:87-94 | `Post` keeps the handshake invariant: `_hardLock` set implies an empty queue, and some thread still listens |
| Pools.StepValid | src/MultiThreadSynchronizationContext.cs:61-79 | every loop pass keeps the handshake invariant |
| Pools.WorkIsPickedUp | src/MultiThreadSynchronizationContext.cs:61-94 | with each pass and each `Post` atomic: while the pool is live and work is queued, some thread's next pass runs a task or returns from `WaitOne` |
| Pools.PostWakesOneAtATime | src/MultiThreadSynchronizationContext.cs:87-94 | two posts reaching two blocked threads wake only one: the second post finds `_hardLock` already clear, and the auto-reset event releases a single waiter |
| Pools.DisposeReleasesOneWaiter | src/MultiThreadSynchronizationContext.cs:104-112 | `Dispose` sets the event once, so of two blocked threads only one wakes and halts while the other stays blocked, and joining it does not return |
| Pools.ThreadCount | src/MultiThreadSynchronizationContext.cs:18 | a negative count becomes `ProcessorCount` and any other value is kept, with no upper clamp; the switching pool applies the same rule (src/SwitchCoresSynchronizationContext.cs line 18) |
| MultiThread.Create | src/MultiThreadSynchronizationContext.cs:16-41 | the pool has one thread per processor the loop visits; thread `k` is pinned to `startingCpu + k` with that processor's mask; all threads run; the queue is empty |
| MultiThread.CreateCoversRange | src/MultiThreadSynchronizationContext.cs:25-40 | when the range fits in an `int`, processor `q` has a thread iff `q` lies in `[startingCpu, startingCpu + count)`, and no two threads share a processor |
| MultiThread.NoUpperClamp | src/MultiThreadSynchronizationContext.cs:18-25 | a count above `ProcessorCount` is used as given, so there are more threads than processors |
| MultiThread.OverflowStartsNothing | src/MultiThreadSynchronizationContext.cs:25 | when `startingCpu + count` overflows, no thread is started |
| MultiThread.CreateValid | src/MultiThreadSynchronizationContext.cs:16-41 | a new pool satisfies the handshake invariant |
| MultiThread.StepKeepsPinned | src/MultiThreadSynchronizationContext.cs:53-79 | the loop never moves a thread: every thread stays on its processor with its mask |
| SwitchCores.Half | src/SwitchCoresSynchronizationContext.cs:25 | `threadsCount >> 1` is the largest `h` with `2h <= threadsCount` |
| SwitchCores.Create | src/SwitchCoresSynchronizationContext.cs:16-38 | there are `threadsCount >> 1` threads; thread `k` has processor `2k` and next processor `2k+1`, is pinned to the one it sits on, and runs |
| SwitchCores.PairsPartition | src/SwitchCoresSynchronizationContext.cs:25-32 | processor `q` belongs to thread `k` iff `q / 2 == k`, so the pairs are disjoint, and every processor handed out is below `threadsCount` |
| SwitchCores.Invert | src/SwitchCoresSynchronizationContext.cs:86-93 | the thread's two processors swap and the mask becomes that of its new processor; nothing else changes |
| SwitchCores.InvertInvolutive | src/SwitchCoresSynchronizationContext.cs:88-89 | inverting twice restores a pinned thread, and an inversion keeps the thread's pair |
| SwitchCores.Step | src/SwitchCoresSynchronizationContext.cs:59-83 | one pass is the shared loop's pass, with the same outcome, blocked state and starvation stopwatch, followed by an inversion (restarting the inverting stopwatch) iff the pass ran a task or spun and the stopwatch passed 5000 ms; a pass that blocked or woke skips the check |
| SwitchCores.StepValid | src/SwitchCoresSynchronizationContext.cs:59-83 | a pass of the switching loop keeps the handshake invariant |
| SwitchCores.StepKeepsPairs | src/SwitchCoresSynchronizationContext.cs:78-92 | every thread stays within its own pair, pinned to the processor it sits on |
| SwitchCores.OverdueThreadSwitches | src/SwitchCoresSynchronizationContext.cs:78-82 | a thread whose inverting stopwatch passed 5000 ms and which finds work runs the queue head and moves to the other processor of its pair |

## Left out

- Concurrency. Every operation is one atomic step and interleavings are
  not modelled. This includes:
  - the `lock`s and `Interlocked` exchanges;
  - the race in which a `Post` runs between `TryNotifyIdle`'s two writes;
  - pool threads racing on the `AutoResetEvent`.
- `ManualResetEvent` and `AutoResetEvent` are modelled as boolean flags.
  Blocking is a wait state that a later `Step` resolves. `Thread.Join`
  is not modelled, so `ThreadRunner.Dispose` and the pools' `Dispose`
  do not wait. `DisposeLeavesWaitersBlocked`,
  `DisposedContextOutlivesGroup` and `DisposeReleasesOneWaiter` show the
  states in which that join would not return.
- Cancellation plumbing is reduced to one flag per group and pool and a
  three-state token per runner (`Linked`, `Cancelled`, `Detached`). The
  user-supplied token and `CancellationToken` registrations are not
  modelled.
- `Stopwatch` and `SpinWait`. Time is an explicit stopwatch value advanced
  by `Elapse`, and spinning is a step that changes nothing.
- Processor affinity and the P/Invoke layer: `OSApi`,
  `ProcessThread.IdealProcessor` and `ProcessorAffinity`. Only the mask
  arithmetic `1 << p` is kept. `Environment.ProcessorCount` is a parameter.
- Task callbacks are opaque and represented by task ids. `Console`
  logging, the demo driver `src/Program.cs` and the record
  `src/LocalThreadState.cs` (folded into `Pools.PoolThread`) are out.
- The pools keep their threads in a `ConcurrentBag`, whose enumeration
  order is unspecified. The model keeps them in creation order.
- MultiThread.Create: the multi-thread pool leaves `ProcessorIdNext` at 0
  and has no inverting stopwatch. Its threads carry both fields unused.
- Pools.Dispose: `_event.Dispose()` is not modelled. Its single `Set()`
  releases one of several blocked threads (`DisposeReleasesOneWaiter`);
  no corrected pool disposal is modelled, because the repair depends on
  which event kind the pool should use.
- ThreadRunners.Step: it is the loop with `Park` in place of line 90's
  second `Reset()` (see Findings); `ParkAsWritten` is the loop as
  written.
- ContextImpl.Dispose: it cancels each runner's source where the source
  only disposes it (see Findings); `DisposeAsWritten` is the method as
  written. Neither waits for the runners' threads, and a runner blocked
  on its home event (`DisposeLeavesWaitersBlocked`) would still keep the
  `Join` from returning; `SharedGroup.DisposeWaking` corrects that at the
  level of the group (see Findings).
- SharedGroup.DisposeHaltsRunners: it requires the runner's source not to
  be `Detached`. Only `ContextImpl.DisposeAsWritten` detaches a source,
  and `DisposedContextOutlivesGroup` shows such a runner is not halted.
- ContextImpl.Post: stated as a composition of `PostWakes`,
  `PostRecalls` and `PostNothingLent`. Its own contract only states that
  `_hardLock` ends clear.

## Findings

| source | as written | input that shows it | evidently intended | confidence | as-written member | corrected member |
|---|---|---|---|---|---|---|
| src/SharedContext/ThreadRunner.cs:90 | After a failed `TryNotifyIdle` (which already reset the event and set `_hardLock` under the lock), the runner calls `_hasJobEvent.Reset()` again before `WaitOne()`. A `Post` landing in between clears `_hardLock` and sets the event; the `Reset()` erases that signal. | A context with nothing lent out, one runner parking after a failed `TryNotifyIdle`: `Post(t1)`, then the runner's `Reset()` and `WaitOne()`, then `Post(t2)`. The second `Post` finds `_hardLock` clear and nothing to recall, so it sets no event and the runner stays blocked with two tasks queued. | The runner waits on the event exactly as `TryNotifyIdle` left it, so a `Post` after the failed request always wakes it. | medium, not executed | ThreadRunners.LostWakeup | ThreadRunners.PostWakesWaiters |
| src/SharedContext/ThreadRunner.cs:103 | `ThreadRunner.Dispose`, under the comment "throw cancellation event", calls `_cancellationTokenSource?.Dispose()`, which unlinks the runner's source from the group's token without cancelling it, and then joins the thread. | A group that has not cancelled, one context with a running runner; dispose the context on its own. The runner's token never reports cancellation, its loop goes on and the `Join` does not return; the group's later `Dispose` fires a token the runner no longer follows. | Each runner's source is cancelled (`Cancel()`) before the join, so disposing a context on its own halts its runners. | high, not executed | SharedGroup.DisposedContextOutlivesGroup | SharedGroup.ContextDisposeHaltsRunners |
| src/SharedContext/ThreadRunner.cs:104 | `ThreadRunner.Dispose` joins the runner's thread, but neither it nor the group's `Dispose` sets the home job event, and cancelling the token does not signal it. | A group with a runner blocked in `WaitOne()` on a reset event (it failed `TryNotifyIdle` with nothing to borrow); dispose the group. The runner's iterations stay blocked and change nothing, so the `Join` never returns. | Disposing sets each context's job event, so a blocked runner wakes, sees the cancellation and ends, and the `Join` returns. | high, not executed | SharedGroup.DisposeLeavesWaitersBlocked | SharedGroup.DisposeWakesWaiters |

`ThreadRunners.ParkAsWritten` models the loop as written.
`ThreadRunners.LostWakeup` exhibits the stranded runner; it is split into
`WakeupErased` and `StaysBlocked`. `ThreadRunners.Park` is the corrected
parking, which `ThreadRunners.Step` uses, and `PostWakesWaiters` and
`StepKeepsNoLostWakeup` prove the intended no-lost-wakeup guarantee about it.

`ContextImpl.DisposeAsWritten` models the context disposal as written and
`SharedGroup.DisposedContextOutlivesGroup` exhibits the runner it leaves
running. `ContextImpl.Dispose` is the corrected disposal, which the group's
`Dispose` uses. `ContextImpl.DisposeAgreesOnceCancelled` shows that, once
the group's token has fired (the group's `Dispose` fires it first), the two
disposals of a context are equal provided no runner of that context was
already detached. Only an earlier `DisposeAsWritten` detaches a source, and
nothing in the loan invariant rules that out, so the agreement is stated
per context under that premise and not lifted to the whole group.

Up to that premise, `SharedGroup.Dispose` is the group disposal as written, and
`SharedGroup.DisposeLeavesWaitersBlocked` exhibits the runner it leaves
blocked; `ThreadRunners.Step` leaves such a runner's state unchanged on
every later iteration. `SharedGroup.DisposeWaking` is the corrected
disposal and `SharedGroup.DisposeWakesWaiters` proves that the blocked
runner wakes and then halts.

=== FILE: affinity.dfy ===
/** The affinity mask every pool computes as `(IntPtr)(1 << processorId)`.
    The shift is on a 32-bit C# `int`: the shift count is reduced to its low
    five bits and bit 31 is the sign bit, so the mask wraps every 32
    processors and processor 31 yields `int.MinValue`. The module also
    counts the processors a constructor's
    `for (p = start; p < start + count; p++)` loop visits, where the bound
    is computed on a 32-bit `int` as well. */
module Affinity {

  const IntMin: int := -0x8000_0000
  const IntMax: int := 0x7fff_ffff

  predicate Int32(x: int)
  {
    IntMin <= x <= IntMax
  }

  /** A C# `int` sum: the mathematical value reduced into the 32-bit range. */
  function Wrap32(x: int): (w: int)
    ensures Int32(w)
    ensures Int32(x) ==> w == x
    ensures (w - x) % 0x1_0000_0000 == 0
  {
    (x - IntMin) % 0x1_0000_0000 + IntMin
  }

  /** How many processors `for (p = start; p < start + count; p++)` visits
      for a non-negative `count`: all `count` of them while the bound fits
      in an `int`, none once it overflows. `RangeLengthIsLoopCount` checks
      this against the loop's wrapped bound. */
  function RangeLength(start: int, count: nat): (n: nat)
    requires Int32(start) && Int32(count)
    ensures start + n <= IntMax + 1
  {
    if start + count <= IntMax then count else 0
  }

  /** The loop visits `start, start + 1, ...` while below the wrapped bound
      `Wrap32(start + count)`; each visited `p` is below that bound, so
      `p++` never wraps itself. */
  lemma RangeLengthIsLoopCount(start: int, count: nat)
    requires Int32(start) && Int32(count)
    ensures var bound := Wrap32(start + count);
      RangeLength(start, count) == if bound > start then bound - start else 0
  {
    if start + count > IntMax {
      assert Wrap32(start + count) == start + count - 0x1_0000_0000;
    }
  }

  function Pow2(n: nat): (r: nat)
    ensures r >= 1
  {
    if n == 0 then 1 else 2 * Pow2(n - 1)
  }

  lemma {:induction false} Pow2Increasing(a: nat, b: nat)
    requires a < b
    ensures Pow2(a) < Pow2(b)
  {
    if b != a + 1 {
      Pow2Increasing(a, b - 1);
    }
  }

  lemma Pow2At31()
    ensures Pow2(31) == 0x8000_0000
  {
    assert Pow2(8) == 0x100;
    assert Pow2(16) == 0x1_0000;
    assert Pow2(24) == 0x100_0000;
  }

  /** The value of `1 << p` for a C# `int`, widened to `IntPtr`. */
  function Mask(p: int): (m: int)
    ensures -0x8000_0000 <= m < 0x8000_0000
    ensures Unsigned32(m) == Pow2(p % 32)
  {
    Pow2At31();
    var s := p % 32;
    if s == 31 then -0x8000_0000
    else
      Pow2Increasing(s, 31);
      Pow2(s)
  }

  /** The 32-bit pattern of a C# `int`, read as unsigned. */
  function Unsigned32(m: int): int
  {
    if m < 0 then m + 0x1_0000_0000 else m
  }

  /** For processors 0..30 the mask is the plain power of two; processor 31
      sets the sign bit; and every processor id shares its mask with the id
      32 above it. */
  lemma MaskShape(p: int)
    ensures 0 <= p < 31 ==> Mask(p) == Pow2(p) && Mask(p) > 0
    ensures p % 32 == 31 ==> Mask(p) == -0x8000_0000
    ensures Mask(p + 32) == Mask(p)
  {
    assert (p + 32) % 32 == p % 32;
  }
}

=== FILE: base.dfy ===
/** Small shared vocabulary: an optional value and the list removal used by
    `List<T>.Remove` throughout the source. */
module Base {

  datatype Option<+T> = None | Some(value: T)

  /** Position of the first occurrence of `x` in `xs`. */
  function IndexOf<T(==)>(xs: seq<T>, x: T): (i: nat)
    requires x in xs
    ensures i < |xs| && xs[i] == x
    ensures forall k :: 0 <= k < i ==> xs[k] != x
  {
    if xs[0] == x then 0 else IndexOf(xs[1..], x) + 1
  }

  /** `List<T>.Remove(x)`: drops the first occurrence of `x` and leaves the
      list alone when `x` is absent. */
  function RemoveFirst<T(==)>(xs: seq<T>, x: T): (r: seq<T>)
    ensures |r| <= |xs|
  {
    if |xs| == 0 then []
    else if xs[0] == x then xs[1..]
    else [xs[0]] + RemoveFirst(xs[1..], x)
  }

  /** Removal takes one copy of `x` out of the list's multiset of elements,
      if there is one, and nothing else. */
  lemma {:induction false} RemoveFirstMultiset<T>(xs: seq<T>, x: T)
    ensures multiset(RemoveFirst(xs, x)) == multiset(xs) - multiset{x}
  {
    if |xs| > 0 {
      assert xs == [xs[0]] + xs[1..];
      if xs[0] != x {
        RemoveFirstMultiset(xs[1..], x);
      }
    }
  }

  /** Removal cuts out exactly the first occurrence and keeps every other
      element in its original order. */
  lemma RemoveFirstShape<T>(xs: seq<T>, x: T)
    requires x in xs
    ensures RemoveFirst(xs, x) == xs[..IndexOf(xs, x)] + xs[IndexOf(xs, x) + 1..]
  {
    RemoveFirstAt(xs, x, IndexOf(xs, x));
  }

  lemma {:induction false} RemoveFirstAt<T>(xs: seq<T>, x: T, i: nat)
    requires i < |xs| && xs[i] == x && forall k :: 0 <= k < i ==> xs[k] != x
    ensures RemoveFirst(xs, x) == xs[..i] + xs[i + 1..]
    decreases i
  {
    if i > 0 {
      var tail := xs[1..];
      assert forall k :: 0 <= k < i - 1 ==> tail[k] != x by {
        forall k | 0 <= k < i - 1 ensures tail[k] != x {
          assert tail[k] == xs[k + 1];
        }
      }
      calc {
        RemoveFirst(xs, x);
        [xs[0]] + RemoveFirst(tail, x);
        { RemoveFirstAt(tail, x, i - 1); }
        [xs[0]] + (tail[..i - 1] + tail[i..]);
        { assert xs[..i] == [xs[0]] + tail[..i - 1]; assert xs[i + 1..] == tail[i..]; }
        xs[..i] + xs[i + 1..];
      }
    }
  }

  /** Removing an absent element changes nothing. */
  lemma {:induction false} RemoveFirstAbsent<T>(xs: seq<T>, x: T)
    requires x !in xs
    ensures RemoveFirst(xs, x) == xs
  {
    if |xs| > 0 {
      assert x !in xs[1..];
      RemoveFirstAbsent(xs[1..], x);
      assert xs == [xs[0]] + xs[1..];
    }
  }

  /** Removal only ever drops elements. */
  lemma RemoveFirstSubset<T>(xs: seq<T>, x: T)
    ensures forall y :: y in RemoveFirst(xs, x) ==> y in xs
  {
    RemoveFirstMultiset(xs, x);
    forall y | y in RemoveFirst(xs, x) ensures y in xs {
      assert multiset(RemoveFirst(xs, x))[y] > 0;
    }
  }

  /** What `List<T>.Remove(x)` does, in one place: the first occurrence
      is cut out when there is one, the list is unchanged otherwise, and
      one copy of `x` leaves the multiset. */
  lemma RemoveFirstFacts<T>(xs: seq<T>, x: T)
    ensures x in xs ==> RemoveFirst(xs, x) == xs[..IndexOf(xs, x)] + xs[IndexOf(xs, x) + 1..]
    ensures x !in xs ==> RemoveFirst(xs, x) == xs
    ensures multiset(RemoveFirst(xs, x)) == multiset(xs) - multiset{x}
  {
    RemoveFirstMultiset(xs, x);
    if x in xs {
      RemoveFirstShape(xs, x);
    } else {
      RemoveFirstAbsent(xs, x);
    }
  }

  /** No element occurs twice in the list. */
  ghost predicate Distinct<T(!new)>(xs: seq<T>)
  {
    forall x :: multiset(xs)[x] <= 1
  }

  /** Removing the one occurrence of `x` from a list without duplicates leaves
      no occurrence behind and keeps the list free of duplicates. */
  lemma RemoveFirstDistinct<T(!new)>(xs: seq<T>, x: T)
    requires Distinct(xs)
    ensures Distinct(RemoveFirst(xs, x))
    ensures x !in RemoveFirst(xs, x)
  {
    RemoveFirstMultiset(xs, x);
    assert multiset(RemoveFirst(xs, x))[x] == 0;
  }

  /** Appending an element the list lacks keeps it free of duplicates. */
  lemma DistinctAppend<T(!new)>(xs: seq<T>, x: T)
    requires Distinct(xs) && x !in xs
    ensures Distinct(xs + [x])
  {
    assert multiset(xs + [x]) == multiset(xs) + multiset{x};
  }

  /** Taking away `b` and then `c` is taking away `b + c`. */
  lemma MultisetMinusMinus<T>(a: multiset<T>, b: multiset<T>, c: multiset<T>)
    ensures a - b - c == a - (b + c)
  {
    assert forall x :: (a - b - c)[x] == (a - (b + c))[x];
  }

  /** Taking away a list's head and then its tail is taking away the list. */
  lemma MultisetMinusSeq<T>(a: multiset<T>, xs: seq<T>)
    requires xs != []
    ensures a - multiset{xs[0]} - multiset(xs[1..]) == a - multiset(xs)
  {
    assert multiset(xs) == multiset{xs[0]} + multiset(xs[1..]) by {
      assert xs == [xs[0]] + xs[1..];
    }
    MultisetMinusMinus(a, multiset{xs[0]}, multiset(xs[1..]));
  }
}

=== FILE: broker.dfy ===
/** `SharedSynchronizationContext.TryExportIdleThread`: the group lends an
    idle runner to the first context of the bag, in bag order, that has
    queued work. The scan does not skip the runner's own home context. */
module Broker {
  import opened Base
  import opened SharedState
  import opened Invariants
  import Registrations

  /** The bag lists contexts whose queues exist, so `HasWork` can be asked
      of each of them. */
  ghost predicate BagReady(g: Group)
  {
    forall k :: 0 <= k < |g.bag| ==> g.bag[k] in g.contexts && g.contexts[g.bag[k]].tasks in g.queues
  }

  lemma WfBagReady(g: Group)
    requires Wf(g)
    ensures BagReady(g)
  {
    forall k | 0 <= k < |g.bag|
      ensures g.bag[k] in g.contexts && g.contexts[g.bag[k]].tasks in g.queues
    {
      assert g.bag[k] in g.bag;
    }
  }

  /** The position, from `from` on, of the first context in the bag that has
      work; `None` when no context from there on has any. */
  function FirstWithWork(g: Group, from: nat): (i: Option<nat>)
    requires BagReady(g) && from <= |g.bag|
    ensures i.Some? ==>
      && from <= i.value < |g.bag| && HasWork(g, g.bag[i.value])
      && forall k :: from <= k < i.value ==> !HasWork(g, g.bag[k])
    ensures i.None? ==> forall k :: from <= k < |g.bag| ==> !HasWork(g, g.bag[k])
    decreases |g.bag| - from
  {
    if from == |g.bag| then None
    else if HasWork(g, g.bag[from]) then Some(from)
    else FirstWithWork(g, from + 1)
  }

  /** `TryExportIdleThread(runner)`: a new registration lending `r` to the
      first context in bag order with work, or nothing when no context in
      the bag has work. */
  function TryExportIdleThread(g: Group, r: RunnerId): (res: (Group, Option<RegistrationId>))
    requires Wf(g) && r in g.runners
    ensures res.1.None? <==> forall c :: c in g.bag ==> !HasWork(g, c)
    ensures res.1.None? ==> res.0 == g
    ensures res.1.Some? ==>
      && res.1.value == g.nextId && res.1.value in res.0.registrations
      && var t := res.0.registrations[res.1.value].target;
      && t in g.bag && HasWork(g, t)
      && (forall k :: 0 <= k < IndexOf(g.bag, t) ==> !HasWork(g, g.bag[k]))
      && (res.0, res.1.value) == Registrations.Create(g, r, t)
  {
    WfBagReady(g);
    match FirstWithWork(g, 0)
    case None =>
      assert forall c :: c in g.bag ==> !HasWork(g, c) by {
        forall c | c in g.bag ensures !HasWork(g, c) {
          assert g.bag[IndexOf(g.bag, c)] == c;
        }
      }
      (g, None)
    case Some(i) =>
      var t := g.bag[i];
      assert IndexOf(g.bag, t) <= i;
      var (g', id) := Registrations.Create(g, r, t);
      (g', Some(id))
  }

  /** The scan does not exclude the requesting runner's home: when the home
      context is the first one in the bag with work, the runner is lent to
      its own home. */
  lemma ExportMayTargetHome(g: Group, r: RunnerId)
    requires Wf(g) && r in g.runners
    requires var h := g.runners[r].home;
      h in g.bag && HasWork(g, h) && forall k :: 0 <= k < IndexOf(g.bag, h) ==> !HasWork(g, g.bag[k])
    ensures var (g', id) := TryExportIdleThread(g, r);
      id.Some? && g'.registrations[id.value].target == g.runners[r].home
  {
  }
}

=== FILE: context_impl.dfy ===
/** `SharedSynchronizationContextImpl`: one context of the group, with its
    own queue and runners. It lends idle runners through the group
    (`TryNotifyIdle`) and takes them back when work arrives (`Post`). */
module ContextImpl {
  import opened Base
  import opened TaskQueue
  import opened SharedState
  import opened Invariants
  import Registrations
  import Broker
  import Affinity

  /** The constructor replaces a negative thread count, or one above the
      processor count, by the processor count. */
  function EffectiveThreadCount(threadsCount: int, processorCount: nat): (n: nat)
    ensures n <= processorCount
    ensures 0 <= threadsCount <= processorCount ==> n == threadsCount
    ensures threadsCount < 0 || threadsCount > processorCount ==> n == processorCount
  {
    if threadsCount < 0 || threadsCount > processorCount then processorCount else threadsCount
  }

  /** Clamping an already clamped count changes nothing. */
  lemma EffectiveThreadCountIdempotent(threadsCount: int, processorCount: nat)
    ensures EffectiveThreadCount(EffectiveThreadCount(threadsCount, processorCount), processorCount)
         == EffectiveThreadCount(threadsCount, processorCount)
  {
  }

  /** The arguments as the C# types allow them: `startingCpu` and
      `threadsCount` are `int`s and the processor count is a positive
      `int`. */
  predicate CtorArgs(startingCpu: int, threadsCount: int, processorCount: nat)
  {
    Affinity.Int32(startingCpu) && Affinity.Int32(threadsCount) && 0 < processorCount <= Affinity.IntMax
  }

  /** How many runners the constructor's loop starts: the clamped count,
      unless `startingCpu + count` overflows an `int`, in which case the
      loop bound wraps below `startingCpu` and the loop starts none. */
  function RunnerCount(startingCpu: int, threadsCount: int, processorCount: nat): (n: nat)
    requires CtorArgs(startingCpu, threadsCount, processorCount)
    ensures n <= processorCount
    ensures startingCpu + EffectiveThreadCount(threadsCount, processorCount) <= Affinity.IntMax ==>
      n == EffectiveThreadCount(threadsCount, processorCount)
    ensures startingCpu + EffectiveThreadCount(threadsCount, processorCount) > Affinity.IntMax ==> n == 0
  {
    Affinity.RangeLength(startingCpu, EffectiveThreadCount(threadsCount, processorCount))
  }

  /** The runners `m` plus those a new context starts with: runner
      `first + k` runs on processor `startingCpu + k` and reads the
      context's queue `q`. */
  function AddRunners(m: map<RunnerId, Runner>, c: ContextId, q: QueueId, first: nat, n: nat, startingCpu: int)
    : (m': map<RunnerId, Runner>)
    ensures forall r :: r in m' <==> r in m || first <= r < first + n
    ensures forall r :: r in m' ==>
      m'[r] == if first <= r < first + n then NewRunner(c, startingCpu + (r - first), q) else m[r]
  {
    if n == 0 then m
    else AddRunners(m, c, q, first, n - 1, startingCpu)[first + n - 1 := NewRunner(c, startingCpu + (n - 1), q)]
  }

  /** The runner identities of a new context, in processor order. */
  function RunnerIds(first: nat, n: nat): (ids: seq<RunnerId>)
    ensures |ids| == n && forall k :: 0 <= k < n ==> ids[k] == first + k
  {
    seq(n, k requires 0 <= k < n => first + k)
  }

  /** `new SharedSynchronizationContextImpl(host, startingCpu, threadsCount,
      name)`: the context takes the next identity, its queue the one after,
      and its runners the following ones, one per processor of the clamped
      range; nothing that existed changes. `NewContextShape` states what
      the new objects look like. */
  function NewContext(g: Group, startingCpu: int, threadsCount: int, name: string, processorCount: nat): (res: (Group, ContextId))
    requires CtorArgs(startingCpu, threadsCount, processorCount)
    ensures var (g', c) := res;
      var n := RunnerCount(startingCpu, threadsCount, processorCount);
      && c == g.nextId
      && g'.contexts == g.contexts[c := Context(name, c + 1, RunnerIds(c + 2, n), [], [], false, false)]
      && g'.runners == AddRunners(g.runners, c, c + 1, c + 2, n, startingCpu)
      && g'.queues == g.queues[c + 1 := []]
      && g'.bag == g.bag && g'.registrations == g.registrations && g'.cancelled == g.cancelled
      && g'.nextId == g.nextId + 2 + n
  {
    var n := RunnerCount(startingCpu, threadsCount, processorCount);
    var c := g.nextId;
    var ctx := Context(name, c + 1, RunnerIds(c + 2, n), [], [], false, false);
    (g.(contexts := g.contexts[c := ctx], runners := AddRunners(g.runners, c, c + 1, c + 2, n, startingCpu),
        queues := g.queues[c + 1 := []], nextId := c + 2 + n), c)
  }

  /** A new context owns exactly one runner per processor in
      `[startingCpu, startingCpu + n)`, in increasing order, each starting on
      the context's new, empty queue with no loan; the context lends nothing,
      imports nothing, is not hard-locked and its job event is reset. The
      runners that existed are unchanged. */
  lemma NewContextShape(g: Group, startingCpu: int, threadsCount: int, name: string, processorCount: nat)
    requires CtorArgs(startingCpu, threadsCount, processorCount)
    ensures var (g', c) := NewContext(g, startingCpu, threadsCount, name, processorCount);
      var n := RunnerCount(startingCpu, threadsCount, processorCount);
      && c in g'.contexts
      && var ctx := g'.contexts[c];
      && ctx.name == name && ctx.imported == [] && ctx.exported == []
      && !ctx.hardLock && !ctx.hasJobEvent
      && ctx.tasks in g'.queues && g'.queues[ctx.tasks] == []
      && |ctx.runners| == n
      && (forall k :: 0 <= k < n ==>
            ctx.runners[k] in g'.runners && g'.runners[ctx.runners[k]] == NewRunner(c, startingCpu + k, ctx.tasks))
      && (forall i, j :: 0 <= i < j < n ==> ctx.runners[i] < ctx.runners[j])
  {
    NewContextRunners(g, startingCpu, threadsCount, name, processorCount);
  }

  lemma NewContextRunners(g: Group, startingCpu: int, threadsCount: int, name: string, processorCount: nat)
    requires CtorArgs(startingCpu, threadsCount, processorCount)
    ensures var (g', c) := NewContext(g, startingCpu, threadsCount, name, processorCount);
      var n := RunnerCount(startingCpu, threadsCount, processorCount);
      && c in g'.contexts
      && var ctx := g'.contexts[c];
      && |ctx.runners| == n && ctx.tasks == c + 1
      && (forall k :: 0 <= k < n ==>
            ctx.runners[k] in g'.runners && g'.runners[ctx.runners[k]] == NewRunner(c, startingCpu + k, c + 1))
  {
  }

  /** Every identity a new context takes is fresh, so nothing that existed
      changes, and its runners are exactly the runners that were added. */
  lemma NewContextFresh(g: Group, startingCpu: int, threadsCount: int, name: string, processorCount: nat)
    requires CtorArgs(startingCpu, threadsCount, processorCount) && IdsBelow(g)
    ensures var (g', c) := NewContext(g, startingCpu, threadsCount, name, processorCount);
      var ctx := g'.contexts[c];
      && c !in g.contexts && ctx.tasks !in g.queues
      && (forall k :: 0 <= k < |ctx.runners| ==> ctx.runners[k] !in g.runners)
      && (forall r :: r in g'.runners && r !in g.runners ==> r in ctx.runners)
      && (forall r :: r in g.runners ==> r in g'.runners && g'.runners[r] == g.runners[r])
  {
    var (g', c) := NewContext(g, startingCpu, threadsCount, name, processorCount);
    var n := RunnerCount(startingCpu, threadsCount, processorCount);
    var ids := RunnerIds(c + 2, n);
    assert g'.contexts[c].runners == ids;
    forall r | r in g'.runners && r !in g.runners ensures r in ids {
      assert ids[r - (c + 2)] == r;
    }
  }

  /** What `TryNotifyIdle` hands back: the new state, the boolean result and
      the `out` registration. */
  datatype IdleReply = IdleReply(g: Group, ok: bool, registration: Option<RegistrationId>)

  /** `TryNotifyIdle(runner, out registration)`, asked of context `c`: while
      `c` has lent fewer runners than it owns, the group tries to lend the
      runner to the first context in the bag with work, and a loan is
      recorded in `c`'s exported list. On every other path the registration
      is null, the job event is reset and `_hardLock` is set. */
  function TryNotifyIdle(g: Group, c: ContextId, r: RunnerId): (rep: IdleReply)
    requires Wf(g) && c in g.contexts && r in g.runners
    ensures rep.ok <==> rep.registration.Some?
    ensures rep.ok <==>
      |g.contexts[c].exported| < |g.contexts[c].runners| && exists t :: t in g.bag && HasWork(g, t)
    ensures !rep.ok ==>
      rep.g == g.(contexts := g.contexts[c := g.contexts[c].(hasJobEvent := false, hardLock := true)])
    ensures rep.ok ==>
      var id := rep.registration.value;
      && id == g.nextId && c in rep.g.contexts && id in rep.g.registrations
      && var reg := rep.g.registrations[id];
      && reg == Registration(r, reg.target, g.runners[r].tasksSource, false)
      && reg.target in g.bag && HasWork(g, reg.target)
      && rep.g.contexts[c].exported == g.contexts[c].exported + [id]
      && rep.g.contexts[c].hardLock == g.contexts[c].hardLock
      && rep.g.contexts[c].hasJobEvent == g.contexts[c].hasJobEvent
      && rep.g.runners == g.runners[r := g.runners[r].(tasksSource := g.contexts[reg.target].tasks)]
  {
    var ctx := g.contexts[c];
    var fail := IdleReply(g.(contexts := g.contexts[c := ctx.(hasJobEvent := false, hardLock := true)]), false, None);
    if |ctx.exported| < |ctx.runners| then
      var (g1, found) := Broker.TryExportIdleThread(g, r);
      match found
      case None => fail
      case Some(id) =>
        var ctx1 := g1.contexts[c];
        IdleReply(g1.(contexts := g1.contexts[c := ctx1.(exported := ctx1.exported + [id])]), true, Some(id))
    else
      assert !(|ctx.exported| < |ctx.runners|);
      fail
  }

  /** The state after a successful `TryNotifyIdle` of context `c` for runner
      `r` whose loan goes to `t`. */
  function Lend(g: Group, c: ContextId, r: RunnerId, t: ContextId): (g': Group)
    requires c in g.contexts && r in g.runners && t in g.contexts
    ensures c in g'.contexts && r in g'.runners && g.nextId in g'.registrations
  {
    var (g1, id) := Registrations.Create(g, r, t);
    var ctx1 := g1.contexts[c];
    g1.(contexts := g1.contexts[c := ctx1.(exported := ctx1.exported + [id])])
  }

  /** A successful `TryNotifyIdle` is a `Lend` to the target of the new
      registration. */
  lemma TryNotifyIdleLends(g: Group, c: ContextId, r: RunnerId)
    requires Wf(g) && c in g.contexts && r in g.runners
    ensures var rep := TryNotifyIdle(g, c, r);
      rep.ok ==>
      var t := rep.g.registrations[rep.registration.value].target;
      t in g.contexts && rep.g == Lend(g, c, r, t)
  {
    var ctx := g.contexts[c];
    if |ctx.exported| < |ctx.runners| {
      var (g1, found) := Broker.TryExportIdleThread(g, r);
      if found.Some? {
        var t := g1.registrations[found.value].target;
        var (g2, id2) := Registrations.Create(g, r, t);
        assert g1 == g2;
      }
    }
  }

  /** A loan adds exactly the new registration, remembering the runner's
      current queue, and leaves the bag and the queues alone. */
  lemma LendRegistrations(g: Group, c: ContextId, r: RunnerId, t: ContextId)
    requires c in g.contexts && r in g.runners && t in g.contexts
    ensures var g' := Lend(g, c, r, t);
      && g'.registrations == g.registrations[g.nextId := Registration(r, t, g.runners[r].tasksSource, false)]
      && g'.runners == g.runners[r := g.runners[r].(tasksSource := g.contexts[t].tasks)]
      && g'.bag == g.bag && g'.queues == g.queues
      && g'.nextId == g.nextId + 1 && g'.cancelled == g.cancelled
  {
  }

  /** A loan grows only the lending context's exported list, by the new
      registration, and every context keeps its queue, its runner list,
      `_hardLock` and its job event. */
  lemma LendContexts(g: Group, c: ContextId, r: RunnerId, t: ContextId)
    requires c in g.contexts && r in g.runners && t in g.contexts
    ensures var g' := Lend(g, c, r, t);
      && g'.contexts.Keys == g.contexts.Keys
      && g'.contexts[c].exported == g.contexts[c].exported + [g.nextId]
      && (forall c' :: c' in g.contexts ==>
            && g'.contexts[c'].tasks == g.contexts[c'].tasks
            && g'.contexts[c'].runners == g.contexts[c'].runners
            && g'.contexts[c'].hardLock == g.contexts[c'].hardLock
            && g'.contexts[c'].hasJobEvent == g.contexts[c'].hasJobEvent
            && (c' != c ==> g'.contexts[c'].exported == g.contexts[c'].exported))
  {
  }

  /** The tail of one recall round: the registration leaves `c`'s exported
      list (`List.Remove`) and the job event is set. */
  function DropExported(g: Group, c: ContextId, id: RegistrationId): (g': Group)
    requires c in g.contexts
    ensures c in g'.contexts && g'.contexts.Keys == g.contexts.Keys
    ensures forall x :: RegistrationOk(g, x) ==> RegistrationOk(g', x)
    ensures multiset(g'.contexts[c].exported) == multiset(g.contexts[c].exported) - multiset{id}
    ensures g'.contexts == g.contexts[c := g.contexts[c].(exported := g'.contexts[c].exported, hasJobEvent := true)]
    ensures g'.runners == g.runners && g'.registrations == g.registrations && g'.queues == g.queues
    ensures g'.bag == g.bag && g'.nextId == g.nextId && g'.cancelled == g.cancelled
  {
    var ctx := g.contexts[c];
    RemoveFirstMultiset(ctx.exported, id);
    g.(contexts := g.contexts[c := ctx.(exported := RemoveFirst(ctx.exported, id), hasJobEvent := true)])
  }

  /** One round of the recall loop of `Post`: the registration is disposed,
      then removed from `c`'s exported list, then the job event is set. */
  function RecallOne(g: Group, c: ContextId, id: RegistrationId): (g': Group)
    requires c in g.contexts && RegistrationOk(g, id)
    ensures g'.contexts.Keys == g.contexts.Keys
    ensures forall x :: RegistrationOk(g, x) ==> RegistrationOk(g', x)
    ensures id in g'.registrations && g'.registrations[id].disposed
    ensures multiset(g'.contexts[c].exported) == multiset(g.contexts[c].exported) - multiset{id}
    ensures g'.contexts[c] == g.contexts[c].(exported := g'.contexts[c].exported, hasJobEvent := true,
                                             imported := g'.contexts[c].imported)
  {
    Registrations.DisposeKeepsRegistrationsOk(g, id);
    DropExported(Registrations.Dispose(g, id), c, id)
  }

  /** The registrations still to recall stay well-formed after one round. */
  lemma RecallOneKeepsRest(g: Group, c: ContextId, regs: seq<RegistrationId>)
    requires c in g.contexts && regs != [] && forall id :: id in regs ==> RegistrationOk(g, id)
    ensures forall x :: x in regs[1..] ==> RegistrationOk(RecallOne(g, c, regs[0]), x)
  {
    forall x | x in regs[1..] ensures RegistrationOk(RecallOne(g, c, regs[0]), x) {
      assert x in regs;
    }
  }

  /** The recall loop of `Post` over the snapshot `regs`. */
  function RecallAll(g: Group, c: ContextId, regs: seq<RegistrationId>): (g': Group)
    requires c in g.contexts && forall id :: id in regs ==> RegistrationOk(g, id)
    ensures g'.contexts.Keys == g.contexts.Keys
    decreases |regs|
  {
    if regs == [] then g
    else
      var g1 := RecallOne(g, c, regs[0]);
      RecallOneKeepsRest(g, c, regs);
      RecallAll(g1, c, regs[1..])
  }

  /** The recall loop takes exactly the snapshot out of the exported list;
      every registration of the snapshot ends disposed; the job event ends
      set if there was anything to recall; `_hardLock` and the queue are the
      same. */
  lemma RecallAllEffect(g: Group, c: ContextId, regs: seq<RegistrationId>)
    requires c in g.contexts && forall id :: id in regs ==> RegistrationOk(g, id)
    ensures var g' := RecallAll(g, c, regs);
      && multiset(g'.contexts[c].exported) == multiset(g.contexts[c].exported) - multiset(regs)
      && (forall id :: id in regs ==> id in g'.registrations && g'.registrations[id].disposed)
      && g'.contexts[c].hasJobEvent == (g.contexts[c].hasJobEvent || regs != [])
      && g'.contexts[c].hardLock == g.contexts[c].hardLock
      && g'.contexts[c].tasks == g.contexts[c].tasks
  {
    RecallAllExported(g, c, regs);
    RecallAllDisposes(g, c, regs);
    RecallAllFlags(g, c, regs);
  }

  lemma {:induction false} RecallAllExported(g: Group, c: ContextId, regs: seq<RegistrationId>)
    requires c in g.contexts && forall id :: id in regs ==> RegistrationOk(g, id)
    ensures var g' := RecallAll(g, c, regs);
      multiset(g'.contexts[c].exported) == multiset(g.contexts[c].exported) - multiset(regs)
    decreases |regs|
  {
    if regs != [] {
      var id := regs[0];
      var g1 := RecallOne(g, c, id);
      var e := multiset(g.contexts[c].exported);
      var e2 := multiset(RecallAll(g, c, regs).contexts[c].exported);
      assert e2 == multiset(g1.contexts[c].exported) - multiset(regs[1..]) by {
        RecallOneKeepsRest(g, c, regs);
        RecallAllExported(g1, c, regs[1..]);
        assert RecallAll(g, c, regs) == RecallAll(g1, c, regs[1..]);
      }
      MultisetMinusSeq(e, regs);
    }
  }

  lemma {:induction false} RecallAllDisposes(g: Group, c: ContextId, regs: seq<RegistrationId>)
    requires c in g.contexts && forall id :: id in regs ==> RegistrationOk(g, id)
    ensures var g' := RecallAll(g, c, regs);
      forall id :: id in regs ==> id in g'.registrations && g'.registrations[id].disposed
    decreases |regs|
  {
    if regs != [] {
      var id := regs[0];
      var g1 := RecallOne(g, c, id);
      RecallOneKeepsRest(g, c, regs);
      RecallAllDisposes(g1, c, regs[1..]);
      RecallAllKeepsDisposed(g1, c, regs[1..], id);
      assert forall x :: x in regs ==> x == id || x in regs[1..];
    }
  }

  lemma {:induction false} RecallAllFlags(g: Group, c: ContextId, regs: seq<RegistrationId>)
    requires c in g.contexts && forall id :: id in regs ==> RegistrationOk(g, id)
    ensures var g' := RecallAll(g, c, regs);
      && g'.contexts[c].hasJobEvent == (g.contexts[c].hasJobEvent || regs != [])
      && g'.contexts[c].hardLock == g.contexts[c].hardLock
      && g'.contexts[c].tasks == g.contexts[c].tasks
    decreases |regs|
  {
    if regs != [] {
      var g1 := RecallOne(g, c, regs[0]);
      RecallOneKeepsRest(g, c, regs);
      RecallAllFlags(g1, c, regs[1..]);
    }
  }

  /** The recall loop leaves every existing queue as it was: disposal only
      allocates fresh ones. */
  lemma {:induction false} RecallAllKeepsQueues(g: Group, c: ContextId, regs: seq<RegistrationId>, q: QueueId)
    requires c in g.contexts && forall x :: x in regs ==> RegistrationOk(g, x)
    requires q in g.queues && q < g.nextId
    ensures var g' := RecallAll(g, c, regs); q in g'.queues && g'.queues[q] == g.queues[q]
    decreases |regs|
  {
    if regs != [] {
      var g1 := RecallOne(g, c, regs[0]);
      RecallOneKeepsQueue(g, c, regs[0], q);
      RecallOneKeepsRest(g, c, regs);
      RecallAllKeepsQueues(g1, c, regs[1..], q);
      assert RecallAll(g, c, regs) == RecallAll(g1, c, regs[1..]);
    }
  }

  /** One round of the recall loop only adds the fresh queue a disposal
      allocates; the queues that existed keep their contents. */
  lemma RecallOneKeepsQueue(g: Group, c: ContextId, id: RegistrationId, q: QueueId)
    requires c in g.contexts && RegistrationOk(g, id)
    requires q in g.queues && q < g.nextId
    ensures var g1 := RecallOne(g, c, id); q in g1.queues && g1.queues[q] == g.queues[q] && q < g1.nextId
  {
  }

  /** The recall loop moves runners between queues only: every runner keeps
      its home and wait state. */
  lemma {:induction false} RecallAllKeepsWaits(g: Group, c: ContextId, regs: seq<RegistrationId>)
    requires c in g.contexts && forall x :: x in regs ==> RegistrationOk(g, x)
    ensures var g' := RecallAll(g, c, regs);
      && (forall r :: r in g'.runners <==> r in g.runners)
      && (forall r :: r in g.runners ==> g'.runners[r].wait == g.runners[r].wait && g'.runners[r].home == g.runners[r].home)
    decreases |regs|
  {
    if regs != [] {
      var g1 := RecallOne(g, c, regs[0]);
      RecallOneKeepsWaits(g, c, regs[0]);
      RecallOneKeepsRest(g, c, regs);
      RecallAllKeepsWaits(g1, c, regs[1..]);
    }
  }

  /** The recall loop keeps every context's `_hardLock`, and every job event
      but `c`'s. */
  lemma {:induction false} RecallAllKeepsLocks(g: Group, c: ContextId, regs: seq<RegistrationId>)
    requires c in g.contexts && forall x :: x in regs ==> RegistrationOk(g, x)
    ensures var g' := RecallAll(g, c, regs);
      forall c' :: c' in g.contexts ==>
        && g'.contexts[c'].hardLock == g.contexts[c'].hardLock
        && (c' != c ==> g'.contexts[c'].hasJobEvent == g.contexts[c'].hasJobEvent)
    decreases |regs|
  {
    if regs != [] {
      var g1 := RecallOne(g, c, regs[0]);
      RecallOneKeepsWaits(g, c, regs[0]);
      RecallOneKeepsRest(g, c, regs);
      RecallAllKeepsLocks(g1, c, regs[1..]);
    }
  }

  lemma RecallOneKeepsWaits(g: Group, c: ContextId, id: RegistrationId)
    requires c in g.contexts && RegistrationOk(g, id)
    ensures var g' := RecallOne(g, c, id);
      && (forall r :: r in g'.runners <==> r in g.runners)
      && (forall r :: r in g.runners ==> g'.runners[r].wait == g.runners[r].wait && g'.runners[r].home == g.runners[r].home)
      && (forall c' :: c' in g.contexts ==>
            && g'.contexts[c'].hardLock == g.contexts[c'].hardLock
            && (c' != c ==> g'.contexts[c'].hasJobEvent == g.contexts[c'].hasJobEvent))
  {
    Registrations.DisposeKeepsRegistrationsOk(g, id);
  }

  /** The recall loop never revives a disposed registration. */
  lemma {:induction false} RecallAllKeepsDisposed(g: Group, c: ContextId, regs: seq<RegistrationId>, id: RegistrationId)
    requires c in g.contexts && forall x :: x in regs ==> RegistrationOk(g, x)
    requires id in g.registrations && g.registrations[id].disposed
    ensures var g' := RecallAll(g, c, regs); id in g'.registrations && g'.registrations[id].disposed
    decreases |regs|
  {
    if regs != [] {
      var g1 := RecallOne(g, c, regs[0]);
      RecallOneKeepsRest(g, c, regs);
      RecallAllKeepsDisposed(g1, c, regs[1..], id);
    }
  }

  /** `Post(d, state)`: the task joins the tail of the context's queue; then
      either the `_hardLock` handshake wakes the context's blocked runners,
      or every exported registration is recalled. `_hardLock` is clear
      afterwards either way. */
  function Post(g: Group, c: ContextId, task: TaskId): (g': Group)
    requires c in g.contexts && g.contexts[c].tasks in g.queues
    requires forall id :: id in g.contexts[c].exported ==> RegistrationOk(g, id)
    ensures c in g'.contexts && !g'.contexts[c].hardLock
  {
    var ctx := g.contexts[c];
    var g1 := g.(queues := g.queues[ctx.tasks := Enqueue(g.queues[ctx.tasks], task)]);
    if ctx.hardLock then
      g1.(contexts := g1.contexts[c := ctx.(hardLock := false, hasJobEvent := true)])
    else
      assert forall id :: id in ctx.exported ==> RegistrationOk(g1, id) by {
        forall id | id in ctx.exported ensures RegistrationOk(g1, id) {
          assert RegistrationOk(g, id);
        }
      }
      RecallAllEffect(g1, c, ctx.exported);
      RecallAll(g1, c, ctx.exported)
  }

  /** With `_hardLock` set, `Post` clears it and sets the job event, and the
      exported list stays as it was. */
  lemma PostWakes(g: Group, c: ContextId, task: TaskId)
    requires c in g.contexts && g.contexts[c].tasks in g.queues
    requires forall id :: id in g.contexts[c].exported ==> RegistrationOk(g, id)
    requires g.contexts[c].hardLock
    ensures var g' := Post(g, c, task);
      && g'.contexts == g.contexts[c := g.contexts[c].(hardLock := false, hasJobEvent := true)]
      && g'.runners == g.runners && g'.registrations == g.registrations
      && g'.bag == g.bag && g'.nextId == g.nextId && g'.cancelled == g.cancelled
  {
  }

  /** With `_hardLock` clear and nothing lent out, `Post` only enqueues: it
      sets no job event. */
  lemma PostNothingLent(g: Group, c: ContextId, task: TaskId)
    requires c in g.contexts && g.contexts[c].tasks in g.queues
    requires !g.contexts[c].hardLock && g.contexts[c].exported == []
    ensures var q := g.contexts[c].tasks;
      Post(g, c, task) == g.(queues := g.queues[q := Enqueue(g.queues[q], task)])
  {
  }

  /** With `_hardLock` clear, `Post` disposes every exported registration
      and empties the exported list; the job event is set iff there was
      something to recall (or it was set already). */
  lemma PostRecalls(g: Group, c: ContextId, task: TaskId)
    requires c in g.contexts && g.contexts[c].tasks in g.queues
    requires forall id :: id in g.contexts[c].exported ==> RegistrationOk(g, id)
    requires !g.contexts[c].hardLock
    ensures var g' := Post(g, c, task);
      && g'.contexts[c].exported == []
      && (forall id :: id in g.contexts[c].exported ==> id in g'.registrations && g'.registrations[id].disposed)
      && g'.contexts[c].hasJobEvent == (g.contexts[c].hasJobEvent || g.contexts[c].exported != [])
  {
    var ctx := g.contexts[c];
    var g1 := g.(queues := g.queues[ctx.tasks := Enqueue(g.queues[ctx.tasks], task)]);
    assert forall id :: id in ctx.exported ==> RegistrationOk(g1, id) by {
      forall id | id in ctx.exported ensures RegistrationOk(g1, id) {
        assert RegistrationOk(g, id);
      }
    }
    RecallAllEffect(g1, c, ctx.exported);
    assert multiset(Post(g, c, task).contexts[c].exported) == multiset{};
  }

  /** `Dispose()` with each runner's `Dispose` cancelling its source, as
      the comment at the call promises: every runner of the context will
      leave its loop on its next pass whatever the group does, the context
      leaves the bag, forgets its runners and drops its queued tasks.
      `DisposeAsWritten` is the method as written. */
  function Dispose(g: Group, c: ContextId): (g': Group)
    requires c in g.contexts && g.contexts[c].tasks in g.queues
    ensures Disposed(g, c, g')
    ensures forall r, later: bool :: r in g.runners && r in g.contexts[c].runners ==>
      CancellationRequested(g'.runners[r], later)
    ensures forall r, later: bool :: r in g.runners && CancellationRequested(g.runners[r], later) ==>
      CancellationRequested(g'.runners[r], later)
  {
    Clear(CancelRunners(g, c), c)
  }

  /** `Dispose()` as written: `ThreadRunner.Dispose` only disposes each
      runner's linked source. A runner whose token has not reported
      cancellation yet is cut off from the group's token and never reports
      it afterwards. */
  function DisposeAsWritten(g: Group, c: ContextId): (g': Group)
    requires c in g.contexts && g.contexts[c].tasks in g.queues
    ensures Disposed(g, c, g')
    ensures forall r :: r in g.runners && r in g.contexts[c].runners ==>
      (CancellationRequested(g'.runners[r], g.cancelled) <==> CancellationRequested(g.runners[r], g.cancelled))
    ensures forall r, later: bool ::
      r in g.runners && r in g.contexts[c].runners && !CancellationRequested(g.runners[r], g.cancelled) ==>
      !CancellationRequested(g'.runners[r], later)
  {
    Clear(DetachRunners(g, c), c)
  }

  /** What both disposals do: the context leaves the bag as
      `ContextDisposing` removes it, its runner list and queue are cleared,
      registrations and every other context are unchanged, and runners
      differ at most in their cancellation source, which can only have
      moved towards reporting cancellation for the runners of other
      contexts. */
  ghost predicate Disposed(g: Group, c: ContextId, g': Group)
    requires c in g.contexts
  {
    && g'.bag == ContextDisposing(g, c).bag
    && g'.contexts == g.contexts[c := g.contexts[c].(runners := [])]
    && g'.queues == g.queues[g.contexts[c].tasks := []]
    && g'.registrations == g.registrations && g'.nextId == g.nextId && g'.cancelled == g.cancelled
    && g'.runners.Keys == g.runners.Keys
    && (forall r :: r in g.runners ==> g'.runners[r] == g.runners[r].(token := g'.runners[r].token))
    && (forall r :: r in g.runners && r !in g.contexts[c].runners ==> g'.runners[r] == g.runners[r])
  }

  /** Once the group's token has fired, disposing a source no longer loses
      anything: unless one of its runners was already detached, disposing a
      context as written is the corrected disposal. This is why the group's
      `Dispose`, which fires its token first, may use the corrected one. */
  lemma DisposeAgreesOnceCancelled(g: Group, c: ContextId)
    requires g.cancelled && c in g.contexts && g.contexts[c].tasks in g.queues
    requires forall r :: r in g.contexts[c].runners && r in g.runners ==> g.runners[r].token != Detached
    ensures Dispose(g, c) == DisposeAsWritten(g, c)
  {
    var cancelled, detached := CancelRunners(g, c), DetachRunners(g, c);
    assert cancelled.runners == detached.runners by {
      forall r | r in g.runners ensures cancelled.runners[r] == detached.runners[r] {
        if r in g.contexts[c].runners {
          assert detached.runners[r] == DisposeSource(g.runners[r], true) == CancelSource(g.runners[r]);
        }
      }
    }
    assert cancelled == detached;
  }

  /** Each runner of `c` cancels its own source. */
  function CancelRunners(g: Group, c: ContextId): (g': Group)
    requires c in g.contexts
    ensures g' == g.(runners := g'.runners) && g'.runners.Keys == g.runners.Keys
    ensures forall r :: r in g.runners ==> g'.runners[r] == g.runners[r].(token := g'.runners[r].token)
    ensures forall r :: r in g.runners && r !in g.contexts[c].runners ==> g'.runners[r] == g.runners[r]
    ensures forall r, later: bool :: r in g.runners && r in g.contexts[c].runners ==>
      CancellationRequested(g'.runners[r], later)
  {
    var rs := g.contexts[c].runners;
    g.(runners := map r | r in g.runners :: if r in rs then CancelSource(g.runners[r]) else g.runners[r])
  }

  /** Each runner of `c` disposes its own source. */
  function DetachRunners(g: Group, c: ContextId): (g': Group)
    requires c in g.contexts
    ensures g' == g.(runners := g'.runners) && g'.runners.Keys == g.runners.Keys
    ensures forall r :: r in g.runners ==> g'.runners[r] == g.runners[r].(token := g'.runners[r].token)
    ensures forall r :: r in g.runners && r !in g.contexts[c].runners ==> g'.runners[r] == g.runners[r]
    ensures forall r :: r in g.runners && r in g.contexts[c].runners ==>
      (CancellationRequested(g'.runners[r], g.cancelled) <==> CancellationRequested(g.runners[r], g.cancelled))
    ensures forall r, later: bool ::
      r in g.runners && r in g.contexts[c].runners && !CancellationRequested(g.runners[r], g.cancelled) ==>
      !CancellationRequested(g'.runners[r], later)
  {
    var rs := g.contexts[c].runners;
    g.(runners := map r | r in g.runners :: if r in rs then DisposeSource(g.runners[r], g.cancelled) else g.runners[r])
  }

  /** The rest of `Dispose()`: `ContextDisposing`, `_runners.Clear()` and
      `_tasks.Clear()`. */
  function Clear(g: Group, c: ContextId): (g': Group)
    requires c in g.contexts && g.contexts[c].tasks in g.queues
    ensures g'.bag == ContextDisposing(g, c).bag
    ensures g'.contexts == g.contexts[c := g.contexts[c].(runners := [])]
    ensures g'.queues == g.queues[g.contexts[c].tasks := []]
    ensures g'.runners == g.runners && g'.registrations == g.registrations
    ensures g'.nextId == g.nextId && g'.cancelled == g.cancelled
  {
    var ctx := g.contexts[c];
    g.(bag := ContextDisposing(g, c).bag,
       contexts := g.contexts[c := ctx.(runners := [])], queues := g.queues[ctx.tasks := []])
  }

  /** `Post` appends the task to the tail of the context's own queue, on
      both paths; recalling loans does not touch that queue. */
  lemma PostEnqueues(g: Group, c: ContextId, task: TaskId)
    requires Wf(g) && c in g.contexts
    ensures var q := g.contexts[c].tasks; var g' := Post(g, c, task);
      && g'.contexts[c].tasks == q && q in g'.queues && g'.queues[q] == Enqueue(g.queues[q], task)
  {
    var ctx := g.contexts[c];
    var g1 := g.(queues := g.queues[ctx.tasks := Enqueue(g.queues[ctx.tasks], task)]);
    if !ctx.hardLock {
      assert forall id :: id in ctx.exported ==> RegistrationOk(g1, id) by {
        forall id | id in ctx.exported ensures RegistrationOk(g1, id) {
          assert RegistrationOk(g, id);
        }
      }
      RecallAllFlags(g1, c, ctx.exported);
      RecallAllKeepsQueues(g1, c, ctx.exported, ctx.tasks);
    }
  }

  /** `Post` keeps the loan invariant. */
  lemma PostPreservesValid(g: Group, c: ContextId, task: TaskId)
    requires Valid(g) && c in g.contexts
    ensures Valid(Post(g, c, task))
  {
    var ctx := g.contexts[c];
    var g1 := g.(queues := g.queues[ctx.tasks := Enqueue(g.queues[ctx.tasks], task)]);
    assert SameLoans(g, g1);
    SameLoansValid(g, g1);
    if ctx.hardLock {
      PostWakeValid(g1, c);
    } else {
      assert forall id :: id in ctx.exported ==> RegistrationOk(g1, id) by {
        forall id | id in ctx.exported ensures RegistrationOk(g1, id) {
          assert RegistrationOk(g, id);
        }
      }
      RecallAllValid(g1, c, ctx.exported);
    }
  }

  lemma PostWakeValid(g: Group, c: ContextId)
    requires Valid(g) && c in g.contexts
    ensures Valid(g.(contexts := g.contexts[c := g.contexts[c].(hardLock := false, hasJobEvent := true)]))
  {
    var g' := g.(contexts := g.contexts[c := g.contexts[c].(hardLock := false, hasJobEvent := true)]);
    assert SameLoans(g, g');
    SameLoansValid(g, g');
  }

  lemma {:induction false} RecallAllValid(g: Group, c: ContextId, regs: seq<RegistrationId>)
    requires Valid(g) && c in g.contexts && forall id :: id in regs ==> RegistrationOk(g, id)
    ensures Valid(RecallAll(g, c, regs))
    decreases |regs|
  {
    if regs != [] {
      var g1 := RecallOne(g, c, regs[0]);
      RecallOneValid(g, c, regs[0]);
      RecallOneKeepsRest(g, c, regs);
      RecallAllValid(g1, c, regs[1..]);
    }
  }

  lemma RecallOneValid(g: Group, c: ContextId, id: RegistrationId)
    requires Valid(g) && c in g.contexts && RegistrationOk(g, id)
    ensures Valid(RecallOne(g, c, id))
  {
    Registrations.DisposePreservesValid(g, id);
    var g1 := Registrations.Dispose(g, id);
    DropExportedShrinks(g1, c, id);
    ShrinksValid(g1, DropExported(g1, c, id));
  }

  /** Dropping a disposed registration from an exported list only ends
      bookkeeping. */
  lemma DropExportedShrinks(g: Group, c: ContextId, id: RegistrationId)
    requires c in g.contexts && !Live(g, id)
    ensures Shrinks(g, DropExported(g, c, id))
  {
    var g' := DropExported(g, c, id);
    assert ShrinksFrame(g, g');
    assert forall r :: LoanTarget(g', r) == LoanTarget(g, r);
    assert ShrinksRunners(g, g');
    DropExportedLists(g, c, id);
  }

  lemma DropExportedLists(g: Group, c: ContextId, id: RegistrationId)
    requires c in g.contexts && !Live(g, id)
    ensures Extends(g, DropExported(g, c, id)) && ShrinksLists(g, DropExported(g, c, id))
  {
    var g' := DropExported(g, c, id);
    var xs := g.contexts[c].exported;
    RemoveFirstSubset(xs, id);
    RemoveFirstMultiset(xs, id);
    assert |g'.contexts[c].exported| <= |xs| by {
      assert |multiset(g'.contexts[c].exported)| <= |multiset(xs)|;
    }
    assert forall x :: x in xs && x != id ==> x in g'.contexts[c].exported by {
      forall x | x in xs && x != id ensures x in g'.contexts[c].exported {
        assert multiset(g'.contexts[c].exported)[x] == multiset(xs)[x];
      }
    }
  }

  /** A failed `TryNotifyIdle` only resets the job event and sets
      `_hardLock`, so it keeps the loan invariant. */
  lemma TryNotifyIdleFailureValid(g: Group, c: ContextId, r: RunnerId)
    requires Valid(g) && c in g.contexts && r in g.runners
    ensures !TryNotifyIdle(g, c, r).ok ==> Valid(TryNotifyIdle(g, c, r).g)
  {
    var rep := TryNotifyIdle(g, c, r);
    if !rep.ok {
      assert SameLoans(g, rep.g);
      SameLoansValid(g, rep.g);
    }
  }

  /** Disposing a context keeps the loan invariant: it leaves the bag, so
      clearing its runners cannot break the export bound. */
  lemma DisposePreservesValid(g: Group, c: ContextId)
    requires Valid(g) && c in g.contexts
    ensures Valid(Dispose(g, c))
  {
    var g1 := CancelRunners(g, c);
    assert SameLoans(g, g1);
    SameLoansValid(g, g1);
    ClearPreservesValid(g1, c);
  }

  /** So does the disposal as written. */
  lemma DisposeAsWrittenPreservesValid(g: Group, c: ContextId)
    requires Valid(g) && c in g.contexts
    ensures Valid(DisposeAsWritten(g, c))
  {
    var g1 := DetachRunners(g, c);
    assert SameLoans(g, g1);
    SameLoansValid(g, g1);
    ClearPreservesValid(g1, c);
  }

  lemma ClearPreservesValid(g: Group, c: ContextId)
    requires Valid(g) && c in g.contexts
    ensures Valid(Clear(g, c))
  {
    var g' := Clear(g, c);
    ClearFrame(g, c);
    ClearRunners(g, c);
    ClearLists(g, c);
    ShrinksValid(g, g');
  }

  lemma ClearRunners(g: Group, c: ContextId)
    requires Wf(g) && c in g.contexts
    ensures Extends(g, Clear(g, c)) && ShrinksRunners(g, Clear(g, c))
  {
    ClearExtends(g, c);
    SameRunnersShrinkRunners(g, Clear(g, c));
  }

  /** A step that touches no runner and no registration keeps every
      runner's loan. */
  lemma SameRunnersShrinkRunners(g: Group, g': Group)
    requires Extends(g, g') && g'.runners == g.runners && g'.registrations == g.registrations
    ensures ShrinksRunners(g, g')
  {
    assert forall r :: LoanTarget(g', r) == LoanTarget(g, r);
  }

  lemma ClearFrame(g: Group, c: ContextId)
    requires Wf(g) && c in g.contexts
    ensures ShrinksFrame(g, Clear(g, c))
  {
    var g' := Clear(g, c);
    ClearExtends(g, c);
    assert multiset(g'.bag) <= multiset(g.bag) by {
      RemoveFirstMultiset(g.bag, c);
    }
    assert forall id :: Live(g', id) ==> Live(g, id);
  }

  lemma ClearExtends(g: Group, c: ContextId)
    requires Wf(g) && c in g.contexts
    ensures Extends(g, Clear(g, c)) && SameObjects(g, Clear(g, c))
    ensures forall q :: q in Clear(g, c).queues ==> q in g.queues
  {
    var g' := Clear(g, c);
    assert forall c1 :: c1 in g.contexts ==> g'.contexts[c1].tasks == g.contexts[c1].tasks;
  }

  lemma ClearLists(g: Group, c: ContextId)
    requires Wf(g) && BagDistinct(g) && c in g.contexts
    ensures Extends(g, Clear(g, c)) && ShrinksLists(g, Clear(g, c))
  {
    var g' := Clear(g, c);
    RemoveFirstDistinct(g.bag, c);
    assert c !in g'.bag;
  }
}

=== FILE: invariants.dfy ===
/** The bookkeeping invariant of the loan protocol. Every public operation of
    the group, of its contexts and of its runners is shown to preserve
    `Valid` in the module that defines it. */
module Invariants {
  import opened Base
  import opened SharedState

  /** A registration is live while it has not been disposed. */
  predicate Live(g: Group, id: RegistrationId)
  {
    id in g.registrations && !g.registrations[id].disposed
  }

  /** The context a runner currently works for on loan: the target of its own
      registration while that registration is live. */
  function LoanTarget(g: Group, r: RunnerId): Option<ContextId>
  {
    if r in g.runners && g.runners[r].exportRegistration.Some?
       && Live(g, g.runners[r].exportRegistration.value)
    then Some(g.registrations[g.runners[r].exportRegistration.value].target)
    else None
  }

  /** The bag never lists a context twice. */
  ghost predicate BagDistinct(g: Group)
  {
    Distinct(g.bag)
  }

  /** A runner's own registration is a loan of that runner. */
  ghost predicate RegistrationsOwned(g: Group)
  {
    forall r :: r in g.runners && g.runners[r].exportRegistration.Some? ==>
      var id := g.runners[r].exportRegistration.value;
      id in g.registrations && g.registrations[id].runner == r
  }

  /** Every live registration is held by its runner; hence no runner holds two
      live loans. */
  ghost predicate LiveLoansHeld(g: Group)
  {
    forall id :: Live(g, id) ==>
      var r := g.registrations[id].runner;
      r in g.runners && g.runners[r].exportRegistration == Some(id)
  }

  /** The queue a registration restores is its runner's home queue. */
  ghost predicate NativeIsHome(g: Group)
  {
    forall id :: id in g.registrations ==>
      var r := g.registrations[id].runner;
      r in g.runners && g.runners[r].home in g.contexts
      && g.registrations[id].nativeQueue == g.contexts[g.runners[r].home].tasks
  }

  /** Every runner reads its loan target's queue while on loan and its home queue
      otherwise. */
  ghost predicate SourcesTrackLoans(g: Group)
  {
    forall r :: r in g.runners ==> ReadsExpectedQueue(g, r)
  }

  ghost predicate ReadsExpectedQueue(g: Group, r: RunnerId)
    requires r in g.runners
  {
    match LoanTarget(g, r)
    case Some(t) => t in g.contexts && g.runners[r].tasksSource == g.contexts[t].tasks
    case None => g.runners[r].home in g.contexts && g.runners[r].tasksSource == g.contexts[g.runners[r].home].tasks
  }

  /** Every live loan is listed among its home context's exported
      registrations, so a recall by the home context reaches it. */
  ghost predicate LiveLoansExported(g: Group)
  {
    forall id :: Live(g, id) ==>
      var r := g.registrations[id].runner;
      r in g.runners && g.runners[r].home in g.contexts
      && id in g.contexts[g.runners[r].home].exported
  }

  /** A context in the bag never has more exported registrations than
      runners. */
  ghost predicate ExportCap(g: Group)
  {
    forall c :: c in g.bag ==> c in g.contexts && |g.contexts[c].exported| <= |g.contexts[c].runners|
  }

  ghost predicate Valid(g: Group)
  {
    && Wf(g)
    && BagDistinct(g)
    && RegistrationsOwned(g)
    && LiveLoansHeld(g)
    && NativeIsHome(g)
    && SourcesTrackLoans(g)
    && LiveLoansExported(g)
    && ExportCap(g)
  }

  /** A runner is never on loan twice: two live registrations of the same
      runner are the same registration. */
  lemma AtMostOneLoan(g: Group, id1: RegistrationId, id2: RegistrationId)
    requires Valid(g)
    requires Live(g, id1) && Live(g, id2)
    requires g.registrations[id1].runner == g.registrations[id2].runner
    ensures id1 == id2
  {
  }

  /** `g'` only grows `g`: no identity disappears, the allocator never goes
      back, and the fields fixed when an object is made keep their values. */
  ghost predicate Extends(g: Group, g': Group)
  {
    && g.nextId <= g'.nextId
    && g.queues.Keys <= g'.queues.Keys
    && g.contexts.Keys <= g'.contexts.Keys
    && g.runners.Keys <= g'.runners.Keys
    && g.registrations.Keys <= g'.registrations.Keys
    && (forall c :: c in g.contexts ==> g'.contexts[c].tasks == g.contexts[c].tasks)
    && (forall r :: r in g.runners ==> g'.runners[r].home == g.runners[r].home)
    && (forall id :: id in g.registrations ==>
          var reg, reg' := g.registrations[id], g'.registrations[id];
          reg'.runner == reg.runner && reg'.target == reg.target && reg'.nativeQueue == reg.nativeQueue)
  }

  /** No context, runner or registration is created. */
  ghost predicate SameObjects(g: Group, g': Group)
  {
    && g'.contexts.Keys == g.contexts.Keys
    && g'.runners.Keys == g.runners.Keys
    && g'.registrations.Keys == g.registrations.Keys
  }

  /** The queue a runner reads when it is not on loan. */
  ghost function HomeQueue(g: Group, r: RunnerId): QueueId
  {
    if r in g.runners && g.runners[r].home in g.contexts then g.contexts[g.runners[r].home].tasks else 0
  }

  /** A step that creates no context, runner or registration and only ever
      ends loans: a live registration of `g'` was live in `g`; a runner either
      keeps its own registration or drops one that is no longer live; a
      runner either keeps its queue or, no longer on loan, reads its home
      queue; exported lists and the bag only lose entries, and no live loan
      leaves its exported list; contexts still in the bag keep their
      runners; and queues are only added, with fresh identities. */
  ghost predicate Shrinks(g: Group, g': Group)
  {
    ShrinksFrame(g, g') && ShrinksRunners(g, g') && ShrinksLists(g, g')
  }

  /** Objects are kept, the bag and the set of live registrations only shrink. */
  ghost predicate ShrinksFrame(g: Group, g': Group)
  {
    && Extends(g, g') && SameObjects(g, g')
    && multiset(g'.bag) <= multiset(g.bag)
    && (forall q :: q in g'.queues ==> q in g.queues || q < g'.nextId)
    && (forall id :: Live(g', id) ==> Live(g, id))
  }

  /** A runner keeps its registration and task source, or gives up a loan
      that has ended and reads its home queue again. */
  ghost predicate ShrinksRunners(g: Group, g': Group)
    requires Extends(g, g')
  {
    && (forall r :: r in g.runners ==>
          var held, held' := g.runners[r].exportRegistration, g'.runners[r].exportRegistration;
          held' == held || (held'.None? && (held.Some? ==> !Live(g', held.value))))
    && (forall r :: r in g.runners ==>
          (LoanTarget(g', r) == LoanTarget(g, r) && g'.runners[r].tasksSource == g.runners[r].tasksSource)
          || (LoanTarget(g', r).None? && g'.runners[r].tasksSource == HomeQueue(g, r)))
  }

  /** Exported lists lose only ended loans and, for contexts still in the
      bag, never grow; runner lists of contexts in the bag are kept. */
  ghost predicate ShrinksLists(g: Group, g': Group)
    requires Extends(g, g')
  {
    && (forall c, x :: c in g.contexts && x in g'.contexts[c].exported ==> x in g.contexts[c].exported)
    && (forall c, x :: c in g.contexts && x in g.contexts[c].exported && Live(g', x) ==> x in g'.contexts[c].exported)
    && (forall c :: c in g'.bag && c in g.contexts ==>
          |g'.contexts[c].exported| <= |g.contexts[c].exported| && g'.contexts[c].runners == g.contexts[c].runners)
  }

  /** Under `Shrinks` a runner either keeps its loan target or has none. */
  lemma ShrinksTargets(g: Group, g': Group)
    requires Shrinks(g, g')
    ensures forall r :: LoanTarget(g', r) == LoanTarget(g, r) || LoanTarget(g', r).None?
  {
    forall r ensures LoanTarget(g', r) == LoanTarget(g, r) || LoanTarget(g', r).None? {
      if LoanTarget(g', r).Some? {
        var x := g'.runners[r].exportRegistration.value;
        assert Live(g, x);
      }
    }
  }

  /** A step that only ends loans keeps the invariant. */
  lemma ShrinksValid(g: Group, g': Group)
    requires Valid(g) && Shrinks(g, g')
    ensures Valid(g')
  {
    ShrinksBag(g, g');
    ShrinksWf(g, g');
    ShrinksLoans(g, g');
    ShrinksSources(g, g');
    ShrinksExports(g, g');
  }

  lemma ShrinksBag(g: Group, g': Group)
    requires BagWf(g) && BagDistinct(g) && Shrinks(g, g')
    ensures BagWf(g') && BagDistinct(g')
  {
    forall c | c in g'.bag ensures c in g'.contexts {
      assert multiset(g'.bag)[c] <= multiset(g.bag)[c];
    }
  }

  lemma ShrinksWf(g: Group, g': Group)
    requires Wf(g) && Shrinks(g, g')
    ensures ContextsWf(g') && RunnersWf(g') && RegistrationsWf(g') && IdsBelow(g')
  {
    ShrinksContextsWf(g, g');
    ShrinksRunnersWf(g, g');
    ShrinksRegistrationsWf(g, g');
  }

  lemma ShrinksContextsWf(g: Group, g': Group)
    requires ContextsWf(g) && Shrinks(g, g')
    ensures ContextsWf(g')
  {
    forall c, x | c in g'.contexts && x in g'.contexts[c].exported ensures x in g'.registrations {
      assert x in g.contexts[c].exported;
    }
  }

  lemma ShrinksRunnersWf(g: Group, g': Group)
    requires ContextsWf(g) && RunnersWf(g) && Shrinks(g, g')
    ensures RunnersWf(g')
  {
    forall r | r in g'.runners
      ensures g'.runners[r].tasksSource in g'.queues
      ensures g'.runners[r].exportRegistration.Some? ==> g'.runners[r].exportRegistration.value in g'.registrations
    {
      assert g.runners[r].home in g.contexts;
    }
  }

  lemma ShrinksRegistrationsWf(g: Group, g': Group)
    requires RegistrationsWf(g) && Shrinks(g, g')
    ensures RegistrationsWf(g')
  {
    forall x | x in g'.registrations
      ensures RegistrationOk(g', x) && g'.registrations[x].nativeQueue in g'.queues
    {
      assert RegistrationOk(g, x);
    }
  }

  lemma ShrinksLoans(g: Group, g': Group)
    requires RegistrationsOwned(g) && LiveLoansHeld(g) && NativeIsHome(g) && Shrinks(g, g')
    ensures RegistrationsOwned(g') && LiveLoansHeld(g') && NativeIsHome(g')
  {
    assert LiveLoansHeld(g') by {
      forall x | Live(g', x)
        ensures var r := g'.registrations[x].runner;
          r in g'.runners && g'.runners[r].exportRegistration == Some(x)
      {
        assert Live(g, x);
      }
    }
    assert NativeIsHome(g') by {
      forall x | x in g'.registrations
        ensures var r := g'.registrations[x].runner;
          r in g'.runners && g'.runners[r].home in g'.contexts
          && g'.registrations[x].nativeQueue == g'.contexts[g'.runners[r].home].tasks
      {
        var r := g.registrations[x].runner;
        assert r in g.runners && g.runners[r].home in g.contexts;
      }
    }
  }

  lemma ShrinksSources(g: Group, g': Group)
    requires RunnersWf(g) && SourcesTrackLoans(g) && Shrinks(g, g')
    ensures SourcesTrackLoans(g')
  {
    forall r | r in g'.runners ensures ReadsExpectedQueue(g', r) {
      assert ReadsExpectedQueue(g, r);
    }
  }

  lemma ShrinksExports(g: Group, g': Group)
    requires LiveLoansExported(g) && ExportCap(g) && Shrinks(g, g')
    ensures LiveLoansExported(g') && ExportCap(g')
  {
    assert LiveLoansExported(g') by {
      forall x | Live(g', x)
        ensures var r := g'.registrations[x].runner;
          r in g'.runners && g'.runners[r].home in g'.contexts
          && x in g'.contexts[g'.runners[r].home].exported
      {
        assert Live(g, x);
      }
    }
    assert ExportCap(g') by {
      forall c | c in g'.bag ensures c in g'.contexts && |g'.contexts[c].exported| <= |g'.contexts[c].runners| {
        assert multiset(g'.bag)[c] <= multiset(g.bag)[c];
      }
    }
  }

  /** Two states that agree on every piece of loan bookkeeping. They may
      differ in queue contents, stopwatches, `_hardLock`, the job events, the
      runners' wait states and the cancellation flag. */
  ghost predicate SameLoans(g: Group, g': Group)
  {
    && g'.bag == g.bag
    && g'.registrations == g.registrations
    && g'.nextId == g.nextId
    && g'.queues.Keys == g.queues.Keys
    && g'.contexts.Keys == g.contexts.Keys
    && (forall c :: c in g.contexts ==>
          var ctx, ctx' := g.contexts[c], g'.contexts[c];
          ctx'.tasks == ctx.tasks && ctx'.runners == ctx.runners && ctx'.exported == ctx.exported)
    && g'.runners.Keys == g.runners.Keys
    && (forall r :: r in g.runners ==>
          var run, run' := g.runners[r], g'.runners[r];
          run'.home == run.home && run'.tasksSource == run.tasksSource
          && run'.exportRegistration == run.exportRegistration)
  }

  /** Changes that leave the loan bookkeeping alone keep the invariant. */
  lemma SameLoansValid(g: Group, g': Group)
    requires Valid(g) && SameLoans(g, g')
    ensures Valid(g')
  {
    SameLoansShrinks(g, g');
    ShrinksValid(g, g');
  }

  lemma SameLoansShrinks(g: Group, g': Group)
    requires SameLoans(g, g')
    ensures Shrinks(g, g')
  {
    assert forall r :: LoanTarget(g', r) == LoanTarget(g, r);
  }
}

=== FILE: multi_thread.dfy ===
/** `MultiThreadSynchronizationContext`: one thread per processor of a
    consecutive range, each pinned to its processor for good, all serving
    the pool's single queue through the loop of `Pools`. */
module MultiThread {
  import opened Affinity
  import opened Pools

  /** `new MultiThreadSynchronizationContext(startingCpu, cpuCount)`: the
      `k`-th thread runs on processor `startingCpu + k`, for as many
      processors as the loop visits. `processorCount` is
      `Environment.ProcessorCount`. */
  function Create(startingCpu: int, cpuCount: int, processorCount: nat): (p: Pool)
    requires Int32(startingCpu) && Int32(cpuCount) && 0 < processorCount <= IntMax
    ensures |p.threads| == RangeLength(startingCpu, ThreadCount(cpuCount, processorCount))
    ensures Pinned(p, startingCpu) && AllRunning(p.threads)
    ensures p.tasks == [] && !p.hardLock && !p.signal && !p.cancelled
  {
    var n := RangeLength(startingCpu, ThreadCount(cpuCount, processorCount));
    var threads := seq(n, k requires 0 <= k < n => NewThread(startingCpu + k, 0));
    assert forall k :: 0 <= k < n ==> threads[k] == NewThread(startingCpu + k, 0);
    Fresh(threads)
  }

  /** Thread `k` is pinned to processor `startingCpu + k` and its affinity
      mask is that processor's. */
  ghost predicate Pinned(p: Pool, startingCpu: int)
  {
    forall k :: 0 <= k < |p.threads| ==>
      p.threads[k].processorId == startingCpu + k && p.threads[k].affinity == Mask(startingCpu + k)
  }

  /** Exactly the processors of `[startingCpu, startingCpu + count)` get a
      thread, each one thread, when that range fits in an `int`. */
  lemma CreateCoversRange(startingCpu: int, cpuCount: int, processorCount: nat, q: int)
    requires Int32(startingCpu) && Int32(cpuCount) && 0 < processorCount <= IntMax
    requires startingCpu + ThreadCount(cpuCount, processorCount) <= IntMax
    ensures var p := Create(startingCpu, cpuCount, processorCount);
      && (startingCpu <= q < startingCpu + ThreadCount(cpuCount, processorCount)
          <==> exists k :: 0 <= k < |p.threads| && p.threads[k].processorId == q)
      && forall k, l :: 0 <= k < |p.threads| && 0 <= l < |p.threads| && p.threads[k].processorId == p.threads[l].processorId ==> k == l
  {
    var p := Create(startingCpu, cpuCount, processorCount);
    if startingCpu <= q < startingCpu + ThreadCount(cpuCount, processorCount) {
      assert p.threads[q - startingCpu].processorId == q;
    }
  }

  /** A count above the processor count is taken as given: the pool starts
      more threads than there are processors. */
  lemma NoUpperClamp(startingCpu: int, cpuCount: int, processorCount: nat)
    requires Int32(startingCpu) && Int32(cpuCount) && 0 < processorCount <= IntMax
    requires cpuCount > processorCount && startingCpu + cpuCount <= IntMax
    ensures |Create(startingCpu, cpuCount, processorCount).threads| == cpuCount > processorCount
  {
  }

  /** When `startingCpu + cpuCount` overflows, the loop bound wraps below
      `startingCpu` and no thread is started. */
  lemma OverflowStartsNothing(startingCpu: int, cpuCount: int, processorCount: nat)
    requires Int32(startingCpu) && Int32(cpuCount) && 0 < processorCount <= IntMax
    requires startingCpu + ThreadCount(cpuCount, processorCount) > IntMax
    ensures Create(startingCpu, cpuCount, processorCount).threads == []
  {
  }

  lemma CreateValid(startingCpu: int, cpuCount: int, processorCount: nat)
    requires Int32(startingCpu) && Int32(cpuCount) && 0 < processorCount <= IntMax
    ensures Valid(Create(startingCpu, cpuCount, processorCount))
  {
    var p := Create(startingCpu, cpuCount, processorCount);
    FreshValid(p.threads);
  }

  /** The loop never moves a thread: posting, running, blocking, waking and
      time passing all keep every thread on its processor. */
  lemma StepKeepsPinned(p: Pool, startingCpu: int, i: nat)
    requires Pinned(p, startingCpu) && i < |p.threads|
    ensures Pinned(Step(p, i).pool, startingCpu)
  {
  }

  lemma PostKeepsPinned(p: Pool, startingCpu: int, task: nat)
    requires Pinned(p, startingCpu)
    ensures Pinned(Post(p, task), startingCpu)
  {
  }

  lemma ElapseKeepsPinned(p: Pool, startingCpu: int, i: nat, ms: nat)
    requires Pinned(p, startingCpu) && i < |p.threads|
    ensures Pinned(Elapse(p, i, ms), startingCpu)
  {
  }
}

=== FILE: pools.dfy ===
/** What `MultiThreadSynchronizationContext` and
    `SwitchCoresSynchronizationContext` have in common: one queue shared by
    all pool threads, a `_hardLock` flag and an `AutoResetEvent`. A thread
    that finds the queue empty for more than 300 ms sets `_hardLock` and
    blocks on the event; `Post` enqueues and sets the event exactly when it
    finds `_hardLock` set, clearing it. An `AutoResetEvent` releases one
    waiter per `Set` and resets itself as it does. */
module Pools {
  import opened TaskQueue
  import Affinity

  /** A pool thread's `LocalThreadState` plus what its loop keeps in locals:
      whether it is blocked in `WaitOne`, the starvation stopwatch and (for
      the switching pool) the inverting stopwatch. The multi-thread pool
      leaves `processorIdNext` at its default 0 and never reads
      `invertMs`. */
  datatype PoolThread = PoolThread(
    processorId: int,
    processorIdNext: int,
    affinity: int,
    blocked: bool,
    idleMs: nat,
    invertMs: nat)

  datatype Pool = Pool(
    threads: seq<PoolThread>,
    tasks: seq<TaskId>,
    hardLock: bool,
    signal: bool,
    cancelled: bool)

  /** Both constructors' thread count argument: a negative value means
      "every processor", and any other value is taken as given, with no
      upper clamp (unlike the shared context's constructor). */
  function ThreadCount(requested: int, processorCount: nat): (n: int)
    ensures requested < 0 ==> n == processorCount
    ensures requested >= 0 ==> n == requested
  {
    if requested < 0 then processorCount else requested
  }

  /** A thread as its loop starts: pinned to `processorId` with the mask
      `1 << processorId`, running, both stopwatches at zero. */
  function NewThread(processorId: int, processorIdNext: int): (t: PoolThread)
    ensures t.processorId == processorId && t.processorIdNext == processorIdNext
    ensures t.affinity == Affinity.Mask(t.processorId)
    ensures !t.blocked && t.idleMs == 0 && t.invertMs == 0
  {
    PoolThread(processorId, processorIdNext, Affinity.Mask(processorId), false, 0, 0)
  }

  /** A pool before any thread has run: empty queue, lock clear, event
      reset, nothing cancelled. */
  function Fresh(threads: seq<PoolThread>): (p: Pool)
    ensures p.threads == threads && p.tasks == []
    ensures !p.hardLock && !p.signal && !p.cancelled
  {
    Pool(threads, [], false, false, false)
  }

  /** `Post(d, state)`: the task goes to the tail of the queue; the event is
      set exactly when `_hardLock` was 1, and `_hardLock` is 0 afterwards. */
  function Post(p: Pool, task: TaskId): (p': Pool)
    ensures p'.tasks == Enqueue(p.tasks, task)
    ensures !p'.hardLock
    ensures p'.signal <==> p.signal || p.hardLock
    ensures p'.threads == p.threads && p'.cancelled == p.cancelled
  {
    p.(tasks := Enqueue(p.tasks, task), hardLock := false, signal := p.signal || p.hardLock)
  }

  datatype SendReply = NotSupported(message: string)

  /** `Send(d, state)` always throws `NotSupportedException`; the pool is
      left alone. */
  function Send(p: Pool, task: TaskId): (r: (Pool, SendReply))
    ensures r.0 == p
    ensures |r.1.message| > 0
  {
    (p, NotSupported("Please, use Post() instead"))
  }

  datatype Outcome = Ran(task: TaskId) | Spun | Parked | Woken | StillBlocked | Halted

  datatype StepResult = StepResult(pool: Pool, outcome: Outcome)

  function SetThread(p: Pool, i: nat, t: PoolThread): (p': Pool)
    requires i < |p.threads|
    ensures |p'.threads| == |p.threads| && p'.threads[i] == t
    ensures forall j :: 0 <= j < |p.threads| && j != i ==> p'.threads[j] == p.threads[j]
    ensures p'.tasks == p.tasks && p'.hardLock == p.hardLock && p'.signal == p.signal
    ensures p'.cancelled == p.cancelled
  {
    p.(threads := p.threads[i := t])
  }

  /** One pass of thread `i` through its loop. A blocked thread returns
      from `WaitOne` only when the event is set, consuming it, and restarts
      its starvation stopwatch. A running thread leaves the loop once
      cancelled; otherwise it runs the queue head, or spins while starved
      for at most 300 ms, or sets `_hardLock` and blocks. */
  function Step(p: Pool, i: nat): (res: StepResult)
    requires i < |p.threads|
    ensures |res.pool.threads| == |p.threads|
    ensures forall j :: 0 <= j < |p.threads| && j != i ==> res.pool.threads[j] == p.threads[j]
    ensures var t := p.threads[i]; var t' := res.pool.threads[i];
      && t'.processorId == t.processorId && t'.processorIdNext == t.processorIdNext
      && t'.affinity == t.affinity && t'.invertMs == t.invertMs
    ensures res.pool.cancelled == p.cancelled
    ensures res.outcome.Halted? <==> !p.threads[i].blocked && p.cancelled
    ensures res.outcome.Woken? <==> p.threads[i].blocked && p.signal
    ensures res.outcome.StillBlocked? <==> p.threads[i].blocked && !p.signal
    ensures res.outcome.Ran? <==> !p.threads[i].blocked && !p.cancelled && p.tasks != []
    ensures res.outcome.Spun? <==>
      !p.threads[i].blocked && !p.cancelled && p.tasks == [] && p.threads[i].idleMs <= 300
    ensures res.outcome.Woken? ==> !res.pool.signal && !res.pool.threads[i].blocked && res.pool.threads[i].idleMs == 0
    ensures res.outcome.Ran? ==>
      && p.tasks != [] && res.outcome.task == p.tasks[0] && res.pool.tasks == p.tasks[1..]
      && res.pool.threads[i].idleMs == 0 && !res.pool.threads[i].blocked
    ensures !res.outcome.Ran? ==> res.pool.tasks == p.tasks
    ensures res.outcome.Parked? <==>
      !p.threads[i].blocked && !p.cancelled && p.tasks == [] && p.threads[i].idleMs > 300
    ensures res.outcome.Parked? ==> res.pool.hardLock && res.pool.threads[i].blocked
    ensures !res.outcome.Parked? ==> res.pool.hardLock == p.hardLock
    ensures res.outcome.StillBlocked? || res.outcome.Spun? || res.outcome.Halted? ==> res.pool == p
  {
    var t := p.threads[i];
    if t.blocked then
      if p.signal then StepResult(SetThread(p, i, t.(blocked := false, idleMs := 0)).(signal := false), Woken)
      else StepResult(p, StillBlocked)
    else if p.cancelled then StepResult(p, Halted)
    else match TryDequeue(p.tasks)
      case Took(task, rest) => StepResult(SetThread(p, i, t.(idleMs := 0)).(tasks := rest), Ran(task))
      case Empty =>
        if t.idleMs > 300 then StepResult(SetThread(p, i, t.(blocked := true)).(hardLock := true), Parked)
        else StepResult(p, Spun)
  }

  /** `ms` milliseconds pass for thread `i`: both of its stopwatches
      advance and nothing else changes. */
  function Elapse(p: Pool, i: nat, ms: nat): (p': Pool)
    requires i < |p.threads|
    ensures |p'.threads| == |p.threads|
    ensures forall j :: 0 <= j < |p.threads| && j != i ==> p'.threads[j] == p.threads[j]
    ensures p'.threads[i].idleMs == p.threads[i].idleMs + ms
    ensures p'.threads[i].invertMs == p.threads[i].invertMs + ms
    ensures p'.threads[i].blocked == p.threads[i].blocked
    ensures p'.tasks == p.tasks && p'.hardLock == p.hardLock && p'.signal == p.signal
  {
    var t := p.threads[i];
    SetThread(p, i, t.(idleMs := t.idleMs + ms, invertMs := t.invertMs + ms))
  }

  /** The first half of `Dispose()`: every thread's token is cancelled,
      `_hardLock` is cleared and the event is set once. */
  function Unlock(p: Pool): (p': Pool)
    ensures p'.cancelled && !p'.hardLock && p'.signal
    ensures p'.threads == p.threads && p'.tasks == p.tasks
  {
    p.(cancelled := true, hardLock := false, signal := true)
  }

  /** `Dispose()`: `Unlock`, then (once every thread has been joined) the
      thread list and the queue are cleared. */
  function Dispose(p: Pool): (p': Pool)
    ensures p'.threads == [] && p'.tasks == []
    ensures p'.cancelled && !p'.hardLock
  {
    Unlock(p).(threads := [], tasks := [])
  }

  /** `_hardLock` is only ever set by a thread that found the queue empty,
      and any `Post` since then cleared it. */
  ghost predicate LockMeansIdle(p: Pool)
  {
    p.hardLock ==> p.tasks == []
  }

  /** Some thread will notice new work: one is running, or the event is
      set, or `_hardLock` is set so the next `Post` sets the event. */
  ghost predicate SomeoneListens(p: Pool)
  {
    |p.threads| == 0 || p.hardLock || p.signal || exists i :: 0 <= i < |p.threads| && !p.threads[i].blocked
  }

  ghost predicate Valid(p: Pool)
  {
    LockMeansIdle(p) && SomeoneListens(p)
  }

  /** No thread is blocked yet. */
  ghost predicate AllRunning(threads: seq<PoolThread>)
  {
    forall i :: 0 <= i < |threads| ==> !threads[i].blocked
  }

  lemma FreshValid(threads: seq<PoolThread>)
    requires AllRunning(threads)
    ensures Valid(Fresh(threads))
  {
    if |threads| > 0 {
      assert !Fresh(threads).threads[0].blocked;
    }
  }

  lemma PostValid(p: Pool, task: TaskId)
    requires Valid(p)
    ensures Valid(Post(p, task))
  {
    var p' := Post(p, task);
    if !p.hardLock && !p.signal && |p.threads| > 0 {
      var i :| 0 <= i < |p.threads| && !p.threads[i].blocked;
      assert !p'.threads[i].blocked;
    }
  }

  lemma StepValid(p: Pool, i: nat)
    requires Valid(p) && i < |p.threads|
    ensures Valid(Step(p, i).pool)
  {
    var res := Step(p, i);
    var p' := res.pool;
    if !res.outcome.Parked? && !p'.hardLock && !p'.signal {
      if !p'.threads[i].blocked {
      } else {
        // thread i was blocked and stays blocked, so the listener is
        // another thread
        assert p.threads[i].blocked && !p.signal;
        var j :| 0 <= j < |p.threads| && !p.threads[j].blocked;
        assert j != i && !p'.threads[j].blocked;
      }
    }
  }

  lemma ElapseValid(p: Pool, i: nat, ms: nat)
    requires Valid(p) && i < |p.threads|
    ensures Valid(Elapse(p, i, ms))
  {
    var p' := Elapse(p, i, ms);
    if !p.hardLock && !p.signal {
      var j :| 0 <= j < |p.threads| && !p.threads[j].blocked;
      assert !p'.threads[j].blocked;
    }
  }

  lemma DisposeValid(p: Pool)
    ensures Valid(Unlock(p)) && Valid(Dispose(p))
  {
  }

  /** No posted work is stranded, in this model where each pass and each
      `Post` is atomic: while the pool is live and its queue is non-empty,
      some thread's next pass either runs a task or returns from `WaitOne`.
      The source's threads interleave, and a `Post` that lands between a
      failed `TryDequeue` and the `_hardLock` exchange is not covered. */
  lemma WorkIsPickedUp(p: Pool)
    requires Valid(p) && !p.cancelled && p.tasks != [] && |p.threads| > 0
    ensures exists i :: 0 <= i < |p.threads| && (Step(p, i).outcome.Ran? || Step(p, i).outcome.Woken?)
  {
    if exists i :: 0 <= i < |p.threads| && !p.threads[i].blocked {
      var i :| 0 <= i < |p.threads| && !p.threads[i].blocked;
      assert Step(p, i).outcome.Ran?;
    } else {
      assert p.signal;
      assert Step(p, 0).outcome.Woken?;
    }
  }

  /** One `Set` releases one waiter: after two posts reach two blocked
      threads, the first post's signal wakes one of them and the second
      post found `_hardLock` already clear, so the other stays blocked. */
  lemma PostWakesOneAtATime(p: Pool, i: nat, j: nat, t1: TaskId, t2: TaskId)
    requires i < |p.threads| && j < |p.threads| && i != j
    requires p.threads[i].blocked && p.threads[j].blocked && p.hardLock && !p.signal
    ensures var p2 := Post(Post(p, t1), t2);
      var s := Step(p2, i);
      && s.outcome.Woken?
      && Step(s.pool, j).outcome.StillBlocked?
      && s.pool.tasks == p.tasks + [t1, t2]
  {
  }

  /** `Dispose()` sets the event once, so of two blocked threads only one
      returns from `WaitOne` and leaves its loop; the other stays blocked
      and joining it does not return. */
  lemma DisposeReleasesOneWaiter(p: Pool, i: nat, j: nat)
    requires i < |p.threads| && j < |p.threads| && i != j
    requires p.threads[i].blocked && p.threads[j].blocked
    ensures var s := Step(Unlock(p), i);
      && s.outcome.Woken?
      && Step(s.pool, i).outcome.Halted?
      && Step(s.pool, j).outcome.StillBlocked?
  {
  }
}

=== FILE: registration.dfy ===
/** `Registration`: one loan of a runner to a foreign context. Creating it
    retargets the runner's queue pointer; disposing it (once) returns the
    runner to the queue it had before. */
module Registrations {
  import opened Base
  import opened SharedState
  import opened Invariants

  /** `new Registration(runner, target)`: captures the runner's current queue,
      registers the runner with the target, which points it at the target's
      queue, and yields a fresh, live registration. */
  function Create(g: Group, r: RunnerId, t: ContextId): (res: (Group, RegistrationId))
    requires r in g.runners && t in g.contexts
    ensures var (g', id) := res;
      && id == g.nextId
      && g'.registrations == g.registrations[id := Registration(r, t, g.runners[r].tasksSource, false)]
      && g'.runners == g.runners[r := g.runners[r].(tasksSource := g.contexts[t].tasks)]
      && g'.contexts == g.contexts[t := g.contexts[t].(imported := g.contexts[t].imported + [r])]
      && g'.bag == g.bag && g'.queues == g.queues
      && g'.nextId == g.nextId + 1 && g'.cancelled == g.cancelled
  {
    var native := g.runners[r].tasksSource;
    var g1 := RegisterExternalRunner(g, t, r);
    var id := g1.nextId;
    (g1.(registrations := g1.registrations[id := Registration(r, t, native, false)], nextId := id + 1), id)
  }

  /** `Registration.Dispose`: the first call marks the registration disposed,
      removes the runner from the target's imported list (which points it at
      a fresh queue) and then restores the captured native queue; any later
      call returns at once. */
  function Dispose(g: Group, id: RegistrationId): (g': Group)
    requires RegistrationOk(g, id)
    ensures id in g'.registrations && g'.registrations[id].disposed
    ensures g.registrations[id].disposed ==> g' == g
    ensures !g.registrations[id].disposed ==>
      var reg := g.registrations[id];
      var ctx := g.contexts[reg.target];
      && g'.registrations == g.registrations[id := reg.(disposed := true)]
      && g'.runners == g.runners[reg.runner := g.runners[reg.runner].(tasksSource := reg.nativeQueue)]
      && g'.contexts == g.contexts[reg.target := ctx.(imported := RemoveFirst(ctx.imported, reg.runner))]
      && g'.queues == g.queues[g.nextId := []]
      && g'.nextId == g.nextId + 1 && g'.bag == g.bag && g'.cancelled == g.cancelled
  {
    var reg := g.registrations[id];
    if reg.disposed then g
    else
      var g1 := g.(registrations := g.registrations[id := reg.(disposed := true)]);
      var g2 := RemoveExternalRunner(g1, reg.target, reg.runner);
      var run := g2.runners[reg.runner].(tasksSource := reg.nativeQueue);
      assert run == g.runners[reg.runner].(tasksSource := reg.nativeQueue);
      assert g2.runners[reg.runner := run] == g.runners[reg.runner := run];
      g2.(runners := g2.runners[reg.runner := run])
  }

  /** Disposal keeps every registration's references valid. */
  lemma DisposeKeepsRegistrationsOk(g: Group, id: RegistrationId)
    requires RegistrationOk(g, id)
    ensures forall x :: RegistrationOk(g, x) ==> RegistrationOk(Dispose(g, id), x)
    ensures Dispose(g, id).contexts.Keys == g.contexts.Keys
    ensures Dispose(g, id).runners.Keys == g.runners.Keys
  {
  }

  /** Disposal is idempotent: disposing twice is disposing once. */
  lemma DisposeIdempotent(g: Group, id: RegistrationId)
    requires RegistrationOk(g, id)
    ensures Dispose(Dispose(g, id), id) == Dispose(g, id)
  {
  }

  /** After the first disposal the runner reads the queue it read when the
      loan was made; the fresh queue installed by `RemoveExternalRunner` is
      overridden. */
  lemma DisposeRestoresNative(g: Group, id: RegistrationId)
    requires RegistrationOk(g, id) && !g.registrations[id].disposed
    ensures Dispose(g, id).runners[g.registrations[id].runner].tasksSource == g.registrations[id].nativeQueue
  {
  }

  /** Disposal touches only the registration's own runner (its queue pointer)
      and its own target (the imported list); no existing queue gains or
      loses a task and nothing else changes. */
  lemma DisposeFrame(g: Group, id: RegistrationId)
    requires RegistrationOk(g, id)
    ensures var g', reg := Dispose(g, id), g.registrations[id];
      && (forall r :: r in g.runners && r != reg.runner ==> g'.runners[r] == g.runners[r])
      && (forall c :: c in g.contexts && c != reg.target ==> g'.contexts[c] == g.contexts[c])
      && (forall x :: x in g.registrations && x != id ==> g'.registrations[x] == g.registrations[x])
      && (forall q :: q in g.queues && q < g.nextId ==> q in g'.queues && g'.queues[q] == g.queues[q])
      && g'.runners[reg.runner] == g.runners[reg.runner].(tasksSource := g'.runners[reg.runner].tasksSource)
      && g'.contexts[reg.target] == g.contexts[reg.target].(imported := g'.contexts[reg.target].imported)
      && g'.bag == g.bag && g'.cancelled == g.cancelled
  {
  }

  /** Creating a loan and disposing it is a round trip: the runner is as it
      was, the target's imported runners are the same multiset as before, and
      no existing queue changed. */
  lemma CreateDisposeRoundTrip(g: Group, r: RunnerId, t: ContextId)
    requires r in g.runners && t in g.contexts
    ensures var (g1, id) := Create(g, r, t);
      var g2 := Dispose(g1, id);
      && g2.runners[r] == g.runners[r]
      && multiset(g2.contexts[t].imported) == multiset(g.contexts[t].imported)
      && g2.registrations[id].disposed
      && (forall q :: q in g.queues && q < g.nextId ==> g2.queues[q] == g.queues[q])
  {
    var (g1, id) := Create(g, r, t);
    RemoveFirstMultiset(g1.contexts[t].imported, r);
    assert multiset(g.contexts[t].imported + [r]) == multiset(g.contexts[t].imported) + multiset{r};
  }

  /** The effect of disposing the live registration `id`, as a relation
      between the states before and after. */
  ghost predicate DisposedLive(g: Group, id: RegistrationId, g': Group)
  {
    && RegistrationOk(g, id) && !g.registrations[id].disposed
    && var reg := g.registrations[id];
      var ctx := g.contexts[reg.target];
      && g'.registrations == g.registrations[id := reg.(disposed := true)]
      && g'.runners == g.runners[reg.runner := g.runners[reg.runner].(tasksSource := reg.nativeQueue)]
      && g'.contexts == g.contexts[reg.target := ctx.(imported := RemoveFirst(ctx.imported, reg.runner))]
      && g'.queues == g.queues[g.nextId := []]
      && g'.nextId == g.nextId + 1 && g'.bag == g.bag
  }

  /** Disposal preserves the loan invariant: the loan ends everywhere at
      once, and the runner reads its home queue again while keeping its
      (now disposed) registration. */
  lemma DisposePreservesValid(g: Group, id: RegistrationId)
    requires Valid(g) && id in g.registrations
    ensures Valid(Dispose(g, id))
  {
    if !g.registrations[id].disposed {
      var g' := Dispose(g, id);
      assert DisposedLive(g, id, g');
      DisposeShrinks(g, id, g');
      ShrinksValid(g, g');
    }
  }

  lemma DisposeShrinks(g: Group, id: RegistrationId, g': Group)
    requires Valid(g) && DisposedLive(g, id, g')
    ensures Shrinks(g, g')
  {
    DisposeExtends(g, id, g');
    DisposeLoanTargets(g, id, g');
    DisposeSources(g, id, g');
    DisposeLists(g, id, g');
  }

  lemma DisposeExtends(g: Group, id: RegistrationId, g': Group)
    requires IdsBelow(g) && DisposedLive(g, id, g')
    ensures Extends(g, g') && SameObjects(g, g')
    ensures forall q :: q in g'.queues ==> q in g.queues || q < g'.nextId
    ensures forall x :: Live(g', x) ==> Live(g, x)
  {
  }

  /** Only the disposed registration's runner changes its loan target: it
      has none afterwards. */
  lemma DisposeLoanTargets(g: Group, id: RegistrationId, g': Group)
    requires RegistrationsOwned(g) && LiveLoansHeld(g) && DisposedLive(g, id, g')
    ensures var u := g.registrations[id].runner;
      && LoanTarget(g, u) == Some(g.registrations[id].target)
      && LoanTarget(g', u) == None
      && forall r :: r != u ==> LoanTarget(g', r) == LoanTarget(g, r)
  {
    var u := g.registrations[id].runner;
    forall r | r != u ensures LoanTarget(g', r) == LoanTarget(g, r) {
      if r in g.runners && g.runners[r].exportRegistration.Some? {
        assert g.runners[r].exportRegistration.value != id;
      }
    }
  }

  lemma DisposeSources(g: Group, id: RegistrationId, g': Group)
    requires LiveLoansHeld(g) && NativeIsHome(g) && DisposedLive(g, id, g')
    requires var u := g.registrations[id].runner;
      && LoanTarget(g', u) == None
      && forall r :: r != u ==> LoanTarget(g', r) == LoanTarget(g, r)
    ensures forall r :: r in g.runners ==>
      var held, held' := g.runners[r].exportRegistration, g'.runners[r].exportRegistration;
      held' == held || (held'.None? && (held.Some? ==> !Live(g', held.value)))
    ensures forall r :: r in g.runners ==>
      (LoanTarget(g', r) == LoanTarget(g, r) && g'.runners[r].tasksSource == g.runners[r].tasksSource)
      || (LoanTarget(g', r).None? && g'.runners[r].tasksSource == HomeQueue(g, r))
  {
    var u := g.registrations[id].runner;
    assert g'.runners[u].tasksSource == HomeQueue(g, u);
  }

  lemma DisposeLists(g: Group, id: RegistrationId, g': Group)
    requires DisposedLive(g, id, g')
    ensures multiset(g'.bag) <= multiset(g.bag)
    ensures forall c, x :: c in g.contexts && x in g'.contexts[c].exported ==> x in g.contexts[c].exported
    ensures forall c, x :: c in g.contexts && x in g.contexts[c].exported && Live(g', x) ==> x in g'.contexts[c].exported
    ensures forall c :: c in g'.bag && c in g.contexts ==>
      |g'.contexts[c].exported| <= |g.contexts[c].exported| && g'.contexts[c].runners == g.contexts[c].runners
  {
  }
}

=== FILE: shared_group.dfy ===
/** `SharedSynchronizationContext`: a group of contexts that lend idle
    runners to each other. The group hands out new contexts, appending each
    to its bag, and on disposal cancels every runner loop and disposes every
    context in the bag. */
module SharedGroup {
  import opened Base
  import opened SharedState
  import opened Invariants
  import ContextImpl
  import ThreadRunners

  /** `new SharedSynchronizationContext()`: an empty bag and a fresh
      cancellation source. */
  function New(): (g: Group)
    ensures Valid(g) && ThreadRunners.NoLostWakeup(g)
    ensures g.bag == [] && g.contexts == map[] && g.runners == map[] && !g.cancelled
  {
    EmptyGroup()
  }

  /** `GetSynchronizationContext(startingCpu, threadsCount, name)`: a new
      context with its runners, appended at the end of the bag, so the
      broker scans it after every context made before it. */
  function GetSynchronizationContext(g: Group, startingCpu: int, threadsCount: int, name: string, processorCount: nat)
    : (res: (Group, ContextId))
    requires ContextImpl.CtorArgs(startingCpu, threadsCount, processorCount)
    ensures var (g', c) := res;
      && c == g.nextId && c in g'.contexts && g'.bag == g.bag + [c]
      && |g'.contexts[c].runners| == ContextImpl.RunnerCount(startingCpu, threadsCount, processorCount)
  {
    var (g1, c) := ContextImpl.NewContext(g, startingCpu, threadsCount, name, processorCount);
    (g1.(bag := g1.bag + [c]), c)
  }

  /** What opening context `c` changes: `c` is new and in the bag last, with
      a new empty queue and nothing lent; every runner that existed is
      unchanged and every new one belongs to `c`, reads its queue, holds no
      loan and runs. */
  ghost predicate Opened(g: Group, g': Group, c: ContextId)
  {
    && c !in g.contexts && c in g'.contexts
    && var ctx := g'.contexts[c];
    && ctx.exported == [] && ctx.tasks !in g.queues
    && g'.bag == g.bag + [c]
    && g'.registrations == g.registrations
    && g'.contexts == g.contexts[c := ctx]
    && g'.queues == g.queues[ctx.tasks := []]
    && (forall r :: r in g.runners ==> r in g'.runners && g'.runners[r] == g.runners[r])
    && (forall r :: r in g'.runners && r !in g.runners ==>
          && g'.runners[r].home == c && g'.runners[r].tasksSource == ctx.tasks
          && g'.runners[r].exportRegistration.None? && g'.runners[r].wait == Running)
  }

  lemma GetSynchronizationContextOpens(g: Group, startingCpu: int, threadsCount: int, name: string, processorCount: nat)
    requires ContextImpl.CtorArgs(startingCpu, threadsCount, processorCount) && IdsBelow(g)
    ensures var (g', c) := GetSynchronizationContext(g, startingCpu, threadsCount, name, processorCount);
      Opened(g, g', c) && IdsBelow(g')
  {
    var (g1, c) := ContextImpl.NewContext(g, startingCpu, threadsCount, name, processorCount);
    ContextImpl.NewContextFresh(g, startingCpu, threadsCount, name, processorCount);
    ContextImpl.NewContextShape(g, startingCpu, threadsCount, name, processorCount);
    var (g', c') := GetSynchronizationContext(g, startingCpu, threadsCount, name, processorCount);
    assert g' == g1.(bag := g1.bag + [c]);
    forall r | r in g'.runners && r !in g.runners
      ensures g'.runners[r].home == c && g'.runners[r].tasksSource == g'.contexts[c].tasks
      ensures g'.runners[r].exportRegistration.None? && g'.runners[r].wait == Running
    {
    }
  }

  /** Opening a context keeps the loan invariant. */
  lemma GetSynchronizationContextValid(g: Group, startingCpu: int, threadsCount: int, name: string, processorCount: nat)
    requires ContextImpl.CtorArgs(startingCpu, threadsCount, processorCount) && Valid(g)
    ensures Valid(GetSynchronizationContext(g, startingCpu, threadsCount, name, processorCount).0)
  {
    var (g', c) := GetSynchronizationContext(g, startingCpu, threadsCount, name, processorCount);
    GetSynchronizationContextOpens(g, startingCpu, threadsCount, name, processorCount);
    OpenedWf(g, g', c);
    OpenedBag(g, g', c);
    OpenedLoans(g, g', c);
    OpenedSources(g, g', c);
  }

  lemma OpenedWf(g: Group, g': Group, c: ContextId)
    requires Wf(g) && Opened(g, g', c) && IdsBelow(g')
    ensures Wf(g')
  {
    assert BagWf(g');
    assert ContextsWf(g');
    assert RunnersWf(g');
    assert RegistrationsWf(g');
  }

  lemma OpenedBag(g: Group, g': Group, c: ContextId)
    requires Valid(g) && Opened(g, g', c)
    ensures BagDistinct(g') && ExportCap(g')
  {
    assert c !in g.bag;
    DistinctAppend(g.bag, c);
  }

  lemma OpenedLoans(g: Group, g': Group, c: ContextId)
    requires Valid(g) && Opened(g, g', c)
    ensures RegistrationsOwned(g') && LiveLoansHeld(g') && NativeIsHome(g') && LiveLoansExported(g')
  {
    OpenedHeld(g, g', c);
    OpenedExported(g, g', c);
  }

  lemma OpenedHeld(g: Group, g': Group, c: ContextId)
    requires Valid(g) && Opened(g, g', c)
    ensures RegistrationsOwned(g') && LiveLoansHeld(g')
  {
  }

  lemma OpenedExported(g: Group, g': Group, c: ContextId)
    requires Valid(g) && Opened(g, g', c)
    ensures NativeIsHome(g') && LiveLoansExported(g')
  {
  }

  lemma OpenedSources(g: Group, g': Group, c: ContextId)
    requires Valid(g) && Opened(g, g', c)
    ensures SourcesTrackLoans(g')
  {
    forall r | r in g'.runners ensures ReadsExpectedQueue(g', r) {
      if r in g.runners {
        assert LoanTarget(g', r) == LoanTarget(g, r);
        assert ReadsExpectedQueue(g, r);
      } else {
        assert LoanTarget(g', r).None?;
      }
    }
  }

  /** Opening a context loses no wakeup: its runners start out running. */
  lemma GetSynchronizationContextKeepsWakeups(g: Group, startingCpu: int, threadsCount: int, name: string, processorCount: nat)
    requires ContextImpl.CtorArgs(startingCpu, threadsCount, processorCount) && Wf(g) && ThreadRunners.NoLostWakeup(g)
    ensures ThreadRunners.NoLostWakeup(GetSynchronizationContext(g, startingCpu, threadsCount, name, processorCount).0)
  {
    var (g', c) := GetSynchronizationContext(g, startingCpu, threadsCount, name, processorCount);
    GetSynchronizationContextOpens(g, startingCpu, threadsCount, name, processorCount);
    assert ThreadRunners.WakeupsKept(g, g');
    ThreadRunners.WakeupsKeptNoLostWakeup(g, g');
  }

  /** Disposes the contexts `cs` one after another, as the loop over the
      snapshot `_bag.ToList()` does; each leaves the bag. */
  function DisposeAll(g: Group, cs: seq<ContextId>): Group
    requires forall c :: c in cs ==> c in g.contexts && g.contexts[c].tasks in g.queues
    decreases |cs|
  {
    if cs == [] then g
    else
      var g1 := ContextImpl.Dispose(g, cs[0]);
      DisposeStep(g, cs[0]);
      DisposeKeepsRest(g, cs);
      DisposeAll(g1, cs[1..])
  }

  /** The contexts still to dispose keep their queues after one disposal. */
  lemma DisposeKeepsRest(g: Group, cs: seq<ContextId>)
    requires cs != [] && forall c :: c in cs ==> c in g.contexts && g.contexts[c].tasks in g.queues
    ensures var g1 := ContextImpl.Dispose(g, cs[0]);
      forall c :: c in cs[1..] ==> c in g1.contexts && g1.contexts[c].tasks in g1.queues
  {
    DisposeStep(g, cs[0]);
    forall c | c in cs[1..] ensures c in ContextImpl.Dispose(g, cs[0]).contexts {
      assert c in cs;
    }
  }

  /** Each disposal takes one occurrence of its context out of the bag. */
  lemma {:induction false} DisposeAllBag(g: Group, cs: seq<ContextId>)
    requires forall c :: c in cs ==> c in g.contexts && g.contexts[c].tasks in g.queues
    ensures multiset(DisposeAll(g, cs).bag) == multiset(g.bag) - multiset(cs)
    decreases |cs|
  {
    if cs != [] {
      var g1 := ContextImpl.Dispose(g, cs[0]);
      assert multiset(DisposeAll(g, cs).bag) == multiset(g1.bag) - multiset(cs[1..]) by {
        DisposeKeepsRest(g, cs);
        DisposeAllBag(g1, cs[1..]);
        assert DisposeAll(g, cs) == DisposeAll(g1, cs[1..]);
      }
      DisposeTakesOne(g, cs[0]);
      MultisetMinusSeq(multiset(g.bag), cs);
    }
  }

  lemma DisposeTakesOne(g: Group, c: ContextId)
    requires c in g.contexts && g.contexts[c].tasks in g.queues
    ensures multiset(ContextImpl.Dispose(g, c).bag) == multiset(g.bag) - multiset{c}
  {
    RemoveFirstMultiset(g.bag, c);
  }

  /** `g'` has the runners of `g`, changed at most in their cancellation
      sources, and each runner whose token reported cancellation still does. */
  ghost predicate RunnersKept(g: Group, g': Group)
  {
    && g'.runners.Keys == g.runners.Keys
    && (forall r :: r in g.runners ==> g'.runners[r] == g.runners[r].(token := g'.runners[r].token))
    && (forall r, later: bool :: r in g.runners && CancellationRequested(g.runners[r], later) ==>
          CancellationRequested(g'.runners[r], later))
  }

  lemma RunnersKeptTransitive(g0: Group, g1: Group, g2: Group)
    requires RunnersKept(g0, g1) && RunnersKept(g1, g2)
    ensures RunnersKept(g0, g2)
  {
  }

  /** Disposing one context takes one occurrence of it out of the bag and
      keeps every context, its queue, its flags, the runners up to their
      cancellation sources, and the cancellation flag. */
  lemma DisposeStep(g: Group, c: ContextId)
    requires c in g.contexts && g.contexts[c].tasks in g.queues
    ensures var g' := ContextImpl.Dispose(g, c);
      && multiset(g'.bag) == multiset(g.bag) - multiset{c}
      && RunnersKept(g, g') && g'.cancelled == g.cancelled
      && (forall c' :: c' in g.contexts ==>
            && c' in g'.contexts && g'.contexts[c'].tasks == g.contexts[c'].tasks
            && g'.contexts[c'].hardLock == g.contexts[c'].hardLock
            && g'.contexts[c'].hasJobEvent == g.contexts[c'].hasJobEvent)
      && (forall q :: q in g.queues ==> q in g'.queues)
  {
    DisposeTakesOne(g, c);
  }

  /** `Dispose()`: the group's cancellation source fires, then every context
      of the bag is disposed; the bag ends empty. */
  function Dispose(g: Group): (g': Group)
    requires Wf(g)
    ensures g'.bag == [] && g'.cancelled
  {
    assert forall c :: c in g.bag ==> c in g.contexts && g.contexts[c].tasks in g.queues;
    var g' := DisposeAll(g.(cancelled := true), g.bag);
    DisposeAllBag(g.(cancelled := true), g.bag);
    assert |multiset(g'.bag)| == 0;
    DisposeAllFrame(g.(cancelled := true), g.bag);
    g'
  }

  /** Disposing contexts changes runners only in their cancellation
      sources, keeps every context with its `_hardLock` and job event, and
      keeps the cancellation flag. */
  lemma {:induction false} DisposeAllFrame(g: Group, cs: seq<ContextId>)
    requires forall c :: c in cs ==> c in g.contexts && g.contexts[c].tasks in g.queues
    ensures var g' := DisposeAll(g, cs);
      && RunnersKept(g, g') && g'.cancelled == g.cancelled
      && (forall c :: c in g.contexts ==>
            c in g'.contexts && g'.contexts[c].hardLock == g.contexts[c].hardLock
            && g'.contexts[c].hasJobEvent == g.contexts[c].hasJobEvent)
    decreases |cs|
  {
    if cs != [] {
      var g1 := ContextImpl.Dispose(g, cs[0]);
      DisposeStep(g, cs[0]);
      DisposeKeepsRest(g, cs);
      DisposeAllFrame(g1, cs[1..]);
      RunnersKeptTransitive(g, g1, DisposeAll(g, cs));
    }
  }

  /** Disposing the group keeps the loan invariant. */
  lemma DisposeValid(g: Group)
    requires Valid(g)
    ensures Valid(Dispose(g))
  {
    var g1 := g.(cancelled := true);
    assert SameLoans(g, g1);
    SameLoansValid(g, g1);
    DisposeAllValid(g1, g.bag);
  }

  lemma {:induction false} DisposeAllValid(g: Group, cs: seq<ContextId>)
    requires Valid(g) && forall c :: c in cs ==> c in g.contexts
    ensures forall c :: c in cs ==> c in g.contexts && g.contexts[c].tasks in g.queues
    ensures Valid(DisposeAll(g, cs))
    decreases |cs|
  {
    if cs != [] {
      ContextImpl.DisposePreservesValid(g, cs[0]);
      var g1 := ContextImpl.Dispose(g, cs[0]);
      assert forall c :: c in cs[1..] ==> c in g1.contexts by {
        forall c | c in cs[1..] ensures c in g1.contexts {
          assert c in cs;
        }
      }
      DisposeAllValid(g1, cs[1..]);
    }
  }

  /** After `Dispose()` every running runner leaves its loop on its next
      iteration, unless its source was detached from the group's token by
      `ContextImpl.DisposeAsWritten`. */
  lemma DisposeHaltsRunners(g: Group, r: RunnerId)
    requires Valid(g) && r in g.runners && g.runners[r].wait == Running && g.runners[r].token != Detached
    ensures var g' := Dispose(g); Valid(g') && r in g'.runners && ThreadRunners.Step(g', r).outcome.Halted?
  {
    DisposeValid(g);
    DisposeAllFrame(g.(cancelled := true), g.bag);
  }

  /** A context disposed on its own, as written: its running runner, whose
      source followed the group's token, does not halt, so the `Join` in
      `ThreadRunner.Dispose` does not return; and when the group's
      cancellation source fires later, the runner still does not halt. */
  lemma DisposedContextOutlivesGroup(g: Group, c: ContextId, r: RunnerId)
    requires Valid(g) && !g.cancelled && c in g.contexts
    requires r in g.runners && r in g.contexts[c].runners
    requires g.runners[r].wait == Running && g.runners[r].token == Linked
    ensures var g1 := ContextImpl.DisposeAsWritten(g, c);
      && Valid(g1) && r in g1.runners && c !in g1.bag
      && !ThreadRunners.Step(g1, r).outcome.Halted?
      && Valid(g1.(cancelled := true))
      && !ThreadRunners.Step(g1.(cancelled := true), r).outcome.Halted?
  {
    ContextImpl.DisposeAsWrittenPreservesValid(g, c);
    var g1 := ContextImpl.DisposeAsWritten(g, c);
    RemoveFirstDistinct(g.bag, c);
    assert SameLoans(g1, g1.(cancelled := true));
    SameLoansValid(g1, g1.(cancelled := true));
  }

  /** The corrected disposal: every running runner of a context disposed on
      its own leaves its loop on its next pass, whether or not the group
      has cancelled. */
  lemma ContextDisposeHaltsRunners(g: Group, c: ContextId, r: RunnerId)
    requires Valid(g) && c in g.contexts
    requires r in g.runners && r in g.contexts[c].runners && g.runners[r].wait == Running
    ensures var g1 := ContextImpl.Dispose(g, c);
      && Valid(g1) && r in g1.runners && c !in g1.bag
      && ThreadRunners.Step(g1, r).outcome.Halted?
  {
    ContextImpl.DisposePreservesValid(g, c);
    RemoveFirstDistinct(g.bag, c);
  }

  /** Cancellation does not reach a runner blocked on its job event: after
      `Dispose()` it stays blocked while the event is reset, so joining its
      thread does not return. */
  lemma DisposeLeavesWaitersBlocked(g: Group, r: RunnerId)
    requires Valid(g) && r in g.runners && g.runners[r].wait == Waiting
    requires !g.contexts[g.runners[r].home].hasJobEvent
    ensures var g' := Dispose(g); Valid(g') && r in g'.runners && ThreadRunners.Step(g', r).outcome.StillBlocked?
  {
    DisposeValid(g);
    DisposeAllFrame(g.(cancelled := true), g.bag);
  }

  /** The group's `Dispose` as it ought to be: after cancelling and before
      any context's runners are joined, the job event of each context in
      the bag is set, so that a runner blocked in `WaitOne()` returns and
      sees the cancellation. Joins are not modelled and disposing contexts
      leaves every event alone (`DisposeAllFrame`), so the events are set
      here on the disposed group. */
  function DisposeWaking(g: Group): (g': Group)
    requires Wf(g)
    ensures g'.bag == [] && g'.cancelled
    ensures SameLoans(Dispose(g), g') && g'.runners == Dispose(g).runners
    ensures forall c :: c in g.bag ==> c in g'.contexts && g'.contexts[c].hasJobEvent
  {
    DisposeAllFrame(g.(cancelled := true), g.bag);
    var g1 := Dispose(g);
    g1.(contexts := map c | c in g1.contexts :: if c in g.bag then g1.contexts[c].(hasJobEvent := true) else g1.contexts[c])
  }

  /** With the events set, a runner blocked on its home event wakes on its
      next iteration and leaves its loop on the one after, so joining its
      thread returns. `DisposeLeavesWaitersBlocked` is the disposal as
      written, after which the runner's iterations change nothing. */
  lemma DisposeWakesWaiters(g: Group, r: RunnerId)
    requires Valid(g) && r in g.runners && g.runners[r].home in g.bag
    requires g.runners[r].wait == Waiting && g.runners[r].token != Detached
    ensures var g1 := DisposeWaking(g);
      && Valid(g1) && r in g1.runners && ThreadRunners.Step(g1, r).outcome.Woken?
      && var g2 := ThreadRunners.Step(g1, r).g;
      && Valid(g2) && r in g2.runners && ThreadRunners.Step(g2, r).outcome.Halted?
  {
    DisposeValid(g);
    DisposeAllFrame(g.(cancelled := true), g.bag);
    var g1 := DisposeWaking(g);
    SameLoansValid(Dispose(g), g1);
    assert g1.runners[r].home == g.runners[r].home;
    WakeThenHalt(g1, r);
  }

  /** A cancelled runner blocked on a set event wakes and then halts. */
  lemma WakeThenHalt(g: Group, r: RunnerId)
    requires Valid(g) && r in g.runners && g.runners[r].wait == Waiting
    requires g.contexts[g.runners[r].home].hasJobEvent && CancellationRequested(g.runners[r], g.cancelled)
    ensures ThreadRunners.Step(g, r).outcome.Woken?
    ensures var g' := ThreadRunners.Step(g, r).g;
      && Valid(g') && r in g'.runners && ThreadRunners.Step(g', r).outcome.Halted?
  {
    var run := g.runners[r];
    var g' := ThreadRunners.Step(g, r).g;
    assert g' == ThreadRunners.SetRunner(g, r, run.(wait := Running, idleMs := 0)) by {
      assert ThreadRunners.Step(g, r) == ThreadRunners.Resume(g, r);
    }
    SameLoansValid(g, g');
  }

  /** Disposing the group loses no wakeup. */
  lemma DisposeKeepsWakeups(g: Group)
    requires Wf(g) && ThreadRunners.NoLostWakeup(g)
    ensures ThreadRunners.NoLostWakeup(Dispose(g))
  {
    DisposeAllFrame(g.(cancelled := true), g.bag);
    assert ThreadRunners.WakeupsKept(g, Dispose(g));
    ThreadRunners.WakeupsKeptNoLostWakeup(g, Dispose(g));
  }
}

=== FILE: shared_state.dfy ===
/** The state of one `SharedSynchronizationContext` group, with every object
    the loan protocol touches kept by identity: contexts
    (`SharedSynchronizationContextImpl`), runners (`ThreadRunner`),
    registrations (`Registration`) and task queues. Identities matter because
    a registration is shared between a runner and its home context, and
    because `RemoveExternalRunner` points a runner at a brand-new queue. All
    identities come from one counter, `nextId`. */
module SharedState {
  import opened Base
  import opened TaskQueue
  import Affinity

  type ContextId = nat
  type RunnerId = nat
  type RegistrationId = nat
  type QueueId = nat

  /** A runner stops spinning once its starvation stopwatch exceeds this many
      milliseconds without a dequeued task. */
  const StarvationMs: nat := 300

  /** Where a runner's thread is with respect to its home job event:
      `Running` its loop, `Parking` between a failed `TryNotifyIdle` and
      `_hasJobEvent.WaitOne()`, or `Waiting` inside `WaitOne()`. */
  datatype Wait = Running | Parking | Waiting

  /** A runner's own `_cancellationTokenSource`, created linked to the
      group's token: `Linked` while it follows the group, `Cancelled` once
      it fired itself, `Detached` once it was disposed without firing, after
      which nothing can cancel the token its loop captured. */
  datatype Token = Linked | Cancelled | Detached

  /** A `ThreadRunner`. `tasksSource` is the mutable `TasksSource` pointer,
      `exportRegistration` the runner's own loan (null when absent), `wait`
      tells whether the thread is about to block or blocked on its home
      context's job event, `idleMs` is the starvation stopwatch and `token`
      the state of its cancellation source. */
  datatype Runner = Runner(
    home: ContextId,
    processorId: int,
    affinity: int,
    tasksSource: QueueId,
    exportRegistration: Option<RegistrationId>,
    wait: Wait,
    idleMs: nat,
    token: Token)

  /** `token.IsCancellationRequested` for a runner whose group has or has
      not cancelled. */
  predicate CancellationRequested(run: Runner, groupCancelled: bool)
  {
    run.token == Cancelled || (run.token == Linked && groupCancelled)
  }

  /** `_cancellationTokenSource.Cancel()`: the runner's token reports
      cancellation whatever the group does, and nothing else changes. */
  function CancelSource(run: Runner): (run': Runner)
    ensures forall groupCancelled: bool :: CancellationRequested(run', groupCancelled)
    ensures run' == run.(token := run'.token)
  {
    run.(token := Cancelled)
  }

  /** `_cancellationTokenSource?.Dispose()`, which is what
      `ThreadRunner.Dispose` calls: disposing a linked source unlinks it
      from the group's token without cancelling it. A token that already
      reported cancellation keeps doing so; any other stops following the
      group and never reports cancellation again. */
  function DisposeSource(run: Runner, groupCancelled: bool): (run': Runner)
    ensures CancellationRequested(run', groupCancelled) <==> CancellationRequested(run, groupCancelled)
    ensures !CancellationRequested(run, groupCancelled) ==>
      forall later: bool :: !CancellationRequested(run', later)
    ensures run' == run.(token := run'.token)
  {
    run.(token := if CancellationRequested(run, groupCancelled) then Cancelled else Detached)
  }

  /** A `Registration`: the loan of `runner` to `target`, remembering the
      queue the runner used before (`_nativeQueue`) and the `_disposed` guard. */
  datatype Registration = Registration(
    runner: RunnerId,
    target: ContextId,
    nativeQueue: QueueId,
    disposed: bool)

  /** A `SharedSynchronizationContextImpl`: its queue `_tasks`, its own
      `_runners`, the foreign runners in `_importedThreads`, the loans of its
      runners in `_exportedRunners`, the `_hardLock` word (true for 1) and the
      manual-reset `_hasJobEvent`. */
  datatype Context = Context(
    name: string,
    tasks: QueueId,
    runners: seq<RunnerId>,
    imported: seq<RunnerId>,
    exported: seq<RegistrationId>,
    hardLock: bool,
    hasJobEvent: bool)

  /** A `SharedSynchronizationContext`: the ordered `_bag` of live contexts,
      the object stores, and whether the group's cancellation source fired. */
  datatype Group = Group(
    bag: seq<ContextId>,
    contexts: map<ContextId, Context>,
    runners: map<RunnerId, Runner>,
    registrations: map<RegistrationId, Registration>,
    queues: map<QueueId, seq<TaskId>>,
    nextId: nat,
    cancelled: bool)

  /** Referential integrity: every identity the operations follow names an
      existing object, and every existing identity lies below the
      allocator, so allocation never reuses one. */
  ghost predicate Wf(g: Group)
  {
    && BagWf(g) && ContextsWf(g) && RunnersWf(g) && RegistrationsWf(g) && IdsBelow(g)
  }

  ghost predicate BagWf(g: Group)
  {
    forall c :: c in g.bag ==> c in g.contexts
  }

  ghost predicate ContextsWf(g: Group)
  {
    && (forall c :: c in g.contexts ==> g.contexts[c].tasks in g.queues)
    && (forall c, id :: c in g.contexts && id in g.contexts[c].exported ==> id in g.registrations)
  }

  ghost predicate RunnersWf(g: Group)
  {
    forall r :: r in g.runners ==>
      && g.runners[r].home in g.contexts
      && g.runners[r].tasksSource in g.queues
      && (g.runners[r].exportRegistration.Some? ==> g.runners[r].exportRegistration.value in g.registrations)
  }

  ghost predicate RegistrationsWf(g: Group)
  {
    forall id :: id in g.registrations ==> RegistrationOk(g, id) && g.registrations[id].nativeQueue in g.queues
  }

  ghost predicate IdsBelow(g: Group)
  {
    && (forall c :: c in g.contexts ==> c < g.nextId)
    && (forall r :: r in g.runners ==> r < g.nextId)
    && (forall id :: id in g.registrations ==> id < g.nextId)
    && (forall q :: q in g.queues ==> q < g.nextId)
  }

  /** The references a registration's disposal follows are valid. */
  predicate RegistrationOk(g: Group, id: RegistrationId)
  {
    id in g.registrations && g.registrations[id].runner in g.runners
    && g.registrations[id].target in g.contexts
  }

  /** A new group: an empty bag and nothing allocated. */
  function EmptyGroup(): (g: Group)
    ensures Wf(g) && g.bag == [] && !g.cancelled
  {
    Group([], map[], map[], map[], map[], 0, false)
  }

  /** `HasWork`: `_tasks.Any()`. */
  predicate HasWork(g: Group, c: ContextId)
    requires c in g.contexts && g.contexts[c].tasks in g.queues
  {
    g.queues[g.contexts[c].tasks] != []
  }

  /** A new `ThreadRunner` on `processor`: it starts on its home queue, holds
      no loan, is running, its stopwatch has just started, its cancellation
      source follows the group's token, and the thread pins itself with the
      mask `1 << processor`. */
  function NewRunner(home: ContextId, processor: int, queue: QueueId): (run: Runner)
    ensures run.home == home && run.processorId == processor && run.tasksSource == queue
    ensures run.exportRegistration.None? && run.wait == Running && run.idleMs == 0
    ensures run.affinity == Affinity.Mask(processor)
    ensures forall groupCancelled: bool :: CancellationRequested(run, groupCancelled) <==> groupCancelled
  {
    Runner(home, processor, Affinity.Mask(processor), queue, None, Running, 0, Linked)
  }

  /** `RegisterExternalRunner`: the context records the foreign runner and
      the runner now takes its tasks from the context's queue. */
  function RegisterExternalRunner(g: Group, c: ContextId, r: RunnerId): (g': Group)
    requires c in g.contexts && r in g.runners
    ensures g'.contexts == g.contexts[c := g.contexts[c].(imported := g.contexts[c].imported + [r])]
    ensures g'.runners == g.runners[r := g.runners[r].(tasksSource := g.contexts[c].tasks)]
    ensures g'.bag == g.bag && g'.registrations == g.registrations && g'.queues == g.queues
    ensures g'.nextId == g.nextId && g'.cancelled == g.cancelled
  {
    var ctx := g.contexts[c];
    g.(contexts := g.contexts[c := ctx.(imported := ctx.imported + [r])],
       runners := g.runners[r := g.runners[r].(tasksSource := ctx.tasks)])
  }

  /** `RemoveExternalRunner`: one occurrence of the runner leaves the
      imported list and the runner is pointed at a fresh, empty queue that
      no other object knows. */
  function RemoveExternalRunner(g: Group, c: ContextId, r: RunnerId): (g': Group)
    requires c in g.contexts && r in g.runners
    ensures g'.contexts == g.contexts[c := g.contexts[c].(imported := RemoveFirst(g.contexts[c].imported, r))]
    ensures g'.runners == g.runners[r := g.runners[r].(tasksSource := g.nextId)]
    ensures g'.queues == g.queues[g.nextId := []]
    ensures g'.bag == g.bag && g'.registrations == g.registrations
    ensures g'.nextId == g.nextId + 1 && g'.cancelled == g.cancelled
  {
    var ctx := g.contexts[c];
    var q := g.nextId;
    g.(contexts := g.contexts[c := ctx.(imported := RemoveFirst(ctx.imported, r))],
       runners := g.runners[r := g.runners[r].(tasksSource := q)],
       queues := g.queues[q := []],
       nextId := q + 1)
  }

  /** `ContextDisposing`: the context leaves the bag (its first occurrence),
      the others keep their order, and nothing else changes. */
  function ContextDisposing(g: Group, c: ContextId): (g': Group)
    ensures c in g.bag ==> g'.bag == g.bag[..IndexOf(g.bag, c)] + g.bag[IndexOf(g.bag, c) + 1..]
    ensures c !in g.bag ==> g'.bag == g.bag
    ensures multiset(g'.bag) == multiset(g.bag) - multiset{c}
    ensures g' == g.(bag := g'.bag)
  {
    RemoveFirstFacts(g.bag, c);
    g.(bag := RemoveFirst(g.bag, c))
  }
}

=== FILE: switch_cores.dfy ===
/** `SwitchCoresSynchronizationContext`: thread `k` owns the processor pair
    `(2k, 2k+1)` and runs on one of them; every 5000 ms of its inverting
    stopwatch it swaps to the other one. Apart from that its loop is the
    one of `Pools`. */
module SwitchCores {
  import opened Affinity
  import opened Pools

  /** `threadsCount >> 1` on a non-negative `int`. */
  function Half(n: nat): (h: nat)
    ensures 2 * h <= n < 2 * h + 2
  {
    n / 2
  }

  /** `new SwitchCoresSynchronizationContext(threadsCount)`: one thread per
      pair of processors, thread `k` starting on processor `2k` with `2k+1`
      as its other processor. `processorCount` is
      `Environment.ProcessorCount`. */
  function Create(threadsCount: int, processorCount: nat): (p: Pool)
    requires Int32(threadsCount) && 0 < processorCount <= IntMax
    ensures |p.threads| == Half(ThreadCount(threadsCount, processorCount))
    ensures forall k :: 0 <= k < |p.threads| ==>
      p.threads[k].processorId == 2 * k && p.threads[k].processorIdNext == 2 * k + 1
    ensures PairPinned(p) && AllRunning(p.threads)
    ensures p.tasks == [] && !p.hardLock && !p.signal && !p.cancelled
  {
    var n := Half(ThreadCount(threadsCount, processorCount));
    var threads := seq(n, k requires 0 <= k < n => NewThread(2 * k, 2 * k + 1));
    assert forall k :: 0 <= k < n ==> threads[k] == NewThread(2 * k, 2 * k + 1);
    Fresh(threads)
  }

  /** Thread `k` sits on one processor of its pair `{2k, 2k+1}`, has the
      other as its next one, and its affinity mask is that of the processor
      it sits on. */
  ghost predicate PairPinned(p: Pool)
  {
    forall k :: 0 <= k < |p.threads| ==>
      && {p.threads[k].processorId, p.threads[k].processorIdNext} == {2 * k, 2 * k + 1}
      && p.threads[k].affinity == Mask(p.threads[k].processorId)
  }

  /** The pairs partition the processors `[0, 2 * threads)`: processor `q`
      belongs to thread `q / 2` and to no other, and every processor handed
      out is below the requested count. */
  lemma PairsPartition(p: Pool, threadsCount: int, processorCount: nat, q: int, k: nat)
    requires Int32(threadsCount) && 0 < processorCount <= IntMax
    requires p == Create(threadsCount, processorCount) && k < |p.threads|
    ensures q == p.threads[k].processorId || q == p.threads[k].processorIdNext <==> 0 <= q && q / 2 == k
    ensures q == p.threads[k].processorId || q == p.threads[k].processorIdNext ==> q < ThreadCount(threadsCount, processorCount)
  {
  }

  /** `Invert(threadState)`: the thread swaps its processor with its next
      one and sets the affinity mask of the processor it moved to. */
  function Invert(t: PoolThread): (t': PoolThread)
    ensures t'.processorId == t.processorIdNext && t'.processorIdNext == t.processorId
    ensures t'.affinity == Mask(t'.processorId)
    ensures t'.blocked == t.blocked && t'.idleMs == t.idleMs && t'.invertMs == t.invertMs
  {
    t.(processorId := t.processorIdNext, processorIdNext := t.processorId, affinity := Mask(t.processorIdNext))
  }

  /** Inverting twice returns a pinned thread to where it was, and an
      inversion never leaves the thread's pair. */
  lemma InvertInvolutive(t: PoolThread)
    requires t.affinity == Mask(t.processorId)
    ensures Invert(Invert(t)) == t
    ensures {Invert(t).processorId, Invert(t).processorIdNext} == {t.processorId, t.processorIdNext}
  {
  }

  /** One pass of thread `i`: the shared loop, then, on a pass that ran a
      task or spun (a pass that blocked or woke continues before the
      check), the inverting stopwatch is restarted and the thread inverted
      once it exceeds 5000 ms. */
  function Step(p: Pool, i: nat): (res: StepResult)
    requires i < |p.threads|
    ensures var s := Pools.Step(p, i);
      && |res.pool.threads| == |p.threads|
      && res.outcome == s.outcome
      && res.pool == s.pool.(threads := res.pool.threads)
      && (forall j :: 0 <= j < |p.threads| && j != i ==> res.pool.threads[j] == p.threads[j])
    ensures var t := p.threads[i]; var t' := res.pool.threads[i];
      if (res.outcome.Ran? || res.outcome.Spun?) && t.invertMs > 5000 then
        && t'.processorId == t.processorIdNext && t'.processorIdNext == t.processorId
        && t'.affinity == Mask(t.processorIdNext) && t'.invertMs == 0
      else
        && t'.processorId == t.processorId && t'.processorIdNext == t.processorIdNext
        && t'.affinity == t.affinity && t'.invertMs == t.invertMs
    ensures res.pool.threads[i].blocked == Pools.Step(p, i).pool.threads[i].blocked
    ensures res.pool.threads[i].idleMs == Pools.Step(p, i).pool.threads[i].idleMs
  {
    var s := Pools.Step(p, i);
    var t := s.pool.threads[i];
    if (s.outcome.Ran? || s.outcome.Spun?) && t.invertMs > 5000 then
      StepResult(SetThread(s.pool, i, Invert(t.(invertMs := 0))), s.outcome)
    else s
  }

  /** Inverting keeps the pool's handshake invariant, since it only moves a
      thread between processors. */
  lemma StepValid(p: Pool, i: nat)
    requires Valid(p) && i < |p.threads|
    ensures Valid(Step(p, i).pool)
  {
    Pools.StepValid(p, i);
    var s := Pools.Step(p, i).pool;
    var p' := Step(p, i).pool;
    if !s.hardLock && !s.signal && |s.threads| > 0 {
      var j :| 0 <= j < |s.threads| && !s.threads[j].blocked;
      assert !p'.threads[j].blocked;
    }
  }

  /** Every thread stays within its own pair of processors, pinned to the
      one it sits on, whatever the loop, `Post` or time do. */
  lemma StepKeepsPairs(p: Pool, i: nat)
    requires PairPinned(p) && i < |p.threads|
    ensures PairPinned(Step(p, i).pool)
  {
    var p' := Step(p, i).pool;
    assert {p'.threads[i].processorId, p'.threads[i].processorIdNext}
        == {p.threads[i].processorId, p.threads[i].processorIdNext};
  }

  lemma PostKeepsPairs(p: Pool, task: nat)
    requires PairPinned(p)
    ensures PairPinned(Post(p, task))
  {
  }

  lemma ElapseKeepsPairs(p: Pool, i: nat, ms: nat)
    requires PairPinned(p) && i < |p.threads|
    ensures PairPinned(Elapse(p, i, ms))
  {
  }

  /** A thread whose inverting stopwatch has passed 5000 ms and which finds
      work moves to the other processor of its pair, then keeps serving the
      queue there. */
  lemma OverdueThreadSwitches(p: Pool, i: nat)
    requires PairPinned(p) && i < |p.threads|
    requires !p.threads[i].blocked && !p.cancelled && p.tasks != [] && p.threads[i].invertMs > 5000
    ensures var res := Step(p, i);
      && res.outcome == Ran(p.tasks[0])
      && res.pool.threads[i].processorId == p.threads[i].processorIdNext
      && res.pool.threads[i].affinity == Mask(p.threads[i].processorIdNext)
  {
  }
}

=== FILE: task_queue.dfy ===
/** `ConcurrentQueue<LocalTask>` seen sequentially: tasks are opaque ids,
    `Enqueue` appends at the tail and `TryDequeue` takes the head. */
module TaskQueue {

  type TaskId = nat

  datatype Dequeued = Empty | Took(task: TaskId, rest: seq<TaskId>)

  function Enqueue(q: seq<TaskId>, t: TaskId): (r: seq<TaskId>)
    ensures |r| == |q| + 1 && r[|q|] == t && r[..|q|] == q
  {
    q + [t]
  }

  /** A non-blocking dequeue: fails exactly on the empty queue and otherwise
      splits the queue into its head and the remainder. */
  function TryDequeue(q: seq<TaskId>): (d: Dequeued)
    ensures d.Empty? <==> |q| == 0
    ensures d.Took? ==> [d.task] + d.rest == q
  {
    if |q| == 0 then Empty else Took(q[0], q[1..])
  }

  /** The order in which repeated `TryDequeue` calls hand tasks out. */
  function DrainOrder(q: seq<TaskId>): seq<TaskId>
    decreases |q|
  {
    match TryDequeue(q)
    case Empty => []
    case Took(t, rest) => [t] + DrainOrder(rest)
  }

  /** Posting `ts` one after another, starting from `q`. */
  function EnqueueAll(q: seq<TaskId>, ts: seq<TaskId>): seq<TaskId>
    decreases |ts|
  {
    if |ts| == 0 then q else EnqueueAll(Enqueue(q, ts[0]), ts[1..])
  }

  lemma {:induction false} EnqueueAllAppends(q: seq<TaskId>, ts: seq<TaskId>)
    ensures EnqueueAll(q, ts) == q + ts
    decreases |ts|
  {
    if |ts| > 0 {
      EnqueueAllAppends(q + [ts[0]], ts[1..]);
      assert q + [ts[0]] + ts[1..] == q + ts;
    }
  }

  lemma {:induction false} DrainOrderIsQueueOrder(q: seq<TaskId>)
    ensures DrainOrder(q) == q
    decreases |q|
  {
    if |q| > 0 {
      DrainOrderIsQueueOrder(q[1..]);
      assert [q[0]] + q[1..] == q;
    }
  }

  /** FIFO: whatever was queued before comes out first, then the posted tasks
      in the order they were posted. */
  lemma Fifo(q: seq<TaskId>, ts: seq<TaskId>)
    ensures DrainOrder(EnqueueAll(q, ts)) == q + ts
  {
    EnqueueAllAppends(q, ts);
    DrainOrderIsQueueOrder(q + ts);
  }
}

=== FILE: thread_runner.dfy ===
/** `ThreadRunner`: one iteration of a runner thread's loop. A runner runs
    tasks from `TasksSource` while there are any; once its starvation
    stopwatch passes `StarvationMs` it first returns from a loan, then tries
    to borrow work from another context through its home context's
    `TryNotifyIdle`, and failing that blocks on its home job event. */
module ThreadRunners {
  import opened Base
  import opened TaskQueue
  import opened SharedState
  import opened Invariants
  import Registrations
  import ContextImpl

  /** `Exported`: the runner still holds a registration, whether or not its
      home context has disposed it meanwhile. */
  predicate Exported(run: Runner)
  {
    run.exportRegistration.Some?
  }

  /** What one iteration did. */
  datatype Outcome =
    | Ran(task: TaskId)                      // dequeued and ran a task
    | Spun                                   // no task, not starved yet
    | Recalled                               // starved on loan: gave the loan back
    | Borrowed(registration: RegistrationId) // starved at home: lent to a context with work
    | Parked                                 // starved, nothing to borrow
    | Blocked                                // reached `WaitOne()`
    | StillBlocked                           // waits, the job event is not set
    | Woken                                  // the job event is set: back to the loop
    | Halted                                 // cancellation requested: the loop has ended

  datatype StepResult = StepResult(g: Group, outcome: Outcome)

  function SetRunner(g: Group, r: RunnerId, run: Runner): (g': Group)
  {
    g.(runners := g.runners[r := run])
  }

  /** A starved runner on loan disposes its own registration, which puts it
      back on its native queue, and forgets it. */
  function SelfRecall(g: Group, r: RunnerId): (g': Group)
    requires Wf(g) && r in g.runners && Exported(g.runners[r])
    ensures r in g'.runners && !Exported(g'.runners[r])
    ensures g'.runners[r] == g.runners[r].(tasksSource := g'.runners[r].tasksSource, exportRegistration := None)
  {
    var id := g.runners[r].exportRegistration.value;
    assert RegistrationOk(g, id);
    Registrations.DisposeKeepsRegistrationsOk(g, id);
    var g1 := Registrations.Dispose(g, id);
    SetRunner(g1, r, g1.runners[r].(exportRegistration := None))
  }

  /** The state after runner `r` borrowed work from `t`: its home context
      lent it and the runner keeps the new registration. */
  function Borrow(g: Group, r: RunnerId, t: ContextId): (g': Group)
    requires r in g.runners && g.runners[r].home in g.contexts && t in g.contexts
    ensures r in g'.runners && g'.runners[r].exportRegistration == Some(g.nextId)
    ensures g'.runners[r] == g.runners[r].(tasksSource := g'.runners[r].tasksSource, exportRegistration := Some(g.nextId))
  {
    ContextImpl.LendRegistrations(g, g.runners[r].home, r, t);
    var g1 := ContextImpl.Lend(g, g.runners[r].home, r, t);
    SetRunner(g1, r, g1.runners[r].(exportRegistration := Some(g.nextId)))
  }

  /** A starved runner at home asks its home context for a loan. */
  function Starved(g: Group, r: RunnerId): (res: StepResult)
    requires Wf(g) && r in g.runners
    ensures res.outcome.Borrowed? || res.outcome.Parked?
    ensures res.outcome.Borrowed? ==>
      && r in res.g.runners && res.outcome.registration == g.nextId
      && res.g.runners[r] == g.runners[r].(tasksSource := res.g.runners[r].tasksSource, exportRegistration := Some(g.nextId))
    ensures res.outcome.Parked? ==>
      var h := g.runners[r].home;
      && h in res.g.contexts && res.g.contexts[h].hardLock && !res.g.contexts[h].hasJobEvent
      && r in res.g.runners && res.g.runners[r].wait == Parking
  {
    var run := g.runners[r];
    var rep := ContextImpl.TryNotifyIdle(g, run.home, r);
    if rep.ok then
      ContextImpl.TryNotifyIdleLends(g, run.home, r);
      var t := rep.g.registrations[rep.registration.value].target;
      StepResult(Borrow(g, r, t), Borrowed(g.nextId))
    else
      StepResult(SetRunner(rep.g, r, run.(wait := Parking)), Parked)
  }

  /** The runner reaches `WaitOne()` on its home job event, which the failed
      `TryNotifyIdle` has already reset under the lock. The source resets
      the event a second time here, outside the lock; `ParkAsWritten` models
      that, and this definition leaves the second reset out, so that a
      parking runner never loses a wakeup. */
  function Park(g: Group, r: RunnerId): (g': Group)
    requires r in g.runners
    ensures g'.contexts == g.contexts
    ensures g.runners[r].wait != Running && NoLostWakeup(g) ==> NoLostWakeup(g')
  {
    SetRunner(g, r, g.runners[r].(wait := Waiting))
  }

  /** `_hasJobEvent.Reset(); _hasJobEvent.WaitOne();` as the runner loop
      writes it: the home job event is reset once more before blocking. */
  function ParkAsWritten(g: Group, r: RunnerId): (g': Group)
    requires r in g.runners && g.runners[r].home in g.contexts
    ensures var h := g.runners[r].home; h in g'.contexts && !g'.contexts[h].hasJobEvent
    ensures r in g'.runners && g'.runners[r].wait == Waiting
    ensures SameLoans(g, g')
  {
    var h := g.runners[r].home;
    var g1 := Park(g, r);
    g1.(contexts := g1.contexts[h := g1.contexts[h].(hasJobEvent := false)])
  }

  /** One iteration of the runner loop of `r`, with `Park` in place of
      the loop's second `Reset()`. A wake and a dequeued task restart the
      starvation stopwatch; a pass that finds nothing before starvation
      changes nothing; a starved runner on loan gives the loan back, and
      one at home borrows or, with `_hardLock` armed and the job event
      reset, parks. */
  function Step(g: Group, r: RunnerId): (res: StepResult)
    requires Wf(g) && r in g.runners
    ensures res.outcome.Halted? <==> g.runners[r].wait == Running && CancellationRequested(g.runners[r], g.cancelled)
    ensures res.outcome.Ran? ==>
      var q := g.runners[r].tasksSource;
      && q in g.queues && g.queues[q] != [] && res.outcome.task == g.queues[q][0]
      && res.g.queues == g.queues[q := g.queues[q][1..]]
      && r in res.g.runners && res.g.runners[r].idleMs == 0 && res.g.runners[r].wait == Running
      && SameLoans(g, res.g)
    ensures res.outcome.Spun? <==>
      var run := g.runners[r];
      && run.wait == Running && !CancellationRequested(run, g.cancelled)
      && g.queues[run.tasksSource] == [] && run.idleMs <= StarvationMs
    ensures res.outcome.Spun? || res.outcome.StillBlocked? || res.outcome.Halted? ==> res.g == g
    ensures res.outcome.Woken? <==>
      g.runners[r].wait == Waiting && g.contexts[g.runners[r].home].hasJobEvent
    ensures res.outcome.StillBlocked? <==>
      g.runners[r].wait == Waiting && !g.contexts[g.runners[r].home].hasJobEvent
    ensures res.outcome.Woken? ==>
      && r in res.g.runners && res.g.runners[r].wait == Running && res.g.runners[r].idleMs == 0
      && SameLoans(g, res.g) && res.g.contexts == g.contexts
    ensures res.outcome.Blocked? <==> g.runners[r].wait == Parking
    ensures res.outcome.Blocked? ==>
      && r in res.g.runners && res.g.runners[r].wait == Waiting
      && SameLoans(g, res.g) && res.g.contexts == g.contexts
    ensures res.outcome.Parked? ==>
      var h := g.runners[r].home;
      && !Exported(g.runners[r]) && h in res.g.contexts
      && res.g.contexts[h].hardLock && !res.g.contexts[h].hasJobEvent
      && r in res.g.runners && res.g.runners[r].wait == Parking
    ensures res.outcome.Ran? <==>
      var run := g.runners[r];
      run.wait == Running && !CancellationRequested(run, g.cancelled) && g.queues[run.tasksSource] != []
    ensures res.outcome.Borrowed? || res.outcome.Parked? ==> Starving(g, r) && !Exported(g.runners[r])
    ensures res.outcome.Borrowed? ==> !Exported(g.runners[r]) && res.outcome.registration == g.nextId
    ensures res.outcome.Recalled? <==> Starving(g, r) && Exported(g.runners[r])
    ensures res.outcome.Recalled? ==> r in res.g.runners && !Exported(res.g.runners[r])
    ensures res.outcome.Recalled? || res.outcome.Borrowed? ==>
      r in res.g.runners && res.g.runners[r].idleMs == g.runners[r].idleMs && res.g.runners[r].wait == Running
    ensures res.outcome.Borrowed? ==> r in res.g.runners && res.g.runners[r].exportRegistration == Some(res.outcome.registration)
  {
    var run := g.runners[r];
    match run.wait
    case Waiting => Resume(g, r)
    case Parking => StepResult(Park(g, r), Blocked)
    case Running =>
      if CancellationRequested(run, g.cancelled) then StepResult(g, Halted)
      else Pass(g, r)
  }

  /** A waiting runner returns from `WaitOne()` exactly when its home job
      event is set, with its stopwatch restarted. */
  function Resume(g: Group, r: RunnerId): (res: StepResult)
    requires Wf(g) && r in g.runners && g.runners[r].wait == Waiting
    ensures res.outcome.Woken? || res.outcome.StillBlocked?
    ensures res.outcome.Woken? <==> g.contexts[g.runners[r].home].hasJobEvent
    ensures res.outcome.StillBlocked? ==> res.g == g
    ensures res.outcome.Woken? ==>
      && r in res.g.runners && res.g.runners[r].wait == Running && res.g.runners[r].idleMs == 0
      && SameLoans(g, res.g) && res.g.contexts == g.contexts
  {
    var run := g.runners[r];
    if g.contexts[run.home].hasJobEvent then
      SetRunnerSameLoans(g, r, run.(wait := Running, idleMs := 0));
      StepResult(SetRunner(g, r, run.(wait := Running, idleMs := 0)), Woken)
    else StepResult(g, StillBlocked)
  }

  /** One pass of a running, uncancelled runner over its `TasksSource`. */
  function Pass(g: Group, r: RunnerId): (res: StepResult)
    requires Wf(g) && r in g.runners
    ensures res.outcome.Ran? || res.outcome.Spun? || res.outcome.Recalled?
      || res.outcome.Borrowed? || res.outcome.Parked?
    ensures res.outcome.Ran? <==> g.queues[g.runners[r].tasksSource] != []
    ensures res.outcome.Ran? ==>
      var q := g.runners[r].tasksSource;
      && g.queues[q] != [] && res.outcome.task == g.queues[q][0]
      && res.g.queues == g.queues[q := g.queues[q][1..]]
      && r in res.g.runners && res.g.runners[r].idleMs == 0 && res.g.runners[r].wait == g.runners[r].wait
      && SameLoans(g, res.g)
    ensures res.outcome.Spun? <==>
      g.queues[g.runners[r].tasksSource] == [] && g.runners[r].idleMs <= StarvationMs
    ensures res.outcome.Spun? ==> res.g == g
    ensures res.outcome.Recalled? <==>
      g.queues[g.runners[r].tasksSource] == [] && g.runners[r].idleMs > StarvationMs && Exported(g.runners[r])
    ensures res.outcome.Recalled? ==> r in res.g.runners && !Exported(res.g.runners[r])
    ensures res.outcome.Borrowed? ==> !Exported(g.runners[r]) && res.outcome.registration == g.nextId
    ensures res.outcome.Recalled? || res.outcome.Borrowed? ==>
      r in res.g.runners && res.g.runners[r].idleMs == g.runners[r].idleMs && res.g.runners[r].wait == g.runners[r].wait
    ensures res.outcome.Borrowed? ==> r in res.g.runners && res.g.runners[r].exportRegistration == Some(res.outcome.registration)
    ensures res.outcome.Parked? ==>
      var h := g.runners[r].home;
      && !Exported(g.runners[r]) && h in res.g.contexts
      && res.g.contexts[h].hardLock && !res.g.contexts[h].hasJobEvent
      && r in res.g.runners && res.g.runners[r].wait == Parking
  {
    var run := g.runners[r];
    match TryDequeue(g.queues[run.tasksSource])
    case Took(t, rest) =>
      var g' := SetRunner(g.(queues := g.queues[run.tasksSource := rest]), r, run.(idleMs := 0));
      assert SameLoans(g, g');
      StepResult(g', Ran(t))
    case Empty =>
      if run.idleMs <= StarvationMs then StepResult(g, Spun)
      else if Exported(run) then StepResult(SelfRecall(g, r), Recalled)
      else Starved(g, r)
  }

  /** `ms` milliseconds pass on the runner's stopwatch. */
  function Elapse(g: Group, r: RunnerId, ms: nat): (g': Group)
    requires r in g.runners
    ensures r in g'.runners && g'.runners[r].idleMs == g.runners[r].idleMs + ms
    ensures SameLoans(g, g')
  {
    SetRunner(g, r, g.runners[r].(idleMs := g.runners[r].idleMs + ms))
  }

  /** A runner that is starved, runs, has nothing queued and is not
      cancelled either gives a loan back or asks for one; every other
      iteration leaves the loan bookkeeping alone. */
  predicate Starving(g: Group, r: RunnerId)
    requires Wf(g) && r in g.runners
  {
    var run := g.runners[r];
    run.wait == Running && !CancellationRequested(run, g.cancelled) && g.queues[run.tasksSource] == [] && run.idleMs > StarvationMs
  }

  /** Every iteration keeps the loan invariant. */
  lemma StepValid(g: Group, r: RunnerId)
    requires Valid(g) && r in g.runners
    ensures Valid(Step(g, r).g)
  {
    var run := g.runners[r];
    if Starving(g, r) {
      if Exported(run) {
        assert Step(g, r).g == SelfRecall(g, r);
        SelfRecallValid(g, r);
      } else {
        assert Step(g, r) == Starved(g, r);
        StarvedValid(g, r);
      }
    } else {
      QuietStep(g, r);
      SameLoansValid(g, Step(g, r).g);
    }
  }

  lemma QuietStep(g: Group, r: RunnerId)
    requires Wf(g) && r in g.runners && !Starving(g, r)
    ensures SameLoans(g, Step(g, r).g)
  {
    var run := g.runners[r];
    var g' := Step(g, r).g;
    if run.wait == Running && !CancellationRequested(run, g.cancelled) && g.queues[run.tasksSource] != [] {
      var q := run.tasksSource;
      assert g' == SetRunner(g.(queues := g.queues[q := g.queues[q][1..]]), r, run.(idleMs := 0));
    } else if run.wait == Waiting && g.contexts[run.home].hasJobEvent {
      SetRunnerSameLoans(g, r, run.(wait := Running, idleMs := 0));
    } else if run.wait == Parking {
      SetRunnerSameLoans(g, r, run.(wait := Waiting));
    }
  }

  /** Changing a runner's wait state or stopwatch leaves the loans alone. */
  lemma SetRunnerSameLoans(g: Group, r: RunnerId, run: Runner)
    requires r in g.runners
    requires run.home == g.runners[r].home && run.tasksSource == g.runners[r].tasksSource
    requires run.exportRegistration == g.runners[r].exportRegistration
    ensures SameLoans(g, SetRunner(g, r, run))
  {
  }

  lemma SelfRecallValid(g: Group, r: RunnerId)
    requires Valid(g) && r in g.runners && Exported(g.runners[r])
    ensures Valid(SelfRecall(g, r))
  {
    var id := g.runners[r].exportRegistration.value;
    Registrations.DisposePreservesValid(g, id);
    Registrations.DisposeKeepsRegistrationsOk(g, id);
    var g1 := Registrations.Dispose(g, id);
    ClearHeldShrinks(g1, r);
    ShrinksValid(g1, SelfRecall(g, r));
  }

  /** Forgetting a registration that is no longer live only ends
      bookkeeping. */
  lemma ClearHeldShrinks(g: Group, r: RunnerId)
    requires r in g.runners && Exported(g.runners[r]) && !Live(g, g.runners[r].exportRegistration.value)
    ensures Shrinks(g, SetRunner(g, r, g.runners[r].(exportRegistration := None)))
  {
    var g' := SetRunner(g, r, g.runners[r].(exportRegistration := None));
    assert forall r' :: LoanTarget(g', r') == LoanTarget(g, r');
  }

  lemma StarvedValid(g: Group, r: RunnerId)
    requires Valid(g) && r in g.runners && !Exported(g.runners[r])
    ensures Valid(Starved(g, r).g)
  {
    if ContextImpl.TryNotifyIdle(g, g.runners[r].home, r).ok {
      StarvedBorrowValid(g, r);
    } else {
      StarvedParkValid(g, r);
    }
  }

  lemma StarvedBorrowValid(g: Group, r: RunnerId)
    requires Valid(g) && r in g.runners && !Exported(g.runners[r])
    requires ContextImpl.TryNotifyIdle(g, g.runners[r].home, r).ok
    ensures Valid(Starved(g, r).g)
  {
    var rep := ContextImpl.TryNotifyIdle(g, g.runners[r].home, r);
    ContextImpl.TryNotifyIdleLends(g, g.runners[r].home, r);
    var t := rep.g.registrations[rep.registration.value].target;
    BorrowValid(g, r, t);
  }

  lemma StarvedParkValid(g: Group, r: RunnerId)
    requires Valid(g) && r in g.runners
    requires !ContextImpl.TryNotifyIdle(g, g.runners[r].home, r).ok
    ensures Valid(Starved(g, r).g)
  {
    var rep := ContextImpl.TryNotifyIdle(g, g.runners[r].home, r);
    ContextImpl.TryNotifyIdleFailureValid(g, g.runners[r].home, r);
    SetRunnerSameLoans(rep.g, r, g.runners[r].(wait := Parking));
    SameLoansValid(rep.g, Starved(g, r).g);
  }

  /** What a loan changes: one new live registration remembering the
      runner's queue, the runner reads the target's queue and holds the new
      registration, and the home context's exported list grows by it. */
  ghost predicate Lent(g: Group, g': Group, r: RunnerId, t: ContextId)
  {
    && r in g.runners && g.runners[r].home in g.contexts && t in g.contexts
    && var h := g.runners[r].home;
    && g'.registrations == g.registrations[g.nextId := Registration(r, t, g.runners[r].tasksSource, false)]
    && g'.runners == g.runners[r := g.runners[r].(tasksSource := g.contexts[t].tasks, exportRegistration := Some(g.nextId))]
    && g'.bag == g.bag && g'.queues == g.queues && g'.nextId == g.nextId + 1
    && g'.contexts.Keys == g.contexts.Keys
    && (forall c :: c in g.contexts ==>
          && g'.contexts[c].tasks == g.contexts[c].tasks
          && g'.contexts[c].runners == g.contexts[c].runners
          && (c != h ==> g'.contexts[c].exported == g.contexts[c].exported))
    && g'.contexts[h].exported == g.contexts[h].exported + [g.nextId]
  }

  lemma BorrowLent(g: Group, r: RunnerId, t: ContextId)
    requires r in g.runners && g.runners[r].home in g.contexts && t in g.contexts
    ensures Lent(g, Borrow(g, r, t), r, t)
  {
    ContextImpl.LendRegistrations(g, g.runners[r].home, r, t);
    ContextImpl.LendContexts(g, g.runners[r].home, r, t);
  }

  /** A runner that holds no registration may be lent while its home
      context has lent fewer runners than it owns. */
  lemma BorrowValid(g: Group, r: RunnerId, t: ContextId)
    requires Valid(g) && r in g.runners && !Exported(g.runners[r]) && t in g.contexts
    requires var h := g.contexts[g.runners[r].home]; |h.exported| < |h.runners|
    ensures Valid(Borrow(g, r, t))
  {
    var g' := Borrow(g, r, t);
    BorrowLent(g, r, t);
    LentWf(g, g', r, t);
    LentOwned(g, g', r, t);
    LentNative(g, g', r, t);
    LentSources(g, g', r, t);
    LentExported(g, g', r, t);
  }

  lemma LentWf(g: Group, g': Group, r: RunnerId, t: ContextId)
    requires Wf(g) && Lent(g, g', r, t)
    ensures Wf(g')
  {
    LentContextsWf(g, g', r, t);
    LentRunnersWf(g, g', r, t);
    LentRegistrationsWf(g, g', r, t);
  }

  lemma LentContextsWf(g: Group, g': Group, r: RunnerId, t: ContextId)
    requires Wf(g) && Lent(g, g', r, t)
    ensures BagWf(g') && ContextsWf(g')
  {
  }

  lemma LentRunnersWf(g: Group, g': Group, r: RunnerId, t: ContextId)
    requires Wf(g) && Lent(g, g', r, t)
    ensures RunnersWf(g')
  {
  }

  lemma LentRegistrationsWf(g: Group, g': Group, r: RunnerId, t: ContextId)
    requires Wf(g) && Lent(g, g', r, t)
    ensures RegistrationsWf(g') && IdsBelow(g')
  {
  }

  lemma LentOwned(g: Group, g': Group, r: RunnerId, t: ContextId)
    requires Valid(g) && Lent(g, g', r, t) && !Exported(g.runners[r])
    ensures RegistrationsOwned(g') && LiveLoansHeld(g') && BagDistinct(g')
  {
    assert RegistrationsOwned(g');
    LentHeld(g, g', r, t);
  }

  lemma LentHeld(g: Group, g': Group, r: RunnerId, t: ContextId)
    requires Valid(g) && Lent(g, g', r, t) && !Exported(g.runners[r])
    ensures LiveLoansHeld(g')
  {
    forall id | Live(g', id)
      ensures var r' := g'.registrations[id].runner; r' in g'.runners && g'.runners[r'].exportRegistration == Some(id)
    {
      if id != g.nextId {
        assert Live(g, id);
      }
    }
  }

  lemma LentNative(g: Group, g': Group, r: RunnerId, t: ContextId)
    requires Valid(g) && Lent(g, g', r, t) && !Exported(g.runners[r])
    ensures NativeIsHome(g')
  {
    assert ReadsExpectedQueue(g, r);
  }

  /** Other runners keep their loan targets. */
  lemma LentTargets(g: Group, g': Group, r: RunnerId, t: ContextId)
    requires Wf(g) && Lent(g, g', r, t)
    ensures LoanTarget(g', r) == Some(t)
    ensures forall r' :: r' in g.runners && r' != r ==> LoanTarget(g', r') == LoanTarget(g, r')
  {
    NewLoanTargets(g, g', r, t, g.contexts[t].tasks);
  }

  /** Adding registration `g.nextId` for `r` alone changes no other
      runner's loan target, because every registration a runner holds is
      older. */
  lemma NewLoanTargets(g: Group, g': Group, r: RunnerId, t: ContextId, q: QueueId)
    requires r in g.runners && RunnersWf(g) && IdsBelow(g)
    requires g'.registrations == g.registrations[g.nextId := Registration(r, t, g.runners[r].tasksSource, false)]
    requires g'.runners == g.runners[r := g.runners[r].(tasksSource := q, exportRegistration := Some(g.nextId))]
    ensures LoanTarget(g', r) == Some(t)
    ensures forall r' :: r' in g.runners && r' != r ==> LoanTarget(g', r') == LoanTarget(g, r')
  {
    forall r' | r' in g.runners && r' != r ensures LoanTarget(g', r') == LoanTarget(g, r') {
      if g.runners[r'].exportRegistration.Some? {
        assert g.runners[r'].exportRegistration.value < g.nextId;
      }
    }
  }

  lemma LentSources(g: Group, g': Group, r: RunnerId, t: ContextId)
    requires Valid(g) && Lent(g, g', r, t)
    ensures SourcesTrackLoans(g')
  {
    LentTargets(g, g', r, t);
    forall r' | r' in g'.runners ensures ReadsExpectedQueue(g', r') {
      if r' != r {
        assert ReadsExpectedQueue(g, r');
      }
    }
  }

  lemma LentExported(g: Group, g': Group, r: RunnerId, t: ContextId)
    requires Valid(g) && Lent(g, g', r, t)
    requires var h := g.contexts[g.runners[r].home]; |h.exported| < |h.runners|
    ensures LiveLoansExported(g') && ExportCap(g')
  {
    LentLiveExported(g, g', r, t);
    assert ExportCap(g');
  }

  lemma LentLiveExported(g: Group, g': Group, r: RunnerId, t: ContextId)
    requires Valid(g) && Lent(g, g', r, t)
    ensures LiveLoansExported(g')
  {
    forall id | Live(g', id)
      ensures var r' := g'.registrations[id].runner;
        r' in g'.runners && g'.runners[r'].home in g'.contexts && id in g'.contexts[g'.runners[r'].home].exported
    {
      var h := g.runners[r].home;
      if id != g.nextId {
        assert Live(g, id);
        var r' := g.registrations[id].runner;
        var c := g.runners[r'].home;
        assert id in g.contexts[c].exported;
        assert g'.runners[r'].home == c;
        if c == h {
          assert g'.contexts[c].exported == g.contexts[c].exported + [g.nextId];
        }
      } else {
        assert g'.registrations[id].runner == r && g'.runners[r].home == h;
      }
    }
  }

  /** A runner that gives its loan back ends up off loan and reading its
      home queue. */
  lemma RecallReturnsHome(g: Group, r: RunnerId)
    requires Valid(g) && r in g.runners && Step(g, r).outcome.Recalled?
    ensures var g' := Step(g, r).g;
      && r in g'.runners && LoanTarget(g', r).None?
      && g'.runners[r].tasksSource == g.contexts[g.runners[r].home].tasks
  {
    StepValid(g, r);
    var id := g.runners[r].exportRegistration.value;
    assert RegistrationOk(g, id);
    Registrations.DisposeKeepsRegistrationsOk(g, id);
    var g' := Step(g, r).g;
    assert g' == SelfRecall(g, r);
    assert g'.runners[r].home == g.runners[r].home;
    assert ReadsExpectedQueue(g', r);
  }

  /** When the home context has already recalled the loan, giving it back
      only forgets the registration: disposal is idempotent. */
  lemma StaleSelfRecall(g: Group, r: RunnerId)
    requires Wf(g) && r in g.runners && Exported(g.runners[r])
    requires !Live(g, g.runners[r].exportRegistration.value)
    ensures SelfRecall(g, r) == SetRunner(g, r, g.runners[r].(exportRegistration := None))
  {
    assert RegistrationOk(g, g.runners[r].exportRegistration.value);
  }

  /** Giving a loan back does not remove it from the home context's exported
      list: the disposed entry stays there, and counts against the home's
      lending bound, until the home's next recall pass in `Post`. */
  lemma SelfRecallKeepsExported(g: Group, r: RunnerId)
    requires Wf(g) && r in g.runners && Exported(g.runners[r])
    ensures forall c :: c in g.contexts ==>
      c in SelfRecall(g, r).contexts && SelfRecall(g, r).contexts[c].exported == g.contexts[c].exported
  {
    var id := g.runners[r].exportRegistration.value;
    assert RegistrationOk(g, id);
    Registrations.DisposeKeepsRegistrationsOk(g, id);
  }

  /** A runner borrows from a context in the bag that has work: it then
      reads that context's queue under a live loan, and the loan is listed
      in its home context's exported list. */
  lemma BorrowTakesWork(g: Group, r: RunnerId)
    requires Wf(g) && r in g.runners && Step(g, r).outcome.Borrowed?
    ensures var g' := Step(g, r).g; var id := Step(g, r).outcome.registration;
      && id in g'.registrations
      && var t := g'.registrations[id].target;
      && t in g.bag && t in g.contexts && HasWork(g, t)
      && LoanTarget(g', r) == Some(t) && g'.runners[r].tasksSource == g.contexts[t].tasks
      && id in g'.contexts[g.runners[r].home].exported
  {
    var h := g.runners[r].home;
    assert Step(g, r) == Starved(g, r);
    var rep := ContextImpl.TryNotifyIdle(g, h, r);
    ContextImpl.TryNotifyIdleLends(g, h, r);
    var t := rep.g.registrations[rep.registration.value].target;
    BorrowLent(g, r, t);
    LentTargets(g, Borrow(g, r, t), r, t);
  }

  /** No lost wakeup: every runner that is about to block or blocked on its
      home job event will be woken, either because the event is set or
      because `_hardLock` is set, so that the next `Post` to the home
      context sets the event. */
  ghost predicate NoLostWakeup(g: Group)
  {
    forall r :: r in g.runners && g.runners[r].wait != Running && g.runners[r].home in g.contexts ==>
      g.contexts[g.runners[r].home].hardLock || g.contexts[g.runners[r].home].hasJobEvent
  }

  /** `g'` wakes whoever `g` would: no runner starts to wait, and no context
      that would wake its waiters stops doing so. */
  ghost predicate WakeupsKept(g: Group, g': Group)
  {
    && (forall r :: r in g'.runners && g'.runners[r].wait != Running ==>
          r in g.runners && g.runners[r].wait != Running && g'.runners[r].home == g.runners[r].home)
    && (forall c :: c in g.contexts && (g.contexts[c].hardLock || g.contexts[c].hasJobEvent) ==>
          c in g'.contexts && (g'.contexts[c].hardLock || g'.contexts[c].hasJobEvent))
  }

  lemma WakeupsKeptNoLostWakeup(g: Group, g': Group)
    requires RunnersWf(g) && NoLostWakeup(g) && WakeupsKept(g, g')
    ensures NoLostWakeup(g')
  {
    forall r | r in g'.runners && g'.runners[r].wait != Running && g'.runners[r].home in g'.contexts
      ensures g'.contexts[g'.runners[r].home].hardLock || g'.contexts[g'.runners[r].home].hasJobEvent
    {
      assert g.runners[r].home in g.contexts;
    }
  }

  /** No runner iteration loses a wakeup. */
  lemma StepKeepsNoLostWakeup(g: Group, r: RunnerId)
    requires Wf(g) && r in g.runners && NoLostWakeup(g)
    ensures NoLostWakeup(Step(g, r).g)
  {
    var run := g.runners[r];
    if run.wait == Parking {
      assert Step(g, r).g == Park(g, r);
    } else if Starving(g, r) {
      if Exported(run) {
        SelfRecallKeepsWakeups(g, r);
        WakeupsKeptNoLostWakeup(g, Step(g, r).g);
      } else if ContextImpl.TryNotifyIdle(g, run.home, r).ok {
        StarvedBorrowKeepsWakeups(g, r);
        WakeupsKeptNoLostWakeup(g, Step(g, r).g);
      } else {
        assert Step(g, r) == Starved(g, r);
      }
    } else {
      QuietStepKeepsWakeups(g, r);
      WakeupsKeptNoLostWakeup(g, Step(g, r).g);
    }
  }

  /** An iteration that neither parks nor acts on starvation makes no runner
      start waiting and leaves every context's flags alone. */
  lemma QuietStepKeepsWakeups(g: Group, r: RunnerId)
    requires Wf(g) && r in g.runners && !Starving(g, r) && g.runners[r].wait != Parking
    ensures WakeupsKept(g, Step(g, r).g)
  {
    var run := g.runners[r];
    if run.wait == Waiting {
      assert Step(g, r) == Resume(g, r);
      if g.contexts[run.home].hasJobEvent {
        assert Resume(g, r).g == SetRunner(g, r, run.(wait := Running, idleMs := 0));
        SetRunnerKeepsWakeups(g, r, run.(wait := Running, idleMs := 0));
      }
    } else if !CancellationRequested(run, g.cancelled) && g.queues[run.tasksSource] != [] {
      assert Step(g, r) == Pass(g, r);
      var g1 := g.(queues := g.queues[run.tasksSource := g.queues[run.tasksSource][1..]]);
      assert Pass(g, r).g == SetRunner(g1, r, run.(idleMs := 0));
      SetRunnerKeepsWakeups(g1, r, run.(idleMs := 0));
    }
  }

  lemma SelfRecallKeepsWakeups(g: Group, r: RunnerId)
    requires Wf(g) && r in g.runners && Exported(g.runners[r])
    ensures WakeupsKept(g, SelfRecall(g, r))
  {
    var id := g.runners[r].exportRegistration.value;
    assert RegistrationOk(g, id);
    DisposeKeepsWakeups(g, id);
    var g1 := Registrations.Dispose(g, id);
    Registrations.DisposeKeepsRegistrationsOk(g, id);
    SetRunnerKeepsWakeups(g1, r, g1.runners[r].(exportRegistration := None));
    WakeupsKeptTransitive(g, g1, SelfRecall(g, r));
  }

  /** Changing a runner without changing its home or making it start to
      wait wakes whoever would have been woken. */
  lemma SetRunnerKeepsWakeups(g: Group, r: RunnerId, run: Runner)
    requires r in g.runners && run.home == g.runners[r].home
    requires run.wait != Running ==> g.runners[r].wait != Running
    ensures WakeupsKept(g, SetRunner(g, r, run))
  {
  }

  lemma WakeupsKeptTransitive(g0: Group, g1: Group, g2: Group)
    requires WakeupsKept(g0, g1) && WakeupsKept(g1, g2)
    ensures WakeupsKept(g0, g2)
  {
  }

  /** Disposing a registration moves a runner between queues and touches no
      wait state, `_hardLock` or job event. */
  lemma DisposeKeepsWakeups(g: Group, id: RegistrationId)
    requires RegistrationOk(g, id)
    ensures WakeupsKept(g, Registrations.Dispose(g, id))
  {
  }

  lemma StarvedBorrowKeepsWakeups(g: Group, r: RunnerId)
    requires Wf(g) && r in g.runners && ContextImpl.TryNotifyIdle(g, g.runners[r].home, r).ok
    ensures WakeupsKept(g, Starved(g, r).g)
  {
    var rep := ContextImpl.TryNotifyIdle(g, g.runners[r].home, r);
    ContextImpl.TryNotifyIdleLends(g, g.runners[r].home, r);
    var t := rep.g.registrations[rep.registration.value].target;
    assert Starved(g, r).g == Borrow(g, r, t);
    BorrowKeepsWakeups(g, r, t);
  }

  lemma BorrowKeepsWakeups(g: Group, r: RunnerId, t: ContextId)
    requires r in g.runners && g.runners[r].home in g.contexts && t in g.contexts
    ensures WakeupsKept(g, Borrow(g, r, t))
  {
    BorrowLent(g, r, t);
    ContextImpl.LendContexts(g, g.runners[r].home, r, t);
  }

  /** `Post` loses no wakeup either: it either sets the event or finds the
      event already set for every waiter of the context. */
  lemma PostKeepsNoLostWakeup(g: Group, c: ContextId, task: TaskId)
    requires Wf(g) && c in g.contexts && NoLostWakeup(g)
    ensures NoLostWakeup(ContextImpl.Post(g, c, task))
  {
    PostKeepsWakeups(g, c, task);
    WakeupsKeptNoLostWakeup(g, ContextImpl.Post(g, c, task));
  }

  lemma PostKeepsWakeups(g: Group, c: ContextId, task: TaskId)
    requires Wf(g) && c in g.contexts
    ensures WakeupsKept(g, ContextImpl.Post(g, c, task))
  {
    var ctx := g.contexts[c];
    var g1 := g.(queues := g.queues[ctx.tasks := Enqueue(g.queues[ctx.tasks], task)]);
    if !ctx.hardLock {
      assert forall id :: id in ctx.exported ==> RegistrationOk(g1, id) by {
        forall id | id in ctx.exported ensures RegistrationOk(g1, id) {
          assert RegistrationOk(g, id);
        }
      }
      ContextImpl.RecallAllFlags(g1, c, ctx.exported);
      ContextImpl.RecallAllKeepsWaits(g1, c, ctx.exported);
      ContextImpl.RecallAllKeepsLocks(g1, c, ctx.exported);
    }
  }

  /** The wakeup guarantee: after a `Post` to its home context, a blocked
      runner wakes on its next iteration. */
  lemma PostWakesWaiters(g: Group, c: ContextId, task: TaskId, r: RunnerId)
    requires Valid(g) && NoLostWakeup(g) && c in g.contexts
    requires r in g.runners && g.runners[r].home == c && g.runners[r].wait == Waiting
    ensures var g' := ContextImpl.Post(g, c, task);
      Valid(g') && r in g'.runners && Step(g', r).outcome == Woken
  {
    ContextImpl.PostPreservesValid(g, c, task);
    var ctx := g.contexts[c];
    var g1 := g.(queues := g.queues[ctx.tasks := Enqueue(g.queues[ctx.tasks], task)]);
    if !ctx.hardLock {
      assert forall id :: id in ctx.exported ==> RegistrationOk(g1, id) by {
        forall id | id in ctx.exported ensures RegistrationOk(g1, id) {
          assert RegistrationOk(g, id);
        }
      }
      ContextImpl.RecallAllFlags(g1, c, ctx.exported);
      ContextImpl.RecallAllKeepsWaits(g1, c, ctx.exported);
    }
  }

  /** The lost wakeup of the loop as written: a runner has just failed
      `TryNotifyIdle` (so `_hardLock` is set) and is about to block. A
      `Post` to its home clears `_hardLock` and sets the event; the runner's
      own `Reset()` then erases that signal and it blocks. From then on
      `_hardLock` is clear, so a later `Post` takes the recall path, which
      sets no event while nothing is lent out: the runner stays blocked
      although its home queue has work. */
  lemma LostWakeup(g: Group, r: RunnerId, t1: TaskId, t2: TaskId)
    requires Valid(g) && r in g.runners && g.runners[r].wait == Parking
    requires var ctx := g.contexts[g.runners[r].home]; ctx.hardLock && ctx.exported == []
    ensures var c := g.runners[r].home;
      var g1 := ContextImpl.Post(g, c, t1);
      var g2 := ParkAsWritten(g1, r);
      var g3 := ContextImpl.Post(g2, c, t2);
      && Wf(g3) && !NoLostWakeup(g2)
      && Step(g3, r).outcome == StillBlocked && HasWork(g3, c)
  {
    var c := g.runners[r].home;
    var g2 := ParkAsWritten(ContextImpl.Post(g, c, t1), r);
    WakeupErased(g, r, t1);
    StaysBlocked(g2, r, t2);
  }

  /** The first half: the runner's `Reset()` erases the wakeup `Post` gave
      it, and `_hardLock` is clear. */
  lemma WakeupErased(g: Group, r: RunnerId, t1: TaskId)
    requires Valid(g) && r in g.runners && g.runners[r].wait == Parking
    requires var ctx := g.contexts[g.runners[r].home]; ctx.hardLock && ctx.exported == []
    ensures var c := g.runners[r].home;
      var g2 := ParkAsWritten(ContextImpl.Post(g, c, t1), r);
      && Valid(g2) && !NoLostWakeup(g2)
      && r in g2.runners && g2.runners[r].wait == Waiting && g2.runners[r].home == c
      && g2.contexts[c] == g.contexts[c].(hardLock := false, hasJobEvent := false)
  {
    var c := g.runners[r].home;
    ContextImpl.PostWakes(g, c, t1);
    ContextImpl.PostPreservesValid(g, c, t1);
    var g1 := ContextImpl.Post(g, c, t1);
    SameLoansValid(g1, ParkAsWritten(g1, r));
  }

  /** The second half: with `_hardLock` clear and nothing lent out, a
      `Post` leaves the event reset and the runner blocked. */
  lemma StaysBlocked(g: Group, r: RunnerId, t: TaskId)
    requires Valid(g) && r in g.runners && g.runners[r].wait == Waiting
    requires var ctx := g.contexts[g.runners[r].home]; !ctx.hardLock && !ctx.hasJobEvent && ctx.exported == []
    ensures var c := g.runners[r].home;
      var g' := ContextImpl.Post(g, c, t);
      && Wf(g') && r in g'.runners && Step(g', r).outcome == StillBlocked && HasWork(g', c)
  {
    var c := g.runners[r].home;
    ContextImpl.PostNothingLent(g, c, t);
    var g' := ContextImpl.Post(g, c, t);
    assert SameLoans(g, g');
    SameLoansValid(g, g');
  }
}
